=== FILE: README.md ===
# Electrochemical CO2 capture analysis: a Dafny model

The repository analyses electrochemical pH-swing CO2 capture experiments.
Gamry potentiostat files give one table of electrochemistry (voltage, current, probe pH) per
half cycle. A gas logger gives one table of flows and CO2 readings. The code:

- parses the Gamry files;
- works out when each phase of each cycle started;
- merges the two tables on a common hour axis and corrects the flow for the CO2 fraction;
- finds the gas-switch schedule;
- integrates the baseline-corrected flow into captured and released amounts;
- runs the carbonate chemistry that turns pH, CO2 partial pressure and passed charge into
  total alkalinity (TA) and three estimates of dissolved inorganic carbon (DIC) per state.

This project models that core as pure functions and loop-carrying methods over `real`, `int`, sequences and
records, and proves what each step computes.

| file | module | models |
|---|---|---|
| common.dfy | `Common` | `Result`/`Option`, range sums (`np.sum`), Python slice bounds |
| text.dfy | `Text` | `str.split()`, `str.split(sep)`, `int()` on digit strings, `str(n)` |
| carbonate.dfy | `Carbonate` | `dic`, `hco3`, `co32`, `TA`, `TA_pH_wrapper`, and the `co2aq` root of `TA` |
| frames.dfy | `Frames` | timestamp lookup, `iloc`, half-open time windows, the datetime order |
| dic_cycles.dfy | `DicCycles` | `calc_DIC`: five states per cycle, the TA recurrence, three DICs |
| gas.dfy | `GasMethods` | `find_gas_change_time`, `create_baseline`, `calculate_amount` |
| gamry_header.dfy | `GamryHeader` | `find_date_time` (shared by both Gamry readers), datetime validity |
| gamry.dfy | `Gamry` | echem_methods.py: file names, data-row rule, calibration, capacity, efficiencies, outgas rollover, EIS |
| gamry_legacy.dfy | `GamryLegacy` | echem_method.py, the earlier revision of the same readers |
| flow.dfy | `FlowCorrection` | the arithmetic of `merge_echem_gas_df` |

Conventions:

- **Acidity.** The chemistry is written in `h = [H+] = 10^-pH`, a positive real, so no
  exponentials appear. The pH columns of the tables are taken as already converted.
- **Root-finders.** `newton_krylov` is a parameter `solve` that returns a value or fails. The
  model assumes only that a returned value is a positive root of the alkalinity residual
  (`DicCycles.SoundSolver`). `fsolve` for `co2aq` is replaced by the exact root: `TA` is
  affine and strictly increasing in `co2aq`, so that root exists and is unique.
- **Other outside code.**
  - `np.polyfit` in `create_baseline` is a parameter `polyfit`.
  - The pickled CO2 spline is the input column `pco2Fit`.
  - `float()` on a token is a parameter `parseFloat`.
  - Files are a map from path to lines.
- **Failures.** Every exception the source lets escape on a modelled path is an `Err` value:
  - an `IndexError` from `.values[0]` or `iloc`;
  - a `KeyError` for a missing column;
  - a `NameError` for an unbound name;
  - a `ValueError` from the `datetime` constructor;
  - a non-converging solver.
- **Lookups and `iloc`.** `calc_DIC` and `create_baseline` look a row up by timestamp and
  pass the row's index label to `iloc`, which expects a position. `Frames.IndexRule` keeps
  both readings. A negative `iloc` position counts from the end, as pandas does.

Two facts about the code that a reader may expect to be otherwise:

- **TA and pH.** `TA` (calc_dic.py:93) contains a `+[H+]` term, so TA is not monotone in pH
  over the whole range. `Carbonate.TaNotMonotoneInPhNearZero` is a counterexample near pH 0.
  `Carbonate.TaNonDecreasingInPhAboveNeutral` proves that TA does not decrease with pH
  when `h1*h2 <= Kw`.
- **Outgas shift.** The docstring of `calc_DIC` calls `outgas_shift` a time in seconds
  (calc_dic.py:148). The code subtracts it from a row label (calc_dic.py:213), so it counts
  rows. The model follows the code.

## Model

| member | source | states |
|---|---|---|
| Carbonate.SolveValueShift | calc_dic.py:36-93 | Passing `solve_value = t` to `dic`, `hco3`, `co32` or `TA` subtracts `t` from the value at 0, so a root of `TA(., ., t)` is a point where TA equals `t` |
| Carbonate.TaPhWrapper | calc_dic.py:95-125 | The closure handed to the pH solver spells the TA formula out again; it agrees with `TA` at every `h` |
| Carbonate.DicFactored | calc_dic.py:36 | DIC is `co2aq + co2aq*K1/h + co2aq*K1*K2/h^2` |
| Carbonate.Hco3ClosedForm | calc_dic.py:55 | Bicarbonate, written as a fraction of DIC, is `co2aq*K1/h` |
| Carbonate.Co32ClosedForm | calc_dic.py:74 | Carbonate, written as a fraction of DIC, is `co2aq*K1*K2/h^2` |
| Carbonate.MassBalance | calc_dic.py:36-74 | `co2aq + HCO3- + CO3^2-` is exactly DIC |
| Carbonate.SpeciesNonNegative | calc_dic.py:36-74 | With `co2aq >= 0` both ions are non-negative and DIC is at least `co2aq` |
| Carbonate.TaSlope | calc_dic.py:93 | The coefficient of `co2aq` in TA is positive at every `h` |
| Carbonate.TaAffine | calc_dic.py:93 | TA is `Kw/h + h + co2aq*slope(h) - t`: affine in `co2aq` |
| Carbonate.TaIncreasingInCo2aq | calc_dic.py:93 | At fixed `h`, more aqueous CO2 means strictly more alkalinity |
| Carbonate.Co2aqForTa | calc_dic.py:227 | The `co2aq` the `fsolve` call looks for exists and is the only root of `TA(., h, t)` |
| Carbonate.TaNonDecreasingInPhAboveNeutral | calc_dic.py:93 | For `co2aq >= 0` and `h1 < h2` with `h1*h2 <= Kw`, raising `[H+]` does not raise TA |
| Carbonate.TaNotMonotoneInPhNearZero | calc_dic.py:93 | At `co2aq = 0`, `h = 1` has more alkalinity than `h = 0.5`: TA is not monotone in pH everywhere |
| Frames.PrecedesIsStrictTotal | gas_methods.py:168-169 | The datetime comparison used by the window filters is a strict total order |
| Frames.FirstMatch | calc_dic.py:184 | The row found by a timestamp is the first row carrying it; none means no row carries it |
| Frames.MatchIndex | calc_dic.py:204-213 | The lookup succeeds exactly when the timestamp occurs in the table |
| Frames.MatchedPositionFindsRow | calc_dic.py:204-215 | Under the corrected rule `iloc` reads the first row carrying the timestamp |
| Frames.LabelLookupMisreads | calc_dic.py:204-215 | After a filter removed label 1, the as-written lookup of the second row's time reads the third row |
| Frames.ILoc | calc_dic.py:215 | `iloc` succeeds exactly for positions in `[-n, n)` and reads position `index` or `n + index` |
| Frames.Window | gas_methods.py:168-169 | The window filter returns in-range row positions in strictly increasing order |
| Frames.WindowMembership | gas_methods.py:168-169 | A row is in the window exactly when `lo <= Datetime < hi` |
| DicCycles.EventTime | calc_dic.py:184-213 | Which event each state is located at; a cycle beyond the gas-switch table fails; 3'f needs an outgas column |
| DicCycles.StateIndex | calc_dic.py:204-213 | A state's index is the lookup result plus its offset (3'i +1, 3'f -shift) and exists exactly when the time occurs |
| DicCycles.Entry | calc_dic.py:215 | The row read for an index is the `iloc` position, failing exactly when `iloc` does |
| DicCycles.PCo2 | calc_dic.py:218 | pCO2 is defined exactly when CO2+N2 is non-zero and then times that sum gives CO2 |
| DicCycles.PCo2InUnitInterval | calc_dic.py:218 | With non-negative flows pCO2 lies in `[0, 1]` |
| DicCycles.Solve | calc_dic.py:224 | The theoretical `[H+]` exists exactly when the solver converges and is then a root of the TA residual |
| DicCycles.InitialState | calc_dic.py:184-200 | Succeeds exactly when state 3'i is readable: the charge-start time occurs, the row after it exists and its gas flow is non-zero. A missing time fails with `NoMatchingTime`. The row is indexed at that time and holds the equilibrium chemistry: TA from the measured pH, all three DICs equal |
| DicCycles.LaterState | calc_dic.py:202-241 | Succeeds exactly when the state is readable and the root-finder converges for the TA carried from `prev` by the charge between the two rows. An event-time failure is passed on. The row is indexed at its event and carries that TA. Its theoretical pH is exactly the root-finder's answer started from the measured pH (`LaterChemistry`), DIC_theory is taken at that pH, and DIC_TA comes from the unique implied CO2 |
| DicCycles.CycleRows | calc_dic.py:182-241 | Succeeds exactly when all five states are readable and the solver converges at each later state for that state's TA (`CycleSucceeds`). No gas-switch row, or no charge-start time, fails. The rows are 3'i, 1, 1', 3, 3'f of that cycle, chained by the TA recurrence, with each later row's theoretical pH the solver's answer |
| DicCycles.CalcDic | calc_dic.py:127-246 | Succeeds exactly when every cycle of the echem table succeeds. Fewer gas-switch rows than cycles fail; a missing first charge start fails with `NoMatchingTime`. Five rows per cycle, each cycle's slice of the shape above, so the pH_theory and DIC_theory columns hold the solver's roots |
| DicCycles.TaStep | calc_dic.py:217 | In a readable cycle, the TA carried from the previous state's row is the state's own TA, fixed by the row indices alone |
| DicCycles.TableRows | calc_dic.py:181-241 | Row `k` of the output is cycle `k/5+1`, state `k%5`, and an initial or a carried row accordingly |
| DicCycles.InitialStateSelfConsistent | calc_dic.py:189-200 | At 3'i the CO2 implied by TA at the measured pH is the equilibrium CO2 itself |
| DicCycles.DicTaIsDicEqAtEquilibrium | calc_dic.py:227-230 | When the measured pH already fits the carried TA at equilibrium, DIC_TA equals DIC_eq |
| DicCycles.TaTelescopes | calc_dic.py:217 | Along non-decreasing indices, state `j`'s TA is the 3'i TA plus all charge between the two rows over Faraday and volume |
| DicCycles.ZeroCurrentKeepsTa | calc_dic.py:217 | No current between the rows leaves TA unchanged |
| DicCycles.BackwardStepKeepsTa | calc_dic.py:217 | An index not after the previous one gives an empty slice and the previous TA |
| DicCycles.RulesAgreeOnRows | calc_dic.py:204-215 | On a table with its default index, as-written and corrected lookups index every row alike |
| GasMethods.SwitchCountSpec | gas_methods.py:30 | The loop visits exactly the `i >= 1` with `i*period` inside the table |
| GasMethods.SwitchTableShape | gas_methods.py:30-44 | Cycles are 1..k; low-to-high rows are `period*1, *3, ...`; high-to-low rows `period*2, *4, ...`; the only blank is the last, exactly when the count is odd |
| GasMethods.HalfCounts | gas_methods.py:30-41 | The alternating appends leave `ceil(c/2)` low-to-high and `floor(c/2)` high-to-low switches |
| GasMethods.AssembleTable | gas_methods.py:42-45 | The collected columns, padded with one blank when the high-to-low column is short, are the reference table |
| GasMethods.FindGasChangeTime | gas_methods.py:13-46 | The loop builds that table for a positive period, never stops for period 0 on a non-empty table, and fails on a negative one |
| GasMethods.Locate | gas_methods.py:69-72 | `.index.values[0]` fails exactly when the time is absent and otherwise is the first match |
| GasMethods.CreateBaseline | gas_methods.py:50-85 | Missing times or column fail; else returns both matches and fits the `baseline_range` rows before each |
| GasMethods.Residuals | gas_methods.py:174-178 | Unshifted, one residual per window row: the column minus the fitted line at that row's hour |
| GasMethods.AmountsAreScaledSums | gas_methods.py:173-178 | Both amounts are the residual sum over 60, times 11.7 for a capture parameter other than the corrected flow |
| GasMethods.Column | gas_methods.py:139-143 | Reading a column fails exactly when it is absent |
| GasMethods.WindowResiduals | gas_methods.py:168-178 | The residuals are taken over exactly the half-open window's rows, in order |
| GasMethods.CycleBaselines | gas_methods.py:136-154 | The steps before the baseline setting is read succeed exactly when the cycle's windows exist; a missing cycle or capture column fails first; the fits are the two `create_baseline` results |
| GasMethods.CycleAmount | gas_methods.py:136-188 | Succeeds exactly when the cycle's windows exist and the baseline is `'Adaptive'` (`CycleReady`). A missing cycle or capture column fails as the source does. The row's slopes, intercepts and four indices are the cycle's two `create_baseline` results (`CycleBaselines`). Its amounts are the window integrals against those lines, and its average is `(abs(capture)+outgas)/2` |
| GasMethods.AmountRows | gas_methods.py:136-186 | Succeeds exactly when every cycle `0..cycle-1` is ready, stopping at the first failing cycle. One row per cycle, each holding its cycle's `create_baseline` fits and the amounts measured against them |
| GasMethods.ReadyGrows | gas_methods.py:136 | One more ready cycle extends a run of ready cycles |
| GasMethods.CalculateAmount | gas_methods.py:89-201 | Succeeds exactly when there is at least one cycle and every cycle is ready. Zero cycles fail with the source's NameError, and so does a fixed baseline. Row `k` holds cycle `k+1`'s baseline fits and its amounts against them |
| GamryHeader.DaysInMonth | echem_methods.py:39 | Month lengths lie between 28 and 31 |
| GamryHeader.MakeDateTime | echem_methods.py:39 | The datetime constructor succeeds exactly on valid fields |
| GamryHeader.ReadPieces | echem_methods.py:31-37 | Succeeds exactly when every piece named by the reading order exists and is an integer, giving their values in that order; otherwise the error is that of the first piece in the order that is missing (`IndexError`) or not an integer (`ValueError`) |
| GamryHeader.FailsLater | echem_methods.py:35-37 | A failure after a readable first piece is still the first failure of the whole reading |
| GamryHeader.DateLineRead | echem_methods.py:31-33 | A DATE line succeeds exactly when its third token has three integer pieces, giving (piece 2, piece 0, piece 1) as (year, month, day). A line with fewer than three tokens, or a token with fewer than three pieces, is an `IndexError`, because the year is indexed first |
| GamryHeader.TimeLineRead | echem_methods.py:35-37 | A TIME line succeeds exactly when its third token has three integer pieces, giving (hour, minute, second) in written order. A bad hour is a `ValueError` even with no `:`; a good hour with no second piece is an `IndexError`; a bad minute is a `ValueError` before the third piece is looked at |
| GamryHeader.ScanLine | echem_methods.py:29-37 | A DATE line sets only the date, a TIME line only the time, other lines nothing |
| GamryHeader.FindDateTime | echem_methods.py:17-40 | A header that parses gives a valid datetime |
| GamryHeader.DateTimeOf | echem_methods.py:39 | Fields never set fail; otherwise the datetime holds exactly the scanned fields |
| GamryHeader.ScanHeaderStep | echem_methods.py:29-37 | The scan is a left fold of the single-line step |
| GamryHeader.ScanOtherLines | echem_methods.py:29-37 | Lines that are neither DATE nor TIME change nothing |
| GamryHeader.LastDateLineWins | echem_methods.py:29-33 | The last DATE line determines the date |
| GamryHeader.LastTimeLineWins | echem_methods.py:34-37 | The last TIME line determines the time |
| GamryHeader.KeepsDate | echem_methods.py:29-33 | Without a DATE line the date stays as it was |
| GamryHeader.KeepsTime | echem_methods.py:34-37 | Without a TIME line the time stays as it was |
| GamryHeader.NoDateLineFails | echem_methods.py:39 | A file without a DATE line cannot give a datetime |
| GamryHeader.NoTimeLineFails | echem_methods.py:39 | A file without a TIME line cannot give a datetime |
| GamryHeader.DateLineFieldOrder | echem_methods.py:31-33 | A written `DATE <tag> m/d/y` line reads back as (y, m, d) |
| GamryHeader.TimeLineFieldOrder | echem_methods.py:35-37 | A written `TIME <tag> h:m:s` line reads back as (h, m, s) |
| GamryHeader.ThirdTokenOfHeader | echem_methods.py:31 | `split()` of a tab-joined header line gives back its tokens, so token 2 is the value |
| Text.SkipSpacesDropsLeadingSpace | echem_methods.py:97 | What is dropped before a token is exactly the leading whitespace, and the rest starts with a non-space |
| Text.WordLengthIsWordEnd | echem_methods.py:97 | A token runs up to the first whitespace and contains none |
| Text.WordsAreTokens | echem_methods.py:97 | `split()` yields non-empty tokens without whitespace |
| Text.WordsOfTabJoin | echem_methods.py:97 | `split()` undoes a tab join of such tokens, whatever whitespace trails |
| Text.IndexOfFrom | echem_methods.py:87 | Finds the first occurrence of a separator at or after a position |
| Text.SplitOfJoin | echem_methods.py:87-88 | `split(sep)` undoes a join on `sep` of pieces without `sep` |
| Text.LastPieceAfterSeparator | echem_methods.py:87 | The last piece of a split is what follows the last separator |
| Text.ShowNat | echem_methods.py:87 | `str(n)` is a non-empty digit string |
| Text.ShowNatRoundTrip | echem_methods.py:87 | Digits read back to the number they show |
| Text.ParseShowNat | echem_methods.py:87 | `int(str(n)) == n` |
| Gamry.FileNameRoundTrip | echem_methods.py:87-88 | `dir/PREFIX_#N.ext` gives cycle `N` and process `PREFIX` |
| Gamry.FirstStartingWith | echem_methods.py:91-92 | Finds a line with the prefix |
| Gamry.FirstStartingWithIsFirst | echem_methods.py:91-92 | No earlier line has the prefix; none means no line has it |
| Gamry.TokenLines | echem_methods.py:95-97 | One token row per line |
| Gamry.KeptRowsFailOnBlank | echem_methods.py:95 | The row loop fails exactly when a blank line follows the first data line |
| Gamry.KeptRowsAreData | echem_methods.py:95 | Kept rows are non-empty and not STARTTIMEOFFSET; every such row after the start is kept |
| Gamry.ScanExtend | echem_methods.py:91-115 | One more line: a blank line fails, the time-offset line is skipped, any other line is parsed and appended, or fails with its parse error |
| Gamry.ScanErrorPersists | echem_methods.py:95-115 | Once the loop has failed, later lines do not change the error |
| Gamry.ScanSucceeds | echem_methods.py:95-115 | The loop reaches the end exactly when no line in range is blank or fails to parse |
| Gamry.ScanStopsAtFirstFailure | echem_methods.py:95-115 | The error reported is the one the first failing line raises |
| Gamry.ScanParsesKept | echem_methods.py:95-115 | Parsing each line as it is read succeeds exactly when the selection succeeds and every selected row parses; then row `k` is the parse of selected row `k` |
| Gamry.ParsedRowsAreParsedDataRows | echem_methods.py:89-115 | The same relation between the reading and the declarative data-row rule |
| Gamry.FirstStartingWithAt | echem_methods.py:91-92 | A line with the prefix and none before it is the one found |
| Gamry.TokenLinesAt | echem_methods.py:95-97 | Line `k` of the token table is `split()` of line `k` |
| Gamry.ParsedRowsAt | echem_methods.py:89-115 | Once the first data line is known, the reading is the row loop from that line to the end |
| Gamry.CollectRows | echem_methods.py:91-115 | The flag-on loop, which parses each line as it reaches it, returns the reference reading `Scan`: the first blank or unparsable line's error, or the parsed rows |
| Gamry.SelectDataRows | echem_methods.py:89-115 | The flag loop, which keeps the line that sets the flag, returns the reference reading `ParsedRows` |
| Gamry.Column | echem_methods.py:100-115 | A column read fails on a short row and otherwise is `float` of that token |
| Gamry.ParseRow | echem_methods.py:97-115 | Time, voltage, current and temperature from columns 1, 2, 3, 8; calibrated pH from columns 11 and 17; time is start plus offset |
| Gamry.Parser | echem_methods.py:97-115 | The parser value reads every token row as `ParseRow` does |
| Gamry.PrefixSums | echem_methods.py:131 | `np.cumsum`: output `k` is the sum of the first `k+1` currents |
| Gamry.CapacityIncrements | echem_methods.py:131 | Consecutive capacities differ by one current; the last is the total |
| Gamry.WithCapacity | echem_methods.py:131-135 | Adds the capacity column and changes nothing else: every other field, and so the currents and powers, stay |
| Gamry.AnalyzeGamryFile | echem_methods.py:42-138 | Succeeds exactly when the name has a cycle marker and the data lines parse into at least one row. Errors come in source order: the name, then the first failing data line, then an empty data section. The rows are the file's parsed data rows, tagged with the name's cycle and process, with capacity their running current sum |
| Gamry.Efficiency | echem_methods.py:360-361 | `abs(d/c)` is defined exactly when `c != 0`, is non-negative, and times `abs(c)` gives `abs(d)` |
| Gamry.CycleCapacityEnergy | echem_methods.py:355-361 | Capacities are current sums, energies current-voltage sums, efficiencies their ratios |
| Gamry.CapacityIsLastCumulative | echem_methods.py:131 | The last capacity of a half cycle is its summed current |
| Gamry.HalfCycleSeries | echem_methods.py:346-359 | Succeeds exactly when the file exists and `analyze_gamry_file` reads it; a missing file fails. The series are the currents and current-voltage products of that file's rows |
| Gamry.CalCapacityEnergy | echem_methods.py:266-368 | Succeeds exactly when the first charge file gives a start time and both files of every cycle 1..n are readable. Row `i` is built from cycle `i+1`'s two files, with consistent efficiencies |
| Gamry.CycleEnergyRow | echem_methods.py:346-361 | One loop iteration succeeds exactly when both of the cycle's files are readable, and returns that cycle's row |
| Gamry.ReadableGrows | echem_methods.py:345-359 | Readable files for one more cycle extend a readable table |
| Gamry.OutgasEnd | echem_methods.py:476-484 | Year, month and second unchanged; minute of month grows by the outgas time; the minute stays below 60 |
| Gamry.OutgasEndHourInRange | echem_methods.py:476-483 | The hour is in range iff less than 48 hours accumulate; the day advances iff at least 24 do |
| Gamry.OutgasEndValid | echem_methods.py:476-484 | A valid start plus less than a day that stays within the month gives a valid datetime |
| Gamry.OutgasEndIsLater | echem_methods.py:476-484 | The end lies exactly `60*outgas_time` seconds after the start |
| Gamry.ReadFile | echem_methods.py:445-463 | Opening succeeds exactly for existing paths and yields their lines |
| Gamry.CycleTimes | echem_methods.py:443-485 | Succeeds exactly when the charge and discharge files, and with CO2 the invasion file, give header datetimes, and with CO2 the outgas file, scanned from the carried variables, gives a start whose rolled-over end is valid. The row holds exactly those datetimes, with the end `outgas_time` minutes after the start; the end becomes the carried variables |
| Gamry.TimePeriods | echem_methods.py:443-495 | Succeeds exactly when every cycle in turn does (`PeriodsDated`). One row per cycle, numbered consecutively, each holding its files' times scanned from the variables the previous row left |
| Gamry.FindEchemTimePeriod | echem_methods.py:371-495 | Cycles 1..n with the independent day wrap, from unassigned variables. Succeeds exactly when every cycle does; each row holds its files' times |
| Gamry.PeriodsDatedWithoutCo2 | echem_methods.py:443-463 | Without CO2 the header variables never change, so the table exists exactly when each cycle's files give datetimes on their own (`EachCycleDated`), not only when every earlier cycle succeeded |
| Gamry.ChainedAt | echem_methods.py:443-485 | A property that holds row by row, along the carried header variables, holds at every index |
| Gamry.RowsFromFilesAt | echem_methods.py:443-485 | Row `k` holds the times of cycle `first+k`: the charge, invasion and discharge header datetimes, the outgas start scanned from the previous row's outgas end, and its rolled-over end |
| Gamry.ParseEisLine | echem_methods.py:602-606 | Frequency, Zreal, Zimag are tokens 2, 3, 4 |
| Gamry.ReadGamryEis | echem_methods.py:580-611 | Every line after the first `\t#` line, and not that line, gives one point; no such line gives none; a failure is the error of the first line after the header that does not convert |
| GamryLegacy.LegacyParseRow | echem_method.py:74-89 | The earlier row: the same columns without temperature, with the fixed calibrations |
| GamryLegacy.LegacyParser | echem_method.py:74-89 | The parser value reads every token row as `LegacyParseRow` does |
| GamryLegacy.LegacyAnalyzeGamryFile | echem_method.py:38-105 | Succeeds exactly when the data lines parse into at least one row; the first failing data line's error is returned and an empty data section fails. The rows are the parsed data rows |
| GamryLegacy.RevisionsAgreeOnRows | echem_method.py:85-86 | The two revisions read a row alike except a right-probe pH 0.0002 lower |
| GamryLegacy.LegacyHalfCycleSeries | echem_method.py:233-246 | Succeeds exactly when the file exists and the earlier reader reads it. The series are that file's currents and current-voltage products |
| GamryLegacy.LegacyCurrents | echem_method.py:243-245 | One current per row, in order |
| GamryLegacy.LegacyPowers | echem_method.py:244-246 | One current-voltage product per row, in order |
| GamryLegacy.LegacyCalCapacityEnergy | echem_method.py:189-255 | Succeeds exactly when the start time and both files of every cycle are readable. Row `i` is cycle `i+1`'s row from its files |
| GamryLegacy.LegacyCycleEnergyRow | echem_method.py:233-248 | One loop iteration succeeds exactly when both of the cycle's files are readable, and returns that cycle's row |
| GamryLegacy.LegacyReadableGrows | echem_method.py:232-241 | Readable files for one more cycle extend a readable table |
| GamryLegacy.LegacyFindEchemTimePeriod | echem_method.py:258-348 | Cycles 1 to 5 with the nested day wrap. Succeeds exactly when every cycle does; each row holds its files' times |
| GamryLegacy.WrapRulesAgree | echem_method.py:329-336 | The nested and independent day wraps agree iff the minutes carry or the hour stays below 24 |
| GamryLegacy.LegacyMidnightOverflow | echem_method.py:329-337 | 23:00 plus 60 minutes leaves hour 24 under the nested wrap, which the datetime constructor rejects |
| FlowCorrection.Span | utils.py:39-40 | A span in microseconds is normalised into days, seconds in the day and microseconds that recombine to it |
| FlowCorrection.TimeDeltaHours | utils.py:39-40 | `Time_Delta` times 3600 is the span in whole seconds, rounded down |
| FlowCorrection.FloorOfSpan | utils.py:39-40 | Days and seconds of a span are its floor in whole seconds, also before the origin |
| FlowCorrection.TimeDeltaBounds | utils.py:39-40 | The first gas row is hour 0; `Time_Delta` is within one second below the exact span |
| FlowCorrection.TimeDeltaMonotone | utils.py:39-40 | Later instants never get an earlier `Time_Delta` |
| FlowCorrection.LoopFilter | utils.py:43 | The kept rows are no more than the input and all pass the test |
| FlowCorrection.LoopFilterMembership | utils.py:43 | A row survives iff it was present with a `loop_num` below the limit (NaN fails) |
| FlowCorrection.LoopFilterAppend | utils.py:43 | The filter keeps order: filtering a concatenation concatenates the filtered parts |
| FlowCorrection.LoopFilterIdempotent | utils.py:43 | Filtering twice equals filtering once |
| FlowCorrection.ClampPco2 | utils.py:53 | The clamped fraction is at most 0.90 or exactly 1; it changes only values above 0.90 |
| FlowCorrection.ClampIdempotent | utils.py:53 | Clamping twice equals clamping once |
| FlowCorrection.CorrectedFlow | utils.py:57 | The flow at `p = 0`, 0.685 times it at `p = 1`, reduced by 31.5% of the flow per unit of `p` |
| FlowCorrection.CorrectedFlowBetween | utils.py:57 | For `flow >= 0` and `p` in [0, 1], between the pure-CO2 value and the flow, decreasing in `p` |
| FlowCorrection.SaturatedReadingIsPureCo2 | utils.py:53-57 | A fitted fraction above 0.90 gives exactly the pure-CO2 correction |
| FlowCorrection.UniformTaps | utils.py:48-49 | `[1/n]*n` |
| FlowCorrection.UniformTermsAreWindowSum | utils.py:48-51 | With equal taps, `lfilter`'s terms are the tap value times the sum of the last `m` samples, zero before the start |
| FlowCorrection.MovingAverage | utils.py:48-51 | The running-window filter equals `lfilter(b, 1, x)` |
| FlowCorrection.ConstantInput | utils.py:48-51 | A constant input ramps as `(k+1)c/80` over the first 79 outputs and is reproduced from output 79 on |
| FlowCorrection.ClampColumn | utils.py:53 | The clamp applied row by row |
| FlowCorrection.CorrectFlows | utils.py:48-58 | The clamped `right_pco2`, the corrected flow, and the correction of the smoothed flow by the smoothed clamped fraction |

## Left out

- Reading files, `glob`, `pickle`, `tqdm`, plotting, and pandas' `merge`: tables are sequences and maps given as inputs.
- The outer merge on `Time_Delta` (utils.py:42): its result is the input to the loop filter and to `calc_DIC`.
- `np.polyfit`: the sixth-degree pH fits of the Gamry readers are not computed; the linear baseline fit is the parameter `polyfit`.
- The pickled cubic-spline CO2 calibration: its output is the input column `pco2Fit`.
- The internals of `newton_krylov` and `fsolve`; the worked pH value in the `TA_pH_wrapper` docstring needs `10^-pH` and is not reproduced.
- DicCycles.TotalFrame: a NaN `Current` in a row the outer merge left without echem data (utils.py:42-43) is given as 0.0. That is exactly what the NaN-skipping pandas sum makes of it (calc_dic.py:217), so the carried TA is unchanged.
- DicCycles.TotalFrame: a state row whose `pH_right` is NaN (calc_dic.py:186, 215) is outside the model. `h` holds positive reals only, whereas the source carries the NaN into TA, DIC and the `newton_krylov` start.
- Floating-point rounding: all quantities are `real`, so 0/0 in pCO2 is an error (`ZeroGasFlow`) rather than NaN propagating into later rows.
- DicCycles.Solve: only the defining property of a converged `newton_krylov` result is assumed (`SoundSolver`), not that it converges whenever a root exists.
- Gamry.OutgasEndValid: requires the outgas end to stay inside the start's month, because the source's `day + 1` overflows at the month end and that case is not modelled as a datetime.
- Gamry.OutgasEndIsLater: stated on the calendar's linear time scale, which extends day numbers past the month end.
- Calendar arithmetic for `Time_Delta`: instants are given as microsecond counts, so the conversion of a datetime to an instant is not modelled.
- GasMethods.Residuals: for a non-zero `shift_periods` only the length bound is stated; the shifted frame's NaN rows are skipped as `np.sum` skips them.
- GasMethods.CalculateAmount: the non-adaptive branch reads the unbound name `parameter` and always fails; it is modelled as that failure, and its arithmetic is not.
- GasMethods.FindGasChangeTime: a zero switch period never terminates on a non-empty table; this is reported as the error `NeverStops`.
- `calc_DIC`'s volume is taken positive; the source does not check it.
- The no-CO2 branch of `find_echem_time_period` rescans the discharge file after `find_date_time` has consumed it, so that scan reads nothing and is left out.
- GasMethods.CreateBaseline: `polyfit` is total, so a baseline window with no rows still gives a line; `np.polyfit` raises `TypeError` on empty arrays (gas_methods.py:83).
- Gamry.OutgasEnd: `outgas_time` is a whole number of minutes. The source computes `int(outgas_time%60)` and `int(outgas_time//60)`; for a float argument both equal the model applied to `floor(outgas_time)`.
- Text.IsSpace: covers ASCII whitespace, the separators U+001C to U+001F, U+0085 and U+00A0. The other Unicode whitespace that `str.split()` also splits on (U+1680, U+2000 to U+200A, U+2028, U+2029, U+202F, U+205F, U+3000) is not included.
- Text.ParseInt: accepts an optional sign and ASCII decimal digits only. Python's `int()` also accepts underscores between digits (`"1_0"`), surrounding whitespace and non-ASCII Unicode decimal digits. The model rejects these. Surrounding whitespace cannot occur in a `split()` token of a header line, but it can in the cycle-number piece of a file name (`Gamry.ParseFileName`): for `name_# 3.DTA` the source reads cycle 3, while the model gives `BadCycleNumber`.
- `create_echem_dfs`, `read_echem` and the plotting module: they assemble the modelled pieces with file I/O.

## Findings

| source | as written | input that shows it | evidently intended | confidence | as-written member | corrected member |
|---|---|---|---|---|---|---|
| calc_dic.py:204-215 | The first match's index LABEL (`.index.values[0]`) is passed to `iloc` as a POSITION | `total_df` after the `loop_num` filter dropped label 1: labels `[0, 2, 3]`, times 00:00:10/20/30; looking up 00:00:20 gives label 2 and `iloc[2]` reads the 00:00:30 row | Read the row that carries the timestamp, i.e. its position 1 | medium, not executed | Frames.LabelLookupMisreads | Frames.MatchedPositionFindsRow |
| echem_method.py:329-337 | The day wrap is nested inside the minute carry | Outgas start 23:00:00 with the default `outgas_time = 60`: no minute carry, hour becomes 24 and `datetime(...)` raises | Wrap the hour whether or not the minutes carried, as echem_methods.py:481-483 does | high, not executed | GamryLegacy.LegacyMidnightOverflow | Gamry.OutgasEndValid |

=== FILE: carbonate.dfy ===
/** The carbonate-system algebra of calc_dic.py: dissolved inorganic carbon,
    bicarbonate, carbonate and total alkalinity as closed-form expressions in
    the aqueous CO2 concentration and the hydrogen-ion concentration.

    The source takes pH and computes `[H+] = 10^-pH`; here the variable is
    `h = [H+]` itself, which is positive for every pH, so no exponential is
    needed. Each function takes the source's `solve_value` (`target`), which
    turns it into the residual `f(x) - target` that the root-finders drive to
    zero. */
module Carbonate {

  /** Hydrogen-ion concentrations (and other strictly positive quantities). */
  type Positive = r: real | r > 0.0 witness 1.0

  /** First dissociation constant of carbonic acid. */
  const K1: real := 0.0000011
  /** Second dissociation constant of carbonic acid. */
  const K2: real := 0.00000000041
  /** Dissociation constant of water. */
  const KW: real := 0.00000000000001
  /** Henry's-law factor turning CO2 partial pressure into aqueous CO2. */
  const HENRY: real := 0.035

  function Dic(co2aq: real, h: Positive, target: real): real {
    co2aq * (1.0 + K1 / h + K1 * K2 / (h * h)) - target
  }

  function Hco3(co2aq: real, h: Positive, target: real): real {
    Dic(co2aq, h, 0.0) / (1.0 + h / K1 + K2 / h) - target
  }

  function Co32(co2aq: real, h: Positive, target: real): real {
    Dic(co2aq, h, 0.0) / (1.0 + h / K2 + (h * h) / (K1 * K2)) - target
  }

  function Ta(co2aq: real, h: Positive, target: real): real {
    KW / h + Hco3(co2aq, h, 0.0) + 2.0 * Co32(co2aq, h, 0.0) + h - target
  }

  /** The one-argument residual handed to the Newton-type solver: the source
      spells the alkalinity formula out again inside the closure, and the
      contract says that this copy agrees with `Ta` everywhere. */
  function TaPhWrapper(co2aq: real, target: real): (f: Positive -> real)
    ensures forall h: Positive :: f(h) == Ta(co2aq, h, target)
  {
    (h: Positive) => KW / h + Hco3(co2aq, h, 0.0) + 2.0 * Co32(co2aq, h, 0.0) + h - target
  }

  /** Every relation with a target is its target-free value shifted by the
      target, so a root of the residual is exactly a point where the relation
      takes the target value. */
  lemma SolveValueShift(co2aq: real, h: Positive, target: real)
    ensures Dic(co2aq, h, target) == Dic(co2aq, h, 0.0) - target
    ensures Hco3(co2aq, h, target) == Hco3(co2aq, h, 0.0) - target
    ensures Co32(co2aq, h, target) == Co32(co2aq, h, 0.0) - target
    ensures Ta(co2aq, h, target) == Ta(co2aq, h, 0.0) - target
    ensures Ta(co2aq, h, target) == 0.0 <==> Ta(co2aq, h, 0.0) == target
  {
  }

  // ---------------------------------------------------------------------
  // Closed forms

  lemma DicFactored(co2aq: real, h: Positive)
    ensures Dic(co2aq, h, 0.0) == co2aq + co2aq * K1 / h + co2aq * K1 * K2 / (h * h)
  {
  }

  /** Bicarbonate simplifies to `co2aq * K1 / h`. */
  lemma Hco3ClosedForm(co2aq: real, h: Positive)
    ensures Hco3(co2aq, h, 0.0) == co2aq * K1 / h
  {
    var d := 1.0 + h / K1 + K2 / h;
    var b := co2aq * K1 / h;
    assert d > 0.0;
    DicFactored(co2aq, h);
    assert b * (h / K1) == co2aq;
    assert b * (K2 / h) == co2aq * K1 * K2 / (h * h);
    assert b * d == Dic(co2aq, h, 0.0);
    assert Dic(co2aq, h, 0.0) / d == b;
  }

  /** Carbonate simplifies to `co2aq * K1 * K2 / h^2`. */
  lemma Co32ClosedForm(co2aq: real, h: Positive)
    ensures Co32(co2aq, h, 0.0) == co2aq * K1 * K2 / (h * h)
  {
    var d := 1.0 + h / K2 + (h * h) / (K1 * K2);
    var c := co2aq * K1 * K2 / (h * h);
    assert d > 0.0;
    DicFactored(co2aq, h);
    assert c * (h / K2) == co2aq * K1 / h;
    assert c * ((h * h) / (K1 * K2)) == co2aq;
    assert c * d == Dic(co2aq, h, 0.0);
    assert Dic(co2aq, h, 0.0) / d == c;
  }

  /** The slope of alkalinity in `co2aq` at a fixed `h`. */
  function TaSlope(h: Positive): (s: real)
    ensures s > 0.0
  {
    K1 / h + 2.0 * K1 * K2 / (h * h)
  }

  /** The alkalinity that water alone contributes: `[OH-] + [H+]`. */
  function WaterTerm(h: Positive): real {
    KW / h + h
  }

  /** For a fixed `h`, alkalinity is affine in `co2aq`:
      `TA = KW/h + h + co2aq * (K1/h + 2 K1 K2/h^2)`. */
  lemma TaAffine(co2aq: real, h: Positive, target: real)
    ensures Ta(co2aq, h, target) == WaterTerm(h) + co2aq * TaSlope(h) - target
  {
    Hco3ClosedForm(co2aq, h);
    Co32ClosedForm(co2aq, h);
    assert co2aq * TaSlope(h) == co2aq * K1 / h + 2.0 * (co2aq * K1 * K2 / (h * h));
  }

  // ---------------------------------------------------------------------
  // Properties

  /** Mass balance: the three carbonate species add up to DIC. */
  lemma MassBalance(co2aq: real, h: Positive)
    ensures co2aq + Hco3(co2aq, h, 0.0) + Co32(co2aq, h, 0.0) == Dic(co2aq, h, 0.0)
  {
    Hco3ClosedForm(co2aq, h);
    Co32ClosedForm(co2aq, h);
    DicFactored(co2aq, h);
  }

  /** With no negative CO2 every species is non-negative and DIC is at least
      the dissolved CO2 itself. */
  lemma SpeciesNonNegative(co2aq: real, h: Positive)
    requires co2aq >= 0.0
    ensures Hco3(co2aq, h, 0.0) >= 0.0
    ensures Co32(co2aq, h, 0.0) >= 0.0
    ensures Dic(co2aq, h, 0.0) >= co2aq
  {
    Hco3ClosedForm(co2aq, h);
    Co32ClosedForm(co2aq, h);
    MassBalance(co2aq, h);
    assert co2aq * K1 >= 0.0;
    assert co2aq * K1 * K2 >= 0.0;
  }

  /** Alkalinity strictly increases with `co2aq` at a fixed `h`. */
  lemma TaIncreasingInCo2aq(c1: real, c2: real, h: Positive, target: real)
    requires c1 < c2
    ensures Ta(c1, h, target) < Ta(c2, h, target)
  {
    TaAffine(c1, h, target);
    TaAffine(c2, h, target);
    AffineIncreasing(WaterTerm(h), TaSlope(h), c1, c2, target);
  }

  /** An affine map with positive slope is strictly increasing. */
  lemma AffineIncreasing(w: real, s: real, c1: real, c2: real, t: real)
    requires c1 < c2 && s > 0.0
    ensures w + c1 * s - t < w + c2 * s - t
  {
    MulStrict(c1, c2, s);
  }

  /** The `co2aq` at which alkalinity equals `target` for a fixed `h`: the
      root that the source asks `fsolve` for, in closed form. It is the one
      and only root. */
  function Co2aqForTa(h: Positive, target: real): (c: real)
    ensures Ta(c, h, target) == 0.0
    ensures forall c' :: Ta(c', h, target) == 0.0 ==> c' == c
  {
    var c := (target - WaterTerm(h)) / TaSlope(h);
    TaAffine(c, h, target);
    assert c * TaSlope(h) == target - WaterTerm(h);
    forall c' | Ta(c', h, target) == 0.0
      ensures c' == c
    {
      if c' < c {
        TaIncreasingInCo2aq(c', c, h, target);
      } else if c < c' {
        TaIncreasingInCo2aq(c, c', h, target);
      }
    }
    c
  }

  /** On the alkaline side (`h1 * h2 <= KW`, both pH values at or above
      neutral) and with no negative CO2, alkalinity does not decrease as pH
      rises, i.e. as `h` falls. */
  lemma TaNonDecreasingInPhAboveNeutral(co2aq: real, h1: Positive, h2: Positive, target: real)
    requires co2aq >= 0.0
    requires h1 < h2
    requires h1 * h2 <= KW
    ensures Ta(co2aq, h2, target) <= Ta(co2aq, h1, target)
  {
    WaterTermFalls(h1, h2);
    TaSlopeFalls(h1, h2);
    TaAffine(co2aq, h1, target);
    TaAffine(co2aq, h2, target);
    AffineBelow(WaterTerm(h2), WaterTerm(h1), TaSlope(h2), TaSlope(h1), co2aq, target);
  }

  /** A smaller offset and a smaller slope give a smaller value at a
      non-negative point. */
  lemma AffineBelow(w1: real, w2: real, s1: real, s2: real, c: real, t: real)
    requires w1 <= w2 && s1 <= s2 && c >= 0.0
    ensures w1 + c * s1 - t <= w2 + c * s2 - t
  {
    MulLeft(s1, s2, c);
    assert c * s1 <= c * s2;
    AddBelow(w1, w2, c * s1, c * s2, t);
  }

  lemma AddBelow(w1: real, w2: real, x: real, y: real, t: real)
    requires w1 <= w2 && x <= y
    ensures w1 + x - t <= w2 + y - t
  {
  }

  /** The slope of alkalinity in `co2aq` falls as `h` rises. */
  lemma TaSlopeFalls(h1: Positive, h2: Positive)
    requires h1 < h2
    ensures TaSlope(h2) <= TaSlope(h1)
  {
    SquareMonotone(h1, h2);
    DivAntitone(K1, h1, h2);
    DivAntitone(2.0 * K1 * K2, h1 * h1, h2 * h2);
  }

  /** `KW/h + h` does not increase on `h1 < h2` once `h1 * h2 <= KW`. */
  lemma WaterTermFalls(h1: Positive, h2: Positive)
    requires h1 < h2
    requires h1 * h2 <= KW
    ensures WaterTerm(h2) <= WaterTerm(h1)
  {
    var u := KW / h1;
    var v := KW / h2;
    var d := h2 - h1;
    var p := h1 * h2;
    assert u * h1 == KW;
    assert v * h2 == KW;
    assert (u - v) * p == u * h1 * h2 - v * h2 * h1;
    var w := u - v;
    assert w * p == KW * d;
    MulLeft(p, KW, d);
    assert w * p >= d * p;
    if w < d {
      MulStrict(w, d, p);
    }
  }

  lemma SquareMonotone(h1: Positive, h2: Positive)
    requires h1 < h2
    ensures 0.0 < h1 * h1 <= h2 * h2
  {
    MulLeft(h1, h2, h1);
    MulLeft(h1, h2, h2);
  }

  lemma MulLeft(a: real, b: real, d: real)
    requires a <= b
    requires d >= 0.0
    ensures a * d <= b * d && d * a <= d * b
  {
  }

  lemma MulStrict(a: real, b: real, d: real)
    requires a < b
    requires d > 0.0
    ensures a * d < b * d && d * a < d * b
  {
  }

  lemma DivAntitone(a: real, x: real, y: real)
    requires a >= 0.0
    requires 0.0 < x <= y
    ensures a / y <= a / x
  {
    var q := a / y;
    var r := a / x;
    assert q * y == a;
    assert r * x == a;
    if r < q {
      MulStrict(r, q, x);
      MulLeft(x, y, q);
      assert q * x <= q * y;
    }
  }

  /** The `+ [H+]` term makes alkalinity fall as pH rises near pH 0: with no
      CO2, pH 0 (`h = 1`) gives more alkalinity than pH 0.3 (`h = 0.5`). */
  lemma TaNotMonotoneInPhNearZero()
    ensures Ta(0.0, 0.5, 0.0) < Ta(0.0, 1.0, 0.0)
  {
    TaAffine(0.0, 0.5, 0.0);
    TaAffine(0.0, 1.0, 0.0);
  }
}

=== FILE: common.dfy ===
/** Helpers shared by every module: a failure-carrying result type, sums over
    index ranges of a real-valued sequence, and Python's slice-bound
    normalisation (which `iloc[a:b]` uses). */
module Common {

  /** Either a value or the error that aborted the computation. */
  datatype Result<+T, +E> = Ok(value: T) | Err(error: E) {
    predicate IsFailure() { Err? }

    function PropagateFailure<U>(): Result<U, E>
      requires Err?
    {
      Err(error)
    }

    function Extract(): T
      requires Ok?
    {
      value
    }
  }

  datatype Option<+T> = None | Some(value: T)

  /** Sum of `xs[lo..hi]`; empty when `hi <= lo`. */
  function SumRange(xs: seq<real>, lo: nat, hi: nat): real
    requires hi <= |xs|
    decreases hi
  {
    if hi <= lo then 0.0 else SumRange(xs, lo, hi - 1) + xs[hi - 1]
  }

  /** Sum of a whole sequence, as numpy's `np.sum` computes it over reals. */
  function Sum(xs: seq<real>): real {
    SumRange(xs, 0, |xs|)
  }

  /** Adjacent ranges add up: the running-sum law behind every integral. */
  lemma {:induction false} SumRangeSplit(xs: seq<real>, lo: nat, mid: nat, hi: nat)
    requires lo <= mid <= hi <= |xs|
    ensures SumRange(xs, lo, hi) == SumRange(xs, lo, mid) + SumRange(xs, mid, hi)
    decreases hi
  {
    if hi == mid {
    } else {
      SumRangeSplit(xs, lo, mid, hi - 1);
    }
  }

  /** A range over which every element is zero sums to zero. */
  lemma {:induction false} SumRangeOfZeros(xs: seq<real>, lo: nat, hi: nat)
    requires hi <= |xs|
    requires forall k :: lo <= k < hi ==> xs[k] == 0.0
    ensures SumRange(xs, lo, hi) == 0.0
    decreases hi
  {
    if hi > lo {
      SumRangeOfZeros(xs, lo, hi - 1);
    }
  }

  /** Scaling every element scales the sum: numpy's `np.sum(x / c)` and
      `np.sum(x) / c` agree over the reals. */
  lemma {:induction false} SumRangeScaled(xs: seq<real>, ys: seq<real>, c: real, lo: nat, hi: nat)
    requires hi <= |xs| == |ys|
    requires forall k :: lo <= k < hi ==> ys[k] == xs[k] * c
    ensures SumRange(ys, lo, hi) == SumRange(xs, lo, hi) * c
    decreases hi
  {
    if hi > lo {
      SumRangeScaled(xs, ys, c, lo, hi - 1);
    }
  }

  /** The sum of a slice is the sum over the sliced range. */
  lemma {:induction false} SumOfSlice(xs: seq<real>, lo: nat, hi: nat)
    requires lo <= hi <= |xs|
    ensures Sum(xs[lo..hi]) == SumRange(xs, lo, hi)
    decreases hi
  {
    if hi > lo {
      SumOfSlice(xs, lo, hi - 1);
      var s := xs[lo..hi];
      assert s[..|s| - 1] == xs[lo..hi - 1];
      PrefixSum(s);
    }
  }

  /** Dropping the last element removes it from the sum. */
  lemma PrefixSum(s: seq<real>)
    requires |s| > 0
    ensures Sum(s) == Sum(s[..|s| - 1]) + s[|s| - 1]
  {
    SumRangeOfPrefix(s, |s| - 1, |s| - 1);
  }

  /** A range of a prefix sums like the same range of the whole sequence. */
  lemma {:induction false} SumRangeOfPrefix(s: seq<real>, m: nat, hi: nat)
    requires hi <= m <= |s|
    ensures SumRange(s[..m], 0, hi) == SumRange(s, 0, hi)
    decreases hi
  {
    if hi > 0 {
      SumRangeOfPrefix(s, m, hi - 1);
    }
  }

  /** Every element has the property `fits` at its position. */
  predicate AllFit<T>(xs: seq<T>, fits: (nat, T) -> bool) {
    forall k :: 0 <= k < |xs| ==> fits(k, xs[k])
  }

  /** A property of every (position, element) pair survives appending an
      element that has it at the new position. */
  lemma AppendKeepsAll<T>(xs: seq<T>, x: T, fits: (nat, T) -> bool)
    requires AllFit(xs, fits)
    requires fits(|xs|, x)
    ensures AllFit(xs + [x], fits)
  {
    forall k | 0 <= k < |xs| + 1
      ensures fits(k, (xs + [x])[k])
    {
      if k < |xs| {
        assert (xs + [x])[k] == xs[k];
      }
    }
  }

  /** Python's normalisation of one slice bound `b` for a sequence of length
      `n`: negative bounds count from the end, and the result is clamped to
      `[0, n]`. */
  function SliceBound(b: int, n: nat): (r: nat)
    ensures r <= n
    ensures 0 <= b <= n ==> r == b
    ensures b > n ==> r == n
    ensures b < 0 ==> r == (if n + b < 0 then 0 else n + b)
  {
    if b < 0 then (if n + b < 0 then 0 else n + b)
    else if b > n then n
    else b
  }

  /** The positions `[lo, hi)` that `xs[a:b]` selects from a sequence of length
      `n`; empty (`lo == hi`) when the normalised start is not before the end. */
  function SliceRange(a: int, b: int, n: nat): (r: (nat, nat))
    ensures r.0 <= r.1 <= n
    ensures 0 <= a <= b <= n ==> r == (a, b)
    ensures 0 <= b <= a ==> r.0 == r.1
  {
    var lo := SliceBound(a, n);
    var hi := SliceBound(b, n);
    if lo <= hi then (lo, hi) else (hi, hi)
  }

  /** `xs[a:b]` with Python's slice semantics. */
  function Slice<T>(xs: seq<T>, a: int, b: int): (r: seq<T>)
    ensures |r| == SliceRange(a, b, |xs|).1 - SliceRange(a, b, |xs|).0
    ensures forall k :: 0 <= k < |r| ==> r[k] == xs[SliceRange(a, b, |xs|).0 + k]
  {
    var bounds := SliceRange(a, b, |xs|);
    xs[bounds.0..bounds.1]
  }

  function Abs(x: real): (r: real)
    ensures r >= 0.0
    ensures r == x || r == -x
  {
    if x < 0.0 then -x else x
  }
}

=== FILE: dic_cycles.dfy ===
/** `calc_DIC` of calc_dic.py: for every cycle, five rows at the states
    3'i, 1, 1', 3 and 3'f. The first is an equilibrium reading at the row
    after the charge start; each later one carries total alkalinity forward
    by the charge passed since the previous state's row, solves for the pH
    that this alkalinity implies at equilibrium CO2 (`newton_krylov`), and for
    the CO2 it implies at the measured pH (`fsolve`).

    As in the carbonate algebra, the variable is `h = [H+]`: the frame's pH
    column is given as `[H+]` and the root-finder returns `[H+]`. The
    `newton_krylov` call is the parameter `solve`, of which only its defining
    property is assumed (`SoundSolver`); the `fsolve` root is `Co2aqForTa`,
    the unique root in closed form. */
module DicCycles {
  import opened Common
  import opened Carbonate
  import opened GamryHeader
  import opened Gamry
  import opened Frames
  import GasMethods

  /** Faraday's constant as the source writes it (C/mol). */
  const Faraday: real := 96485.0
  /** Default rows subtracted from the outgas-end match for state 3'f. */
  const DefaultOutgasShift: int := 20
  /** Default electrolyte volume in litres. */
  const DefaultVolume: real := 0.01

  /** The columns of the merged echem/gas table that `calc_DIC` reads:
      index labels, timestamps, right-probe `[H+]`, the CO2 and N2 inputs of
      the right channel, and the cell current. Rows the outer merge left
      without echem data carry a NaN current, written here as 0.0, which is
      what the skipping sum makes of it; a NaN pH cannot be written (see the
      README). */
  datatype TotalFrame = TotalFrame(labels: seq<int>, datetime: seq<DateTime>, h: seq<Positive>,
                                   co2: seq<real>, n2: seq<real>, current: seq<real>)

  predicate WellFormed(f: TotalFrame) {
    && |f.labels| == |f.datetime|
    && |f.h| == |f.datetime| && |f.co2| == |f.datetime| && |f.n2| == |f.datetime| && |f.current| == |f.datetime|
  }

  /** The five states of a cycle. */
  datatype State = State3Initial | State1 | State1Prime | State3 | State3Final

  /** The states in the order each cycle lists them. */
  const StateOrder: seq<State> := [State3Initial, State1, State1Prime, State3, State3Final]

  /** The state's label in the `State` column. */
  function StateName(s: State): string {
    match s
    case State3Initial => "3'i"
    case State1 => "1"
    case State1Prime => "1'"
    case State3 => "3"
    case State3Final => "3'f"
  }

  /** One output row; `index` is the value recorded in the `index` column
      and used as an `iloc` position. */
  datatype DicRow = DicRow(cycle: nat, state: State, hMeasured: Positive, hTheory: Positive, ta: real,
                           dicTa: real, dicEq: real, dicTheory: real, index: int)

  /** `newton_krylov(TA_pH_wrapper(co2aq, ta), guess)` as a function of
      `(co2aq, ta, guess)`; `None` when it fails to converge. */
  type PhSolver = (real, real, real) -> Option<real>

  /** All the model assumes of the root-finder: what it returns is a
      positive `[H+]` at which alkalinity takes the target value. */
  ghost predicate SoundSolver(solve: PhSolver) {
    forall c, t, g :: solve(c, t, g).Some? ==> solve(c, t, g).value > 0.0 && Ta(c, solve(c, t, g).value, t) == 0.0
  }

  // ---------------------------------------------------------------------
  // Reading the frame

  /** The timestamp a state is looked up at. Cycle `i` of the gas-switch
      table is read only for states 1 and 3; its padding `''` matches no
      timestamp; a table without an outgas column has no 3'f time. */
  function EventTime(state: State, times: PhaseTimes, switches: seq<GasMethods.GasSwitch>, i: nat)
    : (r: Result<DateTime, FrameError>)
    ensures state == State3Initial ==> r == Ok(times.chargeStart)
    ensures state == State1Prime ==> r == Ok(times.dischargeStart)
    ensures (state == State1 || state == State3) && i >= |switches| ==> r == Err(MissingCycle)
    ensures state == State3Final ==> (r.Ok? <==> times.outgasEnd.Some?)
  {
    match state
    case State3Initial => Ok(times.chargeStart)
    case State1 => if i >= |switches| then Err(MissingCycle) else Ok(switches[i].lowToHigh)
    case State1Prime => Ok(times.dischargeStart)
    case State3 =>
      if i >= |switches| then Err(MissingCycle)
      else if switches[i].highToLow.None? then Err(NoMatchingTime)
      else Ok(switches[i].highToLow.value)
    case State3Final =>
      if times.outgasEnd.None? then Err(MissingColumn("Outgas_End_Time")) else Ok(times.outgasEnd.value)
  }

  /** 3'i is read one row after its match, 3'f `shift` rows before. */
  function Offset(state: State, shift: int): int {
    match state
    case State3Initial => 1
    case State3Final => -shift
    case _ => 0
  }

  /** The index recorded for a state: the lookup of `t` plus the offset. */
  function StateIndex(f: TotalFrame, t: DateTime, offset: int, rule: IndexRule): (r: Result<int, FrameError>)
    requires WellFormed(f)
    ensures r.Ok? <==> t in f.datetime
    ensures r.Ok? ==> MatchIndex(f.labels, f.datetime, t, rule) == Some(r.value - offset)
  {
    match MatchIndex(f.labels, f.datetime, t, rule)
    case None => Err(NoMatchingTime)
    case Some(k) => Ok(k + offset)
  }

  /** `total_df.iloc[index]`. */
  function Entry(f: TotalFrame, index: int): (r: Result<nat, FrameError>)
    requires WellFormed(f)
    ensures r.Ok? <==> ILoc(index, |f.datetime|).Some?
    ensures r.Ok? ==> r.value < |f.datetime| && r.value == ILoc(index, |f.datetime|).value
  {
    match ILoc(index, |f.datetime|)
    case None => Err(PositionOutOfRange)
    case Some(p) => Ok(p)
  }

  /** The CO2 fraction of the right-channel gas input at row `p`. */
  function PCo2(f: TotalFrame, p: nat): (r: Result<real, FrameError>)
    requires WellFormed(f)
    requires p < |f.datetime|
    ensures r.Ok? <==> f.co2[p] + f.n2[p] != 0.0
    ensures r.Ok? ==> r.value * (f.co2[p] + f.n2[p]) == f.co2[p]
  {
    var total := f.co2[p] + f.n2[p];
    if total == 0.0 then Err(ZeroGasFlow) else Ok(f.co2[p] / total)
  }

  /** With non-negative flows the CO2 fraction is a fraction. */
  lemma PCo2InUnitInterval(f: TotalFrame, p: nat)
    requires WellFormed(f)
    requires p < |f.datetime|
    requires f.co2[p] >= 0.0 && f.n2[p] >= 0.0
    requires PCo2(f, p).Ok?
    ensures 0.0 <= PCo2(f, p).value <= 1.0
  {
    var total := f.co2[p] + f.n2[p];
    var q := PCo2(f, p).value;
    assert total > 0.0;
    assert q * total == f.co2[p];
    if q < 0.0 {
      MulStrict(q, 0.0, total);
      assert false;
    }
    if q > 1.0 {
      MulStrict(1.0, q, total);
      assert false;
    }
  }

  /** The positive root of the pH solver; its failure is the source's
      convergence error. */
  function Solve(solve: PhSolver, co2aq: real, ta: real, guess: real): (r: Result<Positive, FrameError>)
    requires SoundSolver(solve)
    ensures r.Ok? <==> solve(co2aq, ta, guess).Some?
    ensures r.Ok? ==> Ta(co2aq, r.value, ta) == 0.0
  {
    match solve(co2aq, ta, guess)
    case None => Err(NoConvergence)
    case Some(x) => Ok(x)
  }

  // ---------------------------------------------------------------------
  // What a row means

  /** The frame row `row` was read from exists, supplies its measured
      `[H+]`, and has a defined CO2 fraction. */
  predicate ReadsRow(f: TotalFrame, row: DicRow)
    requires WellFormed(f)
  {
    && ILoc(row.index, |f.datetime|).Some?
    && f.h[ILoc(row.index, |f.datetime|).value] == row.hMeasured
    && PCo2(f, ILoc(row.index, |f.datetime|).value).Ok?
  }

  /** Aqueous CO2 in equilibrium with the gas input at frame row `p`
      (Henry's law). */
  function Co2At(f: TotalFrame, p: nat): real
    requires WellFormed(f)
    requires p < |f.datetime| && f.co2[p] + f.n2[p] != 0.0
  {
    PCo2(f, p).value * HENRY
  }

  /** Aqueous CO2 in equilibrium with the gas at the row's frame row. */
  function EquilibriumCo2(f: TotalFrame, row: DicRow): real
    requires WellFormed(f)
    requires ReadsRow(f, row)
  {
    Co2At(f, ILoc(row.index, |f.datetime|).value)
  }

  /** State 3'i: TA is the alkalinity of the equilibrium CO2 at the measured
      pH, the theoretical pH is the measured one, and all three DIC values
      are the equilibrium DIC. */
  predicate InitialChemistry(f: TotalFrame, row: DicRow)
    requires WellFormed(f)
  {
    && ReadsRow(f, row)
    && var co2aq := EquilibriumCo2(f, row);
    && row.hTheory == row.hMeasured
    && Ta(co2aq, row.hMeasured, row.ta) == 0.0
    && row.dicEq == Dic(co2aq, row.hMeasured, 0.0)
    && row.dicTa == row.dicEq && row.dicTheory == row.dicEq
  }

  /** States 1 to 3'f: the theoretical pH is the root-finder's answer,
      started from the measured pH, for the carried TA and the equilibrium
      CO2, and at it the carried TA is that CO2's alkalinity; DIC_eq and DIC_theory are the
      equilibrium CO2's DIC at the measured and theoretical pH; DIC_TA is the
      DIC of the CO2 whose alkalinity at the measured pH is the carried TA
      (`Co2aqForTa`, unique by its contract). */
  ghost predicate LaterChemistry(f: TotalFrame, row: DicRow, solve: PhSolver)
    requires WellFormed(f)
  {
    && ReadsRow(f, row)
    && var co2aq := EquilibriumCo2(f, row);
    && solve(co2aq, row.ta, row.hMeasured) == Some(row.hTheory)
    && Ta(co2aq, row.hTheory, row.ta) == 0.0
    && row.dicEq == Dic(co2aq, row.hMeasured, 0.0)
    && row.dicTheory == Dic(co2aq, row.hTheory, 0.0)
    && row.dicTa == Dic(Co2aqForTa(row.hMeasured, row.ta), row.hMeasured, 0.0)
  }

  /** TA moves from one state's row to the next by the charge passed over
      the frame rows between their indices (a Python slice: empty when the
      later index is not greater), divided by Faraday's constant and the
      volume. */
  predicate CarriesTa(f: TotalFrame, prev: DicRow, row: DicRow, volume: real)
    requires WellFormed(f)
    requires volume > 0.0
  {
    row.ta == prev.ta + Carried(f, prev.index, row.index, volume)
  }

  /** The TA change from the charge passed over the frame rows `[from, to)`. */
  function Carried(f: TotalFrame, from: int, to: int, volume: real): real
    requires WellFormed(f)
    requires volume > 0.0
  {
    Sum(Slice(f.current, from, to)) / Faraday / volume
  }

  // ---------------------------------------------------------------------
  // The five states

  /** The row was looked up at its state's event time of cycle `i`, plus the
      state's offset. */
  predicate IndexedAt(f: TotalFrame, times: PhaseTimes, switches: seq<GasMethods.GasSwitch>, i: nat,
                      shift: int, rule: IndexRule, row: DicRow)
    requires WellFormed(f)
  {
    && EventTime(row.state, times, switches, i).Ok?
    && StateIndex(f, EventTime(row.state, times, switches, i).value, Offset(row.state, shift), rule) == Ok(row.index)
  }

  /** The frame supplies state `state` of cycle `i`: the state has an event
      time, the time occurs in the frame, the offset index is a valid `iloc`
      position, and the gas flow at that row is not zero. */
  predicate StateReadable(f: TotalFrame, times: PhaseTimes, switches: seq<GasMethods.GasSwitch>, i: nat,
                          state: State, shift: int, rule: IndexRule)
    requires WellFormed(f)
  {
    var t := EventTime(state, times, switches, i);
    && t.Ok? && t.value in f.datetime
    && var index := StateIndex(f, t.value, Offset(state, shift), rule).value;
    && ILoc(index, |f.datetime|).Some?
    && var p := ILoc(index, |f.datetime|).value;
    && f.co2[p] + f.n2[p] != 0.0
  }

  /** The index a readable state records. */
  function StateRowIndex(f: TotalFrame, times: PhaseTimes, switches: seq<GasMethods.GasSwitch>, i: nat,
                         state: State, shift: int, rule: IndexRule): int
    requires WellFormed(f)
    requires StateReadable(f, times, switches, i, state, shift, rule)
  {
    StateIndex(f, EventTime(state, times, switches, i).value, Offset(state, shift), rule).value
  }

  /** The frame row a readable state reads. */
  function StatePosition(f: TotalFrame, times: PhaseTimes, switches: seq<GasMethods.GasSwitch>, i: nat,
                         state: State, shift: int, rule: IndexRule): (p: nat)
    requires WellFormed(f)
    requires StateReadable(f, times, switches, i, state, shift, rule)
    ensures p < |f.datetime| && f.co2[p] + f.n2[p] != 0.0
  {
    ILoc(StateRowIndex(f, times, switches, i, state, shift, rule), |f.datetime|).value
  }

  /** The root-finder converges for alkalinity `ta` at a readable state's
      row, started from the measured pH. */
  predicate ConvergesAt(f: TotalFrame, times: PhaseTimes, switches: seq<GasMethods.GasSwitch>, i: nat,
                        state: State, shift: int, rule: IndexRule, ta: real, solve: PhSolver)
    requires WellFormed(f)
    requires StateReadable(f, times, switches, i, state, shift, rule)
  {
    var p := StatePosition(f, times, switches, i, state, shift, rule);
    solve(Co2At(f, p), ta, f.h[p]).Some?
  }

  /** State 3'i of cycle `i` (0-based). */
  method InitialState(f: TotalFrame, times: PhaseTimes, i: nat, shift: int, rule: IndexRule)
    returns (r: Result<DicRow, FrameError>)
    requires WellFormed(f)
    ensures r.Ok? <==> StateReadable(f, times, [], i, State3Initial, shift, rule)
    ensures times.chargeStart !in f.datetime ==> r == Err(NoMatchingTime)
    ensures r.Ok? ==> r.value.cycle == i + 1 && r.value.state == State3Initial
    ensures r.Ok? ==> IndexedAt(f, times, [], i, shift, rule, r.value) && InitialChemistry(f, r.value)
  {
    var index := StateIndex(f, times.chargeStart, Offset(State3Initial, shift), rule);
    if index.Err? {
      return Err(index.error);
    }
    var p := Entry(f, index.value);
    if p.Err? {
      return Err(p.error);
    }
    var h := f.h[p.value];
    var pco2 := PCo2(f, p.value);
    if pco2.Err? {
      return Err(pco2.error);
    }
    var co2aq := pco2.value * HENRY;
    var dic := Dic(co2aq, h, 0.0);
    r := Ok(DicRow(i + 1, State3Initial, h, h, Ta(co2aq, h, 0.0), dic, dic, dic, index.value));
  }

  /** One of the states 1, 1', 3 and 3'f of cycle `i`, following `prev`. */
  method LaterState(f: TotalFrame, times: PhaseTimes, switches: seq<GasMethods.GasSwitch>, i: nat,
                    state: State, prev: DicRow, shift: int, volume: real, rule: IndexRule,
                    solve: PhSolver) returns (r: Result<DicRow, FrameError>)
    requires WellFormed(f)
    requires volume > 0.0
    requires SoundSolver(solve)
    requires state != State3Initial
    ensures r.Ok? <==>
      && StateReadable(f, times, switches, i, state, shift, rule)
      && ConvergesAt(f, times, switches, i, state, shift, rule,
                     prev.ta + Carried(f, prev.index, StateRowIndex(f, times, switches, i, state, shift, rule), volume), solve)
    ensures EventTime(state, times, switches, i).Err? ==> r == Err(EventTime(state, times, switches, i).error)
    ensures r.Ok? ==> r.value.cycle == i + 1 && r.value.state == state
    ensures r.Ok? ==> IndexedAt(f, times, switches, i, shift, rule, r.value)
    ensures r.Ok? ==> CarriesTa(f, prev, r.value, volume) && LaterChemistry(f, r.value, solve)
  {
    var t := EventTime(state, times, switches, i);
    if t.Err? {
      return Err(t.error);
    }
    var index := StateIndex(f, t.value, Offset(state, shift), rule);
    if index.Err? {
      return Err(index.error);
    }
    var p := Entry(f, index.value);
    if p.Err? {
      return Err(p.error);
    }
    var h := f.h[p.value];
    var ta := prev.ta + Carried(f, prev.index, index.value, volume);
    var pco2 := PCo2(f, p.value);
    if pco2.Err? {
      return Err(pco2.error);
    }
    var co2aq := pco2.value * HENRY;
    var theory := Solve(solve, co2aq, ta, h);
    if theory.Err? {
      return Err(theory.error);
    }
    var co2aqTa := Co2aqForTa(h, ta);
    var row := DicRow(i + 1, state, h, theory.value, ta, Dic(co2aqTa, h, 0.0), Dic(co2aq, h, 0.0),
                      Dic(co2aq, theory.value, 0.0), index.value);
    assert ReadsRow(f, row) && EquilibriumCo2(f, row) == co2aq;
    r := Ok(row);
  }

  /** Row `j` (0-based) of cycle `i`: its cycle number, its state in the
      order of `StateOrder`, and the frame row it was read from. */
  ghost predicate RowOfCycle(f: TotalFrame, times: PhaseTimes, switches: seq<GasMethods.GasSwitch>, i: nat,
                             shift: int, rule: IndexRule, row: DicRow, j: nat)
    requires WellFormed(f)
    requires j < 5
  {
    row.cycle == i + 1 && row.state == StateOrder[j] && IndexedAt(f, times, switches, i, shift, rule, row)
  }

  /** A later state's row: its chemistry, and the TA it carries from `prev`. */
  ghost predicate Follows(f: TotalFrame, prev: DicRow, row: DicRow, volume: real, solve: PhSolver)
    requires WellFormed(f)
    requires volume > 0.0
  {
    LaterChemistry(f, row, solve) && CarriesTa(f, prev, row, volume)
  }

  /** The rows of cycle `i` meet the description of one cycle of the
      output table. */
  ghost predicate CycleShape(f: TotalFrame, times: PhaseTimes, switches: seq<GasMethods.GasSwitch>, i: nat,
                       shift: int, volume: real, rule: IndexRule, rows: seq<DicRow>, solve: PhSolver)
    requires WellFormed(f)
    requires volume > 0.0
  {
    && |rows| == 5
    && RowOfCycle(f, times, switches, i, shift, rule, rows[0], 0)
    && RowOfCycle(f, times, switches, i, shift, rule, rows[1], 1)
    && RowOfCycle(f, times, switches, i, shift, rule, rows[2], 2)
    && RowOfCycle(f, times, switches, i, shift, rule, rows[3], 3)
    && RowOfCycle(f, times, switches, i, shift, rule, rows[4], 4)
    && InitialChemistry(f, rows[0])
    && Follows(f, rows[0], rows[1], volume, solve)
    && Follows(f, rows[1], rows[2], volume, solve)
    && Follows(f, rows[2], rows[3], volume, solve)
    && Follows(f, rows[3], rows[4], volume, solve)
  }

  /** Every state of cycle `i` is readable from the frame. */
  predicate CycleReadable(f: TotalFrame, times: PhaseTimes, switches: seq<GasMethods.GasSwitch>, i: nat,
                          shift: int, rule: IndexRule)
    requires WellFormed(f)
  {
    forall state: State :: StateReadable(f, times, switches, i, state, shift, rule)
  }

  /** The five states are all the states there are. */
  lemma ReadableCycle(f: TotalFrame, times: PhaseTimes, switches: seq<GasMethods.GasSwitch>, i: nat,
                      shift: int, rule: IndexRule)
    requires WellFormed(f)
    requires StateReadable(f, times, switches, i, State3Initial, shift, rule)
    requires StateReadable(f, times, switches, i, State1, shift, rule)
    requires StateReadable(f, times, switches, i, State1Prime, shift, rule)
    requires StateReadable(f, times, switches, i, State3, shift, rule)
    requires StateReadable(f, times, switches, i, State3Final, shift, rule)
    ensures CycleReadable(f, times, switches, i, shift, rule)
  {
    forall state: State
      ensures StateReadable(f, times, switches, i, state, shift, rule)
    {
      match state
      case State3Initial =>
      case State1 =>
      case State1Prime =>
      case State3 =>
      case State3Final =>
    }
  }

  /** The TA change between the rows of two readable states. */
  function StepCharge(f: TotalFrame, times: PhaseTimes, switches: seq<GasMethods.GasSwitch>, i: nat,
                      from: State, to: State, shift: int, volume: real, rule: IndexRule): real
    requires WellFormed(f)
    requires volume > 0.0
    requires StateReadable(f, times, switches, i, from, shift, rule)
    requires StateReadable(f, times, switches, i, to, shift, rule)
  {
    Carried(f, StateRowIndex(f, times, switches, i, from, shift, rule),
            StateRowIndex(f, times, switches, i, to, shift, rule), volume)
  }

  /** The equilibrium alkalinity at the 3'i row of a readable cycle. */
  function InitialTa(f: TotalFrame, times: PhaseTimes, switches: seq<GasMethods.GasSwitch>, i: nat,
                     shift: int, rule: IndexRule): real
    requires WellFormed(f)
    requires StateReadable(f, times, switches, i, State3Initial, shift, rule)
  {
    var p := StatePosition(f, times, switches, i, State3Initial, shift, rule);
    Ta(Co2At(f, p), f.h[p], 0.0)
  }

  /** The state before `s` in a cycle. */
  function Previous(s: State): State
    requires s != State3Initial
  {
    match s
    case State1 => State3Initial
    case State1Prime => State1
    case State3 => State1Prime
    case State3Final => State3
  }

  /** The position of a state in `StateOrder`. */
  function Rank(s: State): nat {
    match s
    case State3Initial => 0
    case State1 => 1
    case State1Prime => 2
    case State3 => 3
    case State3Final => 4
  }

  /** The TA of a state of a readable cycle: the 3'i equilibrium
      alkalinity, then the charge passed up to each later state's row. Only
      the row indices fix these values, never a root the solver returned. */
  function StateTa(f: TotalFrame, times: PhaseTimes, switches: seq<GasMethods.GasSwitch>, i: nat,
                   state: State, shift: int, volume: real, rule: IndexRule): real
    requires WellFormed(f)
    requires volume > 0.0
    requires CycleReadable(f, times, switches, i, shift, rule)
    decreases Rank(state)
  {
    if state == State3Initial then InitialTa(f, times, switches, i, shift, rule)
    else
      StateTa(f, times, switches, i, Previous(state), shift, volume, rule)
      + StepCharge(f, times, switches, i, Previous(state), state, shift, volume, rule)
  }

  /** The root-finder converges at each later state of a readable cycle, for
      the TA that state carries. */
  predicate CycleConverges(f: TotalFrame, times: PhaseTimes, switches: seq<GasMethods.GasSwitch>, i: nat,
                           shift: int, volume: real, rule: IndexRule, solve: PhSolver)
    requires WellFormed(f)
    requires volume > 0.0
    requires CycleReadable(f, times, switches, i, shift, rule)
  {
    && ConvergesAt(f, times, switches, i, State1, shift, rule,
                   StateTa(f, times, switches, i, State1, shift, volume, rule), solve)
    && ConvergesAt(f, times, switches, i, State1Prime, shift, rule,
                   StateTa(f, times, switches, i, State1Prime, shift, volume, rule), solve)
    && ConvergesAt(f, times, switches, i, State3, shift, rule,
                   StateTa(f, times, switches, i, State3, shift, volume, rule), solve)
    && ConvergesAt(f, times, switches, i, State3Final, shift, rule,
                   StateTa(f, times, switches, i, State3Final, shift, volume, rule), solve)
  }

  /** Cycle `i` can be computed: all five states are readable and the
      root-finder converges at each later one. */
  predicate CycleSucceeds(f: TotalFrame, times: PhaseTimes, switches: seq<GasMethods.GasSwitch>, i: nat,
                          shift: int, volume: real, rule: IndexRule, solve: PhSolver)
    requires WellFormed(f)
    requires volume > 0.0
  {
    CycleReadable(f, times, switches, i, shift, rule) && CycleConverges(f, times, switches, i, shift, volume, rule, solve)
  }

  /** The five rows of cycle `i`; a cycle the gas-switch table does not
      reach fails. */
  method CycleRows(f: TotalFrame, times: PhaseTimes, switches: seq<GasMethods.GasSwitch>, i: nat,
                   shift: int, volume: real, rule: IndexRule, solve: PhSolver) returns (r: Result<seq<DicRow>, FrameError>)
    requires WellFormed(f)
    requires volume > 0.0
    requires SoundSolver(solve)
    ensures r.Ok? <==> CycleSucceeds(f, times, switches, i, shift, volume, rule, solve)
    ensures i >= |switches| ==> r.Err?
    ensures times.chargeStart !in f.datetime ==> r == Err(NoMatchingTime)
    ensures r.Ok? ==> CycleShape(f, times, switches, i, shift, volume, rule, r.value, solve)
  {
    var s0 := InitialState(f, times, i, shift, rule);
    if s0.Err? {
      InitialBreaks(f, times, switches, i, shift, volume, rule, solve);
      return Err(s0.error);
    }
    var r0 := s0.value;
    InitialRowReads(f, times, switches, i, shift, volume, rule, r0);
    var s1 := NextRow(f, times, switches, i, State3Initial, State1, r0, shift, volume, rule, solve);
    if s1.Err? {
      return Err(s1.error);
    }
    var r1 := s1.value;
    var s2 := NextRow(f, times, switches, i, State1, State1Prime, r1, shift, volume, rule, solve);
    if s2.Err? {
      return Err(s2.error);
    }
    var r2 := s2.value;
    var s3 := NextRow(f, times, switches, i, State1Prime, State3, r2, shift, volume, rule, solve);
    if s3.Err? {
      return Err(s3.error);
    }
    var r3 := s3.value;
    var s4 := NextRow(f, times, switches, i, State3, State3Final, r3, shift, volume, rule, solve);
    if s4.Err? {
      return Err(s4.error);
    }
    var r4 := s4.value;
    ReadableCycle(f, times, switches, i, shift, rule);
    CycleCompletes(f, times, switches, i, shift, volume, rule, solve);
    assert IndexedAt(f, times, switches, i, shift, rule, r0);
    ShapeOfRows(f, times, switches, i, shift, volume, rule, r0, r1, r2, r3, r4, solve);
    r := Ok([r0, r1, r2, r3, r4]);
  }

  /** Five rows, each of its state and cycle, the first an equilibrium
      reading and each later one following its predecessor, form a cycle. */
  lemma ShapeOfRows(f: TotalFrame, times: PhaseTimes, switches: seq<GasMethods.GasSwitch>, i: nat,
                    shift: int, volume: real, rule: IndexRule, r0: DicRow, r1: DicRow, r2: DicRow, r3: DicRow, r4: DicRow,
                    solve: PhSolver)
    requires WellFormed(f)
    requires volume > 0.0
    requires r0.cycle == i + 1 && r0.state == State3Initial && IndexedAt(f, times, switches, i, shift, rule, r0)
    requires r1.cycle == i + 1 && r1.state == State1 && IndexedAt(f, times, switches, i, shift, rule, r1)
    requires r2.cycle == i + 1 && r2.state == State1Prime && IndexedAt(f, times, switches, i, shift, rule, r2)
    requires r3.cycle == i + 1 && r3.state == State3 && IndexedAt(f, times, switches, i, shift, rule, r3)
    requires r4.cycle == i + 1 && r4.state == State3Final && IndexedAt(f, times, switches, i, shift, rule, r4)
    requires InitialChemistry(f, r0)
    requires Follows(f, r0, r1, volume, solve) && Follows(f, r1, r2, volume, solve)
    requires Follows(f, r2, r3, volume, solve) && Follows(f, r3, r4, volume, solve)
    ensures CycleShape(f, times, switches, i, shift, volume, rule, [r0, r1, r2, r3, r4], solve)
  {
    var rows := [r0, r1, r2, r3, r4];
    assert rows[0] == r0 && rows[1] == r1 && rows[2] == r2 && rows[3] == r3 && rows[4] == r4;
  }

  /** The row of a later state, following the row `prev` of the state
      before it; its failure is the failure of the whole cycle. */
  method NextRow(f: TotalFrame, times: PhaseTimes, switches: seq<GasMethods.GasSwitch>, i: nat,
                 from: State, state: State, prev: DicRow, shift: int, volume: real, rule: IndexRule,
                 solve: PhSolver) returns (r: Result<DicRow, FrameError>)
    requires WellFormed(f)
    requires volume > 0.0
    requires SoundSolver(solve)
    requires state != State3Initial && from == Previous(state)
    requires CycleReadable(f, times, switches, i, shift, rule) ==>
      && prev.index == StateRowIndex(f, times, switches, i, from, shift, rule)
      && prev.ta == StateTa(f, times, switches, i, from, shift, volume, rule)
    ensures r.Err? ==> !CycleSucceeds(f, times, switches, i, shift, volume, rule, solve)
    ensures EventTime(state, times, switches, i).Err? ==> r.Err?
    ensures r.Ok? ==> r.value.cycle == i + 1 && r.value.state == state
    ensures r.Ok? ==> IndexedAt(f, times, switches, i, shift, rule, r.value) && Follows(f, prev, r.value, volume, solve)
    ensures r.Ok? ==> StateReadable(f, times, switches, i, state, shift, rule)
    ensures r.Ok? ==> r.value.index == StateRowIndex(f, times, switches, i, state, shift, rule)
    ensures r.Ok? && CycleReadable(f, times, switches, i, shift, rule) ==>
      && r.value.ta == StateTa(f, times, switches, i, state, shift, volume, rule)
      && ConvergesAt(f, times, switches, i, state, shift, rule, StateTa(f, times, switches, i, state, shift, volume, rule), solve)
  {
    r := LaterState(f, times, switches, i, state, prev, shift, volume, rule, solve);
    if r.Err? {
      CycleBreaks(f, times, switches, i, from, state, shift, volume, rule, solve, prev);
    } else {
      LaterRowReads(f, times, switches, i, from, state, shift, volume, rule, solve, prev, r.value);
    }
  }

  /** A cycle whose five states are readable and at whose later states the
      root-finder converged for the states' TA succeeds. */
  lemma CycleCompletes(f: TotalFrame, times: PhaseTimes, switches: seq<GasMethods.GasSwitch>, i: nat,
                       shift: int, volume: real, rule: IndexRule, solve: PhSolver)
    requires WellFormed(f)
    requires volume > 0.0
    requires CycleReadable(f, times, switches, i, shift, rule)
    requires ConvergesAt(f, times, switches, i, State1, shift, rule,
                         StateTa(f, times, switches, i, State1, shift, volume, rule), solve)
    requires ConvergesAt(f, times, switches, i, State1Prime, shift, rule,
                         StateTa(f, times, switches, i, State1Prime, shift, volume, rule), solve)
    requires ConvergesAt(f, times, switches, i, State3, shift, rule,
                         StateTa(f, times, switches, i, State3, shift, volume, rule), solve)
    requires ConvergesAt(f, times, switches, i, State3Final, shift, rule,
                         StateTa(f, times, switches, i, State3Final, shift, volume, rule), solve)
    ensures CycleSucceeds(f, times, switches, i, shift, volume, rule, solve)
  {
  }

  /** A 3'i state that cannot be read makes the whole cycle fail; the
      gas-switch table plays no part in reading it. */
  lemma InitialBreaks(f: TotalFrame, times: PhaseTimes, switches: seq<GasMethods.GasSwitch>, i: nat,
                      shift: int, volume: real, rule: IndexRule, solve: PhSolver)
    requires WellFormed(f)
    requires volume > 0.0
    requires !StateReadable(f, times, [], i, State3Initial, shift, rule)
    ensures !CycleSucceeds(f, times, switches, i, shift, volume, rule, solve)
  {
    assert !StateReadable(f, times, switches, i, State3Initial, shift, rule);
  }

  /** A computed 3'i row: its state is readable, and it records the state's
      index and, in a readable cycle, the state's TA. */
  lemma InitialRowReads(f: TotalFrame, times: PhaseTimes, switches: seq<GasMethods.GasSwitch>, i: nat,
                        shift: int, volume: real, rule: IndexRule, row: DicRow)
    requires WellFormed(f)
    requires volume > 0.0
    requires row.state == State3Initial
    requires IndexedAt(f, times, [], i, shift, rule, row) && InitialChemistry(f, row)
    ensures StateReadable(f, times, switches, i, State3Initial, shift, rule)
    ensures row.index == StateRowIndex(f, times, switches, i, State3Initial, shift, rule)
    ensures CycleReadable(f, times, switches, i, shift, rule) ==>
      row.ta == StateTa(f, times, switches, i, State3Initial, shift, volume, rule)
  {
  }

  /** A computed later row: its state is readable, it records the state's
      index, and, in a readable cycle where `prev` held the TA of the
      previous state, it holds this state's TA, at which the root-finder
      converged. */
  lemma LaterRowReads(f: TotalFrame, times: PhaseTimes, switches: seq<GasMethods.GasSwitch>, i: nat,
                      from: State, state: State, shift: int, volume: real, rule: IndexRule, solve: PhSolver,
                      prev: DicRow, row: DicRow)
    requires WellFormed(f)
    requires volume > 0.0
    requires state != State3Initial && from == Previous(state) && row.state == state
    requires IndexedAt(f, times, switches, i, shift, rule, row) && CarriesTa(f, prev, row, volume)
    requires StateReadable(f, times, switches, i, state, shift, rule)
    requires ConvergesAt(f, times, switches, i, state, shift, rule,
                         prev.ta + Carried(f, prev.index, StateRowIndex(f, times, switches, i, state, shift, rule), volume),
                         solve)
    requires CycleReadable(f, times, switches, i, shift, rule) ==>
      && prev.index == StateRowIndex(f, times, switches, i, from, shift, rule)
      && prev.ta == StateTa(f, times, switches, i, from, shift, volume, rule)
    ensures row.index == StateRowIndex(f, times, switches, i, state, shift, rule)
    ensures CycleReadable(f, times, switches, i, shift, rule) ==>
      && row.ta == StateTa(f, times, switches, i, state, shift, volume, rule)
      && ConvergesAt(f, times, switches, i, state, shift, rule, StateTa(f, times, switches, i, state, shift, volume, rule), solve)
  {
    if CycleReadable(f, times, switches, i, shift, rule) {
      TaStep(f, times, switches, i, from, state, shift, volume, rule, prev);
    }
  }

  /** Under a readable cycle, the TA that `prev` carries into `state` is the
      state's own TA. */
  lemma TaStep(f: TotalFrame, times: PhaseTimes, switches: seq<GasMethods.GasSwitch>, i: nat,
               from: State, state: State, shift: int, volume: real, rule: IndexRule, prev: DicRow)
    requires WellFormed(f)
    requires volume > 0.0
    requires state != State3Initial && from == Previous(state)
    requires CycleReadable(f, times, switches, i, shift, rule)
    requires prev.index == StateRowIndex(f, times, switches, i, from, shift, rule)
    requires prev.ta == StateTa(f, times, switches, i, from, shift, volume, rule)
    ensures StateTa(f, times, switches, i, state, shift, volume, rule)
      == prev.ta + Carried(f, prev.index, StateRowIndex(f, times, switches, i, state, shift, rule), volume)
  {
  }

  /** A later state that cannot be read, or at which the root-finder does
      not converge for the TA carried from the previous state's row, makes
      the whole cycle fail. */
  lemma CycleBreaks(f: TotalFrame, times: PhaseTimes, switches: seq<GasMethods.GasSwitch>, i: nat,
                    from: State, state: State, shift: int, volume: real, rule: IndexRule, solve: PhSolver,
                    prev: DicRow)
    requires WellFormed(f)
    requires volume > 0.0
    requires state != State3Initial && from == Previous(state)
    requires CycleReadable(f, times, switches, i, shift, rule) ==>
      && prev.index == StateRowIndex(f, times, switches, i, from, shift, rule)
      && prev.ta == StateTa(f, times, switches, i, from, shift, volume, rule)
    requires !(&& StateReadable(f, times, switches, i, state, shift, rule)
               && ConvergesAt(f, times, switches, i, state, shift, rule,
                              prev.ta + Carried(f, prev.index, StateRowIndex(f, times, switches, i, state, shift, rule), volume),
                              solve))
    ensures !CycleSucceeds(f, times, switches, i, shift, volume, rule, solve)
  {
    if CycleReadable(f, times, switches, i, shift, rule) {
      TaStep(f, times, switches, i, from, state, shift, volume, rule, prev);
      var ta := StateTa(f, times, switches, i, state, shift, volume, rule);
      assert !ConvergesAt(f, times, switches, i, state, shift, rule, ta, solve);
    }
  }

  /** The output table: five rows per cycle, each cycle described by
      `CycleShape`. */
  ghost predicate TableShape(f: TotalFrame, echem: seq<PhaseTimes>, switches: seq<GasMethods.GasSwitch>,
                       shift: int, volume: real, rule: IndexRule, rows: seq<DicRow>, solve: PhSolver)
    requires WellFormed(f)
    requires volume > 0.0
  {
    && |rows| == 5 * |echem|
    && forall i :: 0 <= i < |echem| ==> CycleShape(f, echem[i], switches, i, shift, volume, rule, rows[5 * i..5 * i + 5], solve)
  }

  /** `calc_DIC`: five rows per row of the echem time table, cycle by cycle.
      Cycles are independent: each starts again from an equilibrium 3'i
      reading rather than from the previous cycle's TA. */
  method CalcDic(f: TotalFrame, echem: seq<PhaseTimes>, switches: seq<GasMethods.GasSwitch>,
                 shift: int, volume: real, rule: IndexRule, solve: PhSolver) returns (r: Result<seq<DicRow>, FrameError>)
    requires WellFormed(f)
    requires volume > 0.0
    requires SoundSolver(solve)
    ensures r.Ok? <==> forall i :: 0 <= i < |echem| ==>
      CycleSucceeds(f, echem[i], switches, i, shift, volume, rule, solve)
    ensures |switches| < |echem| ==> r.Err?
    ensures |echem| > 0 && echem[0].chargeStart !in f.datetime ==> r == Err(NoMatchingTime)
    ensures r.Ok? ==> TableShape(f, echem, switches, shift, volume, rule, r.value, solve)
  {
    var rows: seq<DicRow> := [];
    var i := 0;
    while i < |echem|
      invariant 0 <= i <= |echem|
      invariant i <= |switches|
      invariant |rows| == 5 * i
      invariant forall c :: 0 <= c < i ==> CycleShape(f, echem[c], switches, c, shift, volume, rule, rows[5 * c..5 * c + 5], solve)
      invariant forall c :: 0 <= c < i ==> CycleSucceeds(f, echem[c], switches, c, shift, volume, rule, solve)
    {
      var c := CycleRows(f, echem[i], switches, i, shift, volume, rule, solve);
      if c.Err? {
        return Err(c.error);
      }
      var cycle := c.value;
      TableGrows(f, echem, switches, shift, volume, rule, rows, cycle, i, solve);
      rows := rows + cycle;
      i := i + 1;
    }
    r := Ok(rows);
  }

  /** Appending the rows of cycle `i` keeps the earlier cycles' slices. */
  lemma TableGrows(f: TotalFrame, echem: seq<PhaseTimes>, switches: seq<GasMethods.GasSwitch>,
                   shift: int, volume: real, rule: IndexRule, rows: seq<DicRow>, cycle: seq<DicRow>, i: nat,
                   solve: PhSolver)
    requires WellFormed(f)
    requires volume > 0.0
    requires i < |echem| && |rows| == 5 * i
    requires forall c :: 0 <= c < i ==> CycleShape(f, echem[c], switches, c, shift, volume, rule, rows[5 * c..5 * c + 5], solve)
    requires CycleShape(f, echem[i], switches, i, shift, volume, rule, cycle, solve)
    ensures forall c :: 0 <= c < i + 1 ==>
      CycleShape(f, echem[c], switches, c, shift, volume, rule, (rows + cycle)[5 * c..5 * c + 5], solve)
  {
    forall c | 0 <= c < i + 1
      ensures CycleShape(f, echem[c], switches, c, shift, volume, rule, (rows + cycle)[5 * c..5 * c + 5], solve)
    {
      ChunkOfAppend(rows, cycle, i, c);
    }
  }

  /** Row `k` of a table of five-row cycles is row `k % 5` of cycle `k / 5`. */
  lemma RowOfChunk<T>(rows: seq<T>, k: nat)
    requires k < |rows| && |rows| % 5 == 0
    ensures 5 * (k / 5) + 5 <= |rows|
    ensures rows[5 * (k / 5)..5 * (k / 5) + 5][k % 5] == rows[k]
    ensures k % 5 != 0 ==> rows[5 * (k / 5)..5 * (k / 5) + 5][k % 5 - 1] == rows[k - 1]
  {
  }

  /** Cycle `c` of a table extended by one cycle of five rows. */
  lemma ChunkOfAppend<T>(rows: seq<T>, cycle: seq<T>, i: nat, c: nat)
    requires |rows| == 5 * i && |cycle| == 5 && c <= i
    ensures c < i ==> (rows + cycle)[5 * c..5 * c + 5] == rows[5 * c..5 * c + 5]
    ensures c == i ==> (rows + cycle)[5 * c..5 * c + 5] == cycle
  {
    if c < i {
      assert (rows + cycle)[5 * c..5 * c + 5] == rows[5 * c..5 * c + 5];
    } else {
      assert (rows + cycle)[5 * c..5 * c + 5] == cycle;
    }
  }

  // ---------------------------------------------------------------------
  // Properties

  /** Read row by row, the table lists cycles 1, 2, ... with the states of
      each in the order 3'i, 1, 1', 3, 3'f; every 3'i row is an equilibrium
      reading and every other row carries TA from the row before it. */
  lemma TableRows(f: TotalFrame, echem: seq<PhaseTimes>, switches: seq<GasMethods.GasSwitch>,
                  shift: int, volume: real, rule: IndexRule, rows: seq<DicRow>, k: nat, solve: PhSolver)
    requires WellFormed(f)
    requires volume > 0.0
    requires TableShape(f, echem, switches, shift, volume, rule, rows, solve)
    requires k < |rows|
    ensures rows[k].cycle == k / 5 + 1 && rows[k].state == StateOrder[k % 5]
    ensures IndexedAt(f, echem[k / 5], switches, k / 5, shift, rule, rows[k])
    ensures k % 5 == 0 ==> InitialChemistry(f, rows[k])
    ensures k % 5 != 0 ==> LaterChemistry(f, rows[k], solve) && CarriesTa(f, rows[k - 1], rows[k], volume)
  {
    var i := k / 5;
    var j := k % 5;
    RowOfChunk(rows, k);
    assert i < |echem|;
    var cycle := rows[5 * i..5 * i + 5];
    assert CycleShape(f, echem[i], switches, i, shift, volume, rule, cycle, solve);
    RowInCycle(f, echem[i], switches, i, shift, volume, rule, cycle, j, solve);
    assert cycle[j] == rows[k];
    assert RowOfCycle(f, echem[i], switches, i, shift, rule, rows[k], j);
  }

  /** What `CycleShape` says of row `j` of the cycle. */
  lemma RowInCycle(f: TotalFrame, times: PhaseTimes, switches: seq<GasMethods.GasSwitch>, i: nat,
                   shift: int, volume: real, rule: IndexRule, cycle: seq<DicRow>, j: nat, solve: PhSolver)
    requires WellFormed(f)
    requires volume > 0.0
    requires CycleShape(f, times, switches, i, shift, volume, rule, cycle, solve)
    requires j < 5
    ensures RowOfCycle(f, times, switches, i, shift, rule, cycle[j], j)
    ensures j == 0 ==> InitialChemistry(f, cycle[0])
    ensures j != 0 ==> Follows(f, cycle[j - 1], cycle[j], volume, solve)
  {
    var at := (row: DicRow, n: nat) => n < 5 && RowOfCycle(f, times, switches, i, shift, rule, row, n);
    var step := (prev: DicRow, row: DicRow) => Follows(f, prev, row, volume, solve);
    RowOfBlock(cycle, at, step, j);
  }

  /** Row `j` of a five-row block all of whose rows satisfy `at` and all of
      whose consecutive pairs satisfy `step`. */
  lemma RowOfBlock<T>(block: seq<T>, at: (T, nat) -> bool, step: (T, T) -> bool, j: nat)
    requires |block| == 5 && j < 5
    requires at(block[0], 0) && at(block[1], 1) && at(block[2], 2) && at(block[3], 3) && at(block[4], 4)
    requires step(block[0], block[1]) && step(block[1], block[2]) && step(block[2], block[3]) && step(block[3], block[4])
    ensures at(block[j], j)
    ensures j != 0 ==> step(block[j - 1], block[j])
  {
    if j == 0 {
    } else if j == 1 {
    } else if j == 2 {
    } else if j == 3 {
    } else {
      assert j == 4;
    }
  }

  /** The 3'i reading is self-consistent: the CO2 that its TA implies at the
      measured pH is the equilibrium CO2 itself, so the DIC_TA formula of
      the later states would give the same value. */
  lemma InitialStateSelfConsistent(f: TotalFrame, row: DicRow)
    requires WellFormed(f)
    requires InitialChemistry(f, row)
    ensures Co2aqForTa(row.hMeasured, row.ta) == EquilibriumCo2(f, row)
    ensures row.dicTa == Dic(Co2aqForTa(row.hMeasured, row.ta), row.hMeasured, 0.0)
  {
    assert Ta(EquilibriumCo2(f, row), row.hMeasured, row.ta) == 0.0;
  }

  /** Whenever the measured pH already fits the carried TA at equilibrium
      CO2, DIC_TA and DIC_eq coincide (the CO2 behind DIC_TA is unique). */
  lemma DicTaIsDicEqAtEquilibrium(f: TotalFrame, row: DicRow, solve: PhSolver)
    requires WellFormed(f)
    requires LaterChemistry(f, row, solve)
    requires Ta(EquilibriumCo2(f, row), row.hMeasured, row.ta) == 0.0
    ensures row.dicTa == row.dicEq
  {
    var root := Co2aqForTa(row.hMeasured, row.ta);
    assert EquilibriumCo2(f, row) == root;
  }

  /** Dividing a sum by Faraday's constant and the volume. */
  lemma ChargeAdds(x: real, y: real, volume: real)
    requires volume > 0.0
    ensures x / Faraday / volume + y / Faraday / volume == (x + y) / Faraday / volume
  {
  }

  /** TA telescopes along a cycle: with non-decreasing, in-range row
      indices, the TA of state `j` is the 3'i TA plus all charge passed
      between the two rows. */
  lemma {:induction false} TaTelescopes(f: TotalFrame, rows: seq<DicRow>, volume: real, j: nat)
    requires WellFormed(f)
    requires volume > 0.0
    requires j < |rows|
    requires forall k :: 1 <= k < |rows| ==> CarriesTa(f, rows[k - 1], rows[k], volume)
    requires forall k :: 0 <= k < |rows| ==> 0 <= rows[k].index <= |f.current|
    requires forall k :: 1 <= k < |rows| ==> rows[k - 1].index <= rows[k].index
    ensures rows[0].index <= rows[j].index
    ensures rows[j].ta == rows[0].ta + SumRange(f.current, rows[0].index, rows[j].index) / Faraday / volume
  {
    if j == 0 {
      assert SumRange(f.current, rows[0].index, rows[0].index) / Faraday / volume == 0.0;
    } else {
      TaTelescopes(f, rows, volume, j - 1);
      var a: nat := rows[0].index;
      var b: nat := rows[j - 1].index;
      var c: nat := rows[j].index;
      var x := SumRange(f.current, a, b);
      var y := SumRange(f.current, b, c);
      assert CarriesTa(f, rows[j - 1], rows[j], volume);
      assert Slice(f.current, b, c) == f.current[b..c];
      SumOfSlice(f.current, b, c);
      assert rows[j].ta == rows[j - 1].ta + y / Faraday / volume;
      SumRangeSplit(f.current, a, b, c);
      ChargeAdds(x, y, volume);
      assert x / Faraday / volume + y / Faraday / volume == SumRange(f.current, a, c) / Faraday / volume;
    }
  }

  /** No current between the 3'i row and a later state's row leaves TA
      where 3'i put it. */
  lemma ZeroCurrentKeepsTa(f: TotalFrame, rows: seq<DicRow>, volume: real, j: nat)
    requires WellFormed(f)
    requires volume > 0.0
    requires j < |rows|
    requires forall k :: 1 <= k < |rows| ==> CarriesTa(f, rows[k - 1], rows[k], volume)
    requires forall k :: 0 <= k < |rows| ==> 0 <= rows[k].index <= |f.current|
    requires forall k :: 1 <= k < |rows| ==> rows[k - 1].index <= rows[k].index
    requires forall k :: rows[0].index <= k < rows[j].index ==> f.current[k] == 0.0
    ensures rows[j].ta == rows[0].ta
  {
    TaTelescopes(f, rows, volume, j);
    SumRangeOfZeros(f.current, rows[0].index, rows[j].index);
  }

  /** A state whose row does not lie after the previous state's row sees an
      empty slice of current: its TA is the previous TA. */
  lemma BackwardStepKeepsTa(f: TotalFrame, prev: DicRow, row: DicRow, volume: real)
    requires WellFormed(f)
    requires volume > 0.0
    requires CarriesTa(f, prev, row, volume)
    requires 0 <= row.index <= prev.index
    ensures row.ta == prev.ta
  {
    assert Slice(f.current, prev.index, row.index) == [];
  }

  /** On a frame that still has its default index, a row is indexed the
      same way under the as-written lookup and the corrected one. */
  lemma RulesAgreeOnRows(f: TotalFrame, times: PhaseTimes, switches: seq<GasMethods.GasSwitch>, i: nat,
                         shift: int, row: DicRow)
    requires WellFormed(f)
    requires RangeIndex(f.labels)
    ensures IndexedAt(f, times, switches, i, shift, LabelAsPosition, row)
        <==> IndexedAt(f, times, switches, i, shift, MatchedPosition, row)
  {
    var t := EventTime(row.state, times, switches, i);
    if t.Ok? {
      RulesAgreeOnRangeIndex(f.labels, f.datetime, t.value);
    }
  }
}

=== FILE: flow.dfy ===
/** The arithmetic of `merge_echem_gas_df` (utils.py): both tables get an
    hour offset from the first gas timestamp, the merged table drops rows
    whose Arduino loop number is not below the limit, the spline-fitted CO2
    fraction is clamped to 1 above 0.90, the right flow is corrected for the
    CO2 fraction, and both signals are smoothed by an 80-tap moving average
    (`lfilter(b, 1, x)` with `b = [1/80] * 80`) before the same correction
    is applied to the smoothed values.

    Instants are counts of microseconds, the resolution of Python's
    `datetime`; the spline itself is an input (`pco2Fit`). */
module FlowCorrection {
  import opened Common

  // ---------------------------------------------------------------------
  // Time_Delta

  const MicrosPerSecond: int := 1000000
  const SecondsPerDay: int := 86400
  const MicrosPerDay: int := 86400000000

  /** Python's normalised `timedelta`: whole days (possibly negative), then
      seconds and microseconds within the day. */
  datatype TimeDelta = TimeDelta(days: int, seconds: int, microseconds: int)

  /** `later - earlier` for two instants given in microseconds. */
  function Span(micros: int): (d: TimeDelta)
    ensures 0 <= d.seconds < SecondsPerDay && 0 <= d.microseconds < MicrosPerSecond
    ensures (d.days * SecondsPerDay + d.seconds) * MicrosPerSecond + d.microseconds == micros
  {
    var rem := micros % MicrosPerDay;
    DivisionParts(micros, micros / MicrosPerDay, rem);
    TimeDelta(micros / MicrosPerDay, rem / MicrosPerSecond, rem % MicrosPerSecond)
  }

  /** The pieces of the two Euclidean divisions recombine. */
  lemma DivisionParts(micros: int, q: int, rem: int)
    requires q == micros / MicrosPerDay && rem == micros % MicrosPerDay
    ensures 0 <= rem / MicrosPerSecond < SecondsPerDay
    ensures (q * SecondsPerDay + rem / MicrosPerSecond) * MicrosPerSecond + rem % MicrosPerSecond == micros
  {
    assert micros == q * MicrosPerDay + rem;
    var s := rem / MicrosPerSecond;
    var u := rem % MicrosPerSecond;
    assert rem == s * MicrosPerSecond + u;
    assert (q * SecondsPerDay + s) * MicrosPerSecond == q * MicrosPerDay + s * MicrosPerSecond;
  }

  /** `x.days*24 + x.seconds/3600`: the span in hours, with the
      microseconds left out. */
  function Hours(d: TimeDelta): real {
    (d.days * 24) as real + d.seconds as real / 3600.0
  }

  /** The `Time_Delta` of an instant `t`, measured from the first gas
      timestamp `origin`. */
  function TimeDeltaHours(t: int, origin: int): (h: real)
    ensures h * 3600.0 == ((t - origin) / MicrosPerSecond) as real
  {
    var d := Span(t - origin);
    FloorOfSpan(t - origin, d);
    Hours(d)
  }

  /** Dropping the microseconds rounds the span down to whole seconds, also
      for spans before the origin. */
  lemma FloorOfSpan(micros: int, d: TimeDelta)
    requires 0 <= d.microseconds < MicrosPerSecond
    requires (d.days * SecondsPerDay + d.seconds) * MicrosPerSecond + d.microseconds == micros
    ensures d.days * SecondsPerDay + d.seconds == micros / MicrosPerSecond
  {
    var whole := d.days * SecondsPerDay + d.seconds;
    DivUnique(micros, MicrosPerSecond, whole, d.microseconds);
  }

  /** Euclidean division has exactly one quotient. */
  lemma DivUnique(a: int, b: int, q: int, r: int)
    requires b > 0
    requires a == q * b + r && 0 <= r < b
    ensures a / b == q
  {
    var q' := a / b;
    var r' := a % b;
    assert a == q' * b + r';
    if q' < q {
      assert (q - q') * b >= b by {
        MulAtLeast(q - q', b);
      }
      assert false;
    } else if q' > q {
      assert (q' - q) * b >= b by {
        MulAtLeast(q' - q, b);
      }
      assert false;
    }
  }

  lemma MulAtLeast(k: int, b: int)
    requires k >= 1 && b > 0
    ensures k * b >= b
  {
  }

  /** The origin itself is hour 0, and `Time_Delta` is the exact hour count
      up to less than one second, rounding down. */
  lemma TimeDeltaBounds(t: int, origin: int)
    ensures t == origin ==> TimeDeltaHours(t, origin) == 0.0
    ensures TimeDeltaHours(t, origin) * 3600.0 * MicrosPerSecond as real <= (t - origin) as real
    ensures (t - origin) as real < (TimeDeltaHours(t, origin) * 3600.0 + 1.0) * MicrosPerSecond as real
  {
    var s := (t - origin) / MicrosPerSecond;
    var u := (t - origin) % MicrosPerSecond;
    assert t - origin == s * MicrosPerSecond + u;
    assert (t - origin) as real == s as real * MicrosPerSecond as real + u as real;
  }

  /** Later instants never get an earlier `Time_Delta`. */
  lemma TimeDeltaMonotone(t1: int, t2: int, origin: int)
    requires t1 <= t2
    ensures TimeDeltaHours(t1, origin) <= TimeDeltaHours(t2, origin)
  {
    var h1 := TimeDeltaHours(t1, origin);
    var h2 := TimeDeltaHours(t2, origin);
    DivMonotone(t1 - origin, t2 - origin, MicrosPerSecond);
    assert h1 * 3600.0 <= h2 * 3600.0;
  }

  /** Euclidean division by a positive number is monotone. */
  lemma DivMonotone(a: int, b: int, d: int)
    requires a <= b && d > 0
    ensures a / d <= b / d
  {
    var q1, r1 := a / d, a % d;
    var q2, r2 := b / d, b % d;
    assert a == q1 * d + r1 && b == q2 * d + r2;
    if q1 > q2 {
      assert (q1 - q2) * d >= d by {
        MulAtLeast(q1 - q2, d);
      }
      assert false;
    }
  }

  // ---------------------------------------------------------------------
  // The loop filter

  /** The default `max_loop_num`. */
  const DefaultMaxLoop: int := 11

  /** A row of the merged table as far as the filter and the corrections
      read it. After the outer merge a row that came from one table only has
      NaN in the other's columns: `None` is a NaN `loop_num`. */
  datatype MergedRow = MergedRow(timeDelta: real, loopNum: Option<real>, flow: real, pco2Signal: real)

  /** `total_df['loop_num'] < max_loop_num`; NaN compares false. */
  predicate Kept(row: MergedRow, maxLoop: int) {
    row.loopNum.Some? && row.loopNum.value < maxLoop as real
  }

  /** The boolean-mask selection of the rows that pass. */
  function LoopFilter(rows: seq<MergedRow>, maxLoop: int): (r: seq<MergedRow>)
    ensures |r| <= |rows|
    ensures forall k :: 0 <= k < |r| ==> Kept(r[k], maxLoop)
  {
    if |rows| == 0 then []
    else
      var rest := LoopFilter(rows[..|rows| - 1], maxLoop);
      if Kept(rows[|rows| - 1], maxLoop) then rest + [rows[|rows| - 1]] else rest
  }

  /** A row survives exactly when it was in the table and passes the test. */
  lemma {:induction false} LoopFilterMembership(rows: seq<MergedRow>, maxLoop: int, x: MergedRow)
    ensures x in LoopFilter(rows, maxLoop) <==> x in rows && Kept(x, maxLoop)
  {
    if |rows| > 0 {
      var prefix := rows[..|rows| - 1];
      LoopFilterMembership(prefix, maxLoop, x);
      assert rows == prefix + [rows[|rows| - 1]];
    }
  }

  /** The filter works row by row and keeps the table's order: filtering two
      consecutive blocks is filtering each and concatenating. */
  lemma {:induction false} LoopFilterAppend(a: seq<MergedRow>, b: seq<MergedRow>, maxLoop: int)
    ensures LoopFilter(a + b, maxLoop) == LoopFilter(a, maxLoop) + LoopFilter(b, maxLoop)
    decreases |b|
  {
    if |b| == 0 {
      assert a + b == a;
    } else {
      var b' := b[..|b| - 1];
      LoopFilterAppend(a, b', maxLoop);
      assert (a + b)[..|a + b| - 1] == a + b';
      assert (a + b)[|a + b| - 1] == b[|b| - 1];
    }
  }

  /** Filtering twice is filtering once. */
  lemma {:induction false} LoopFilterIdempotent(rows: seq<MergedRow>, maxLoop: int)
    ensures LoopFilter(LoopFilter(rows, maxLoop), maxLoop) == LoopFilter(rows, maxLoop)
  {
    if |rows| > 0 {
      var prefix := rows[..|rows| - 1];
      var last := rows[|rows| - 1];
      LoopFilterIdempotent(prefix, maxLoop);
      if Kept(last, maxLoop) {
        LoopFilterAppend(LoopFilter(prefix, maxLoop), [last], maxLoop);
        assert LoopFilter([last], maxLoop) == [last] by {
          assert [last][..0] == [];
        }
      }
    }
  }

  // ---------------------------------------------------------------------
  // The CO2 clamp and the flow correction

  /** Fitted CO2 fractions above this are taken as pure CO2. */
  const SaturationThreshold: real := 0.90
  /** The flow sensor's reading for pure CO2 relative to N2. */
  const Co2FlowFactor: real := 0.685

  /** `np.where(x > 0.90, 1, x)`. */
  function ClampPco2(x: real): (r: real)
    ensures r <= SaturationThreshold || r == 1.0
    ensures x <= SaturationThreshold ==> r == x
    ensures r != x ==> x > SaturationThreshold
  {
    if x > SaturationThreshold then 1.0 else x
  }

  /** Clamping a clamped value changes nothing. */
  lemma ClampIdempotent(x: real)
    ensures ClampPco2(ClampPco2(x)) == ClampPco2(x)
  {
  }

  /** `flow * (p * 0.685 + (1 - p))`: the measured flow corrected for a gas
      that is a fraction `p` CO2. */
  function CorrectedFlow(flow: real, p: real): (r: real)
    ensures p == 0.0 ==> r == flow
    ensures p == 1.0 ==> r == Co2FlowFactor * flow
    ensures r == flow - (1.0 - Co2FlowFactor) * p * flow
  {
    flow * (p * Co2FlowFactor + (1.0 - p))
  }

  /** For a non-negative flow and a fraction in [0, 1] the correction lies
      between the pure-CO2 value and the uncorrected flow, decreasing in
      the CO2 fraction. */
  lemma CorrectedFlowBetween(flow: real, p: real, q: real)
    requires flow >= 0.0
    requires 0.0 <= p <= q <= 1.0
    ensures Co2FlowFactor * flow <= CorrectedFlow(flow, q) <= CorrectedFlow(flow, p) <= flow
  {
    var c := (1.0 - Co2FlowFactor) * flow;
    assert c >= 0.0;
    CorrectedFlowAsShift(flow, p, c);
    CorrectedFlowAsShift(flow, q, c);
    ScaledFractions(p, q, c);
    assert Co2FlowFactor * flow == flow - c;
  }

  /** Scaling by a non-negative amount keeps the order of two fractions. */
  lemma ScaledFractions(p: real, q: real, c: real)
    requires 0.0 <= p <= q <= 1.0 && c >= 0.0
    ensures 0.0 <= p * c <= q * c <= c
  {
    MulAtMost(0.0, p, c);
    MulAtMost(p, q, c);
    MulAtMost(q, 1.0, c);
  }

  /** The correction subtracts the fraction `p` of the CO2 shortfall. */
  lemma CorrectedFlowAsShift(flow: real, p: real, c: real)
    requires c == (1.0 - Co2FlowFactor) * flow
    ensures CorrectedFlow(flow, p) == flow - p * c
  {
    MulRotate(1.0 - Co2FlowFactor, p, flow);
  }

  lemma MulRotate(a: real, b: real, c: real)
    ensures a * b * c == b * (a * c)
  {
  }

  lemma MulAtMost(a: real, b: real, c: real)
    requires a <= b && c >= 0.0
    ensures a * c <= b * c
  {
  }

  /** A saturated reading counts as pure CO2. */
  lemma SaturatedReadingIsPureCo2(flow: real, x: real)
    requires x > SaturationThreshold
    ensures CorrectedFlow(flow, ClampPco2(x)) == Co2FlowFactor * flow
  {
  }

  // ---------------------------------------------------------------------
  // The moving-average filter

  /** `n` in the source: the number of taps. */
  const Taps: nat := 80

  /** `b = [1.0 / n] * n`. */
  function UniformTaps(n: nat): (b: seq<real>)
    requires n > 0
    ensures |b| == n && forall j :: 0 <= j < n ==> b[j] == 1.0 / n as real
  {
    seq(n, j requires 0 <= j < n => 1.0 / n as real)
  }

  /** The first `m` terms of output `k` of `lfilter(b, 1, x)` with zero
      initial state: `b[j] * x[k - j]`, with `x` zero before its start. */
  function FirTerms(b: seq<real>, x: seq<real>, k: nat, m: nat): real
    requires k < |x| && m <= |b|
  {
    if m == 0 then 0.0
    else FirTerms(b, x, k, m - 1) + b[m - 1] * (if m - 1 <= k then x[k - (m - 1)] else 0.0)
  }

  /** `lfilter(b, 1, x)`: the reference the filter method is proved against. */
  function LFilter(b: seq<real>, x: seq<real>): (y: seq<real>)
    ensures |y| == |x|
  {
    seq(|x|, k requires 0 <= k < |x| => FirTerms(b, x, k, |b|))
  }

  /** Where the window of the first `m` taps of output `k` starts. */
  function WindowStart(k: nat, m: nat): nat {
    if m <= k + 1 then k + 1 - m else 0
  }

  /** With equal taps, the first `m` terms of output `k` are the tap value
      times the sum of the last `m` inputs up to `k`. */
  lemma {:induction false} UniformTermsAreWindowSum(x: seq<real>, k: nat, m: nat)
    requires k < |x| && m <= Taps
    ensures FirTerms(UniformTaps(Taps), x, k, m) == SumRange(x, WindowStart(k, m), k + 1) * (1.0 / Taps as real)
  {
    var w := 1.0 / Taps as real;
    if m > 0 {
      UniformTermsAreWindowSum(x, k, m - 1);
      var before := SumRange(x, WindowStart(k, m - 1), k + 1);
      assert UniformTaps(Taps)[m - 1] == w;
      if m - 1 <= k {
        SumRangeSplit(x, k + 1 - m, k + 2 - m, k + 1);
        assert SumRange(x, k + 1 - m, k + 2 - m) == x[k + 1 - m];
        assert SumRange(x, WindowStart(k, m), k + 1) == x[k + 1 - m] + before;
        assert (x[k + 1 - m] + before) * w == before * w + w * x[k + 1 - m];
      }
    }
  }

  /** The filter as computed with a running window sum: add the newest
      sample, drop the one that left the window. */
  method MovingAverage(x: seq<real>) returns (y: seq<real>)
    ensures y == LFilter(UniformTaps(Taps), x)
  {
    var w := 1.0 / Taps as real;
    y := [];
    var sum := 0.0;
    var k := 0;
    while k < |x|
      invariant 0 <= k <= |x|
      invariant |y| == k
      invariant sum == SumRange(x, WindowStart(k, Taps + 1), k)
      invariant forall j :: 0 <= j < k ==> y[j] == LFilter(UniformTaps(Taps), x)[j]
    {
      if k >= Taps {
        SumRangeSplit(x, k - Taps, k - Taps + 1, k);
        assert SumRange(x, k - Taps, k - Taps + 1) == x[k - Taps];
        sum := sum - x[k - Taps];
      }
      sum := sum + x[k];
      assert sum == SumRange(x, WindowStart(k, Taps), k + 1);
      UniformTermsAreWindowSum(x, k, Taps);
      y := y + [sum * w];
      k := k + 1;
    }
  }

  /** A constant input ramps up over the first 79 outputs, because the
      filter starts from zeros, and is reproduced exactly from output 79
      on. */
  lemma {:induction false} ConstantInput(x: seq<real>, c: real, k: nat)
    requires forall j :: 0 <= j < |x| ==> x[j] == c
    requires k < |x|
    ensures k + 1 >= Taps ==> LFilter(UniformTaps(Taps), x)[k] == c
    ensures k + 1 < Taps ==> LFilter(UniformTaps(Taps), x)[k] == (k + 1) as real * c / Taps as real
  {
    WindowOfConstant(x, c, k);
    RampValue(k, c);
  }

  /** The window sum of a constant input is the constant times the number
      of samples in the window. */
  lemma WindowOfConstant(x: seq<real>, c: real, k: nat)
    requires forall j :: 0 <= j < |x| ==> x[j] == c
    requires k < |x|
    ensures FirTerms(UniformTaps(Taps), x, k, Taps) == (k + 1 - WindowStart(k, Taps)) as real * c * (1.0 / Taps as real)
  {
    UniformTermsAreWindowSum(x, k, Taps);
    ConstantRange(x, c, WindowStart(k, Taps), k + 1);
  }

  lemma RampValue(k: nat, c: real)
    ensures k + 1 >= Taps ==> (k + 1 - WindowStart(k, Taps)) as real * c * (1.0 / Taps as real) == c
    ensures k + 1 < Taps ==>
      (k + 1 - WindowStart(k, Taps)) as real * c * (1.0 / Taps as real) == (k + 1) as real * c / Taps as real
  {
  }


  lemma {:induction false} ConstantRange(x: seq<real>, c: real, lo: nat, hi: nat)
    requires lo <= hi <= |x|
    requires forall j :: 0 <= j < |x| ==> x[j] == c
    ensures SumRange(x, lo, hi) == (hi - lo) as real * c
    decreases hi
  {
    if hi > lo {
      ConstantRange(x, c, lo, hi - 1);
      assert (hi - 1 - lo) as real * c + c == (hi - lo) as real * c;
    }
  }

  /** Applies the clamp to every fitted CO2 fraction. */
  function ClampColumn(p: seq<real>): (r: seq<real>)
    ensures |r| == |p| && forall k :: 0 <= k < |p| ==> r[k] == ClampPco2(p[k])
  {
    seq(|p|, k requires 0 <= k < |p| => ClampPco2(p[k]))
  }

  /** The three columns the merge adds: `right_pco2` (clamped),
      `Corrected_Flow_Right`, and `Corrected_Flow_Right_filtered`, the
      correction applied to the smoothed flow and the smoothed clamped
      fraction. */
  method CorrectFlows(flow: seq<real>, pco2Fit: seq<real>) returns (pco2: seq<real>, corrected: seq<real>, filtered: seq<real>)
    requires |flow| == |pco2Fit|
    ensures |pco2| == |corrected| == |filtered| == |flow|
    ensures forall k :: 0 <= k < |flow| ==> pco2[k] == ClampPco2(pco2Fit[k])
    ensures forall k :: 0 <= k < |flow| ==> corrected[k] == CorrectedFlow(flow[k], pco2[k])
    ensures forall k :: 0 <= k < |flow| ==>
      filtered[k] == CorrectedFlow(LFilter(UniformTaps(Taps), flow)[k], LFilter(UniformTaps(Taps), pco2)[k])
  {
    var smoothFlow := MovingAverage(flow);
    pco2 := ClampColumn(pco2Fit);
    var smoothPco2 := MovingAverage(pco2);
    corrected := seq(|flow|, k requires 0 <= k < |flow| => CorrectedFlow(flow[k], pco2[k]));
    filtered := seq(|flow|, k requires 0 <= k < |flow| => CorrectedFlow(smoothFlow[k], smoothPco2[k]));
  }
}

=== FILE: frames.dfy ===
/** The little of pandas that the analysis functions lean on: a frame is a
    set of equally long columns plus an index of row labels; rows are found by
    exact timestamp match, read back with `iloc` (a position, negative counting
    from the end), and the boolean filters keep rows in their original order.

    The source looks a row up with `frame[frame['Datetime'] == t].index` and
    hands the resulting LABEL to `iloc`, which expects a POSITION. The two
    agree only while the frame still has its default 0..n-1 index;
    `IndexRule` keeps both readings so that each use can be compared. */
module Frames {
  import opened Common
  import opened GamryHeader

  /** The errors the pandas/numpy calls raise on the paths the model covers. */
  datatype FrameError =
    | NoMatchingTime        // `.values[0]` on an empty index (IndexError)
    | PositionOutOfRange    // `iloc` past either end (IndexError)
    | MissingColumn(name: string)  // a column the frame does not have (KeyError)
    | MissingCycle          // `iloc[i]` on a table with fewer cycles (IndexError)
    | ZeroGasFlow           // 0/0 in the CO2 fraction (NaN in the source)
    | NoConvergence         // the pH root-finder gave up
    | UnboundName(name: string)  // a name read before any assignment (NameError)
    | NeverStops            // the source's loop does not terminate

  /** Python's ordering of `datetime` values: field by field, most
      significant first. */
  predicate Precedes(a: DateTime, b: DateTime) {
    || a.year < b.year
    || (a.year == b.year && a.month < b.month)
    || (a.year == b.year && a.month == b.month && a.day < b.day)
    || (a.year == b.year && a.month == b.month && a.day == b.day && a.hour < b.hour)
    || (a.year == b.year && a.month == b.month && a.day == b.day && a.hour == b.hour && a.minute < b.minute)
    || (a.year == b.year && a.month == b.month && a.day == b.day && a.hour == b.hour && a.minute == b.minute
        && a.second < b.second)
  }

  /** `a <= b` on datetimes. */
  predicate NotAfter(a: DateTime, b: DateTime) {
    a == b || Precedes(a, b)
  }

  /** The datetime order is a strict total order. */
  lemma PrecedesIsStrictTotal(a: DateTime, b: DateTime, c: DateTime)
    ensures !Precedes(a, a)
    ensures Precedes(a, b) ==> !Precedes(b, a)
    ensures Precedes(a, b) && Precedes(b, c) ==> Precedes(a, c)
    ensures a == b || Precedes(a, b) || Precedes(b, a)
  {
  }

  /** Position of the first row whose timestamp is `t`. */
  function FirstMatch(times: seq<DateTime>, t: DateTime): (r: Option<nat>)
    ensures r.Some? ==> r.value < |times| && times[r.value] == t
    ensures r.Some? ==> forall k :: 0 <= k < r.value ==> times[k] != t
    ensures r.None? ==> forall k :: 0 <= k < |times| ==> times[k] != t
  {
    if |times| == 0 then None
    else if times[0] == t then Some(0)
    else match FirstMatch(times[1..], t)
      case None => None
      case Some(k) => Some(k + 1)
  }

  /** Which value the lookup hands on to `iloc`. */
  datatype IndexRule =
    | LabelAsPosition  // as written: the index label of the first match
    | MatchedPosition  // as intended: the position of the first match

  /** `frame[frame['Datetime'] == t].index.values[0]`, read under `rule`;
      `None` is the IndexError of an empty match. */
  function MatchIndex(labels: seq<int>, times: seq<DateTime>, t: DateTime, rule: IndexRule): (r: Option<int>)
    requires |labels| == |times|
    ensures r.Some? <==> t in times
  {
    match FirstMatch(times, t)
    case None => None
    case Some(k) => Some(if rule == LabelAsPosition then labels[k] else k)
  }

  /** The default index `0, 1, ..., n-1` of a frame that was never filtered. */
  predicate RangeIndex(labels: seq<int>) {
    forall k :: 0 <= k < |labels| ==> labels[k] == k
  }

  /** The position read under the corrected rule is the first row carrying
      the timestamp. */
  lemma MatchedPositionFindsRow(labels: seq<int>, times: seq<DateTime>, t: DateTime)
    requires |labels| == |times|
    requires t in times
    ensures var p := MatchIndex(labels, times, t, MatchedPosition).value;
      0 <= p < |times| && times[p] == t && forall k :: 0 <= k < p ==> times[k] != t
  {
  }

  /** On a frame with its default index the two rules agree. */
  lemma RulesAgreeOnRangeIndex(labels: seq<int>, times: seq<DateTime>, t: DateTime)
    requires |labels| == |times|
    requires RangeIndex(labels)
    ensures MatchIndex(labels, times, t, LabelAsPosition) == MatchIndex(labels, times, t, MatchedPosition)
  {
  }

  /** After a filter has dropped the row labelled 1, the label of the row
      stamped 00:00:20 is 2, and position 2 holds the row stamped 00:00:30:
      the as-written lookup reads the wrong row. */
  lemma LabelLookupMisreads()
    ensures var times := [Stamp(10), Stamp(20), Stamp(30)];
      var labels := [0, 2, 3];
      && MatchIndex(labels, times, Stamp(20), LabelAsPosition) == Some(2)
      && times[2] != Stamp(20)
      && MatchIndex(labels, times, Stamp(20), MatchedPosition) == Some(1)
      && times[1] == Stamp(20)
  {
    var times := [Stamp(10), Stamp(20), Stamp(30)];
    assert times[0] != Stamp(20);
    assert times[1..][0] == Stamp(20);
  }

  /** A timestamp a few seconds into 1 January 2021 (used by the examples). */
  function Stamp(second: nat): DateTime {
    DateTime(2021, 1, 1, 0, 0, second)
  }

  /** `iloc[index]` on a frame of `n` rows: negative positions count from the
      end; anything outside `[-n, n)` is an IndexError. */
  function ILoc(index: int, n: nat): (r: Option<nat>)
    ensures r.Some? <==> 0 <= n + index && index < n
    ensures r.Some? ==> r.value < n
    ensures r.Some? ==> r.value == SliceBound(index, n)
  {
    if 0 <= index < n then Some(index)
    else if 0 <= n + index && index < 0 then Some(n + index)
    else None
  }

  /** Positions, in order, of the rows whose timestamp lies in `[lo, hi)`:
      the boolean filter `(Datetime >= lo) & (Datetime < hi)`. */
  function Window(times: seq<DateTime>, lo: DateTime, hi: DateTime): (ps: seq<nat>)
    ensures forall k :: 0 <= k < |ps| ==> ps[k] < |times|
    ensures forall k, l :: 0 <= k < l < |ps| ==> ps[k] < ps[l]
    decreases |times|
  {
    if |times| == 0 then []
    else
      var rest := Window(times[..|times| - 1], lo, hi);
      if NotAfter(lo, times[|times| - 1]) && Precedes(times[|times| - 1], hi) then rest + [|times| - 1]
      else rest
  }

  /** A row is in the window exactly when its timestamp lies in `[lo, hi)`. */
  lemma {:induction false} WindowMembership(times: seq<DateTime>, lo: DateTime, hi: DateTime, p: nat)
    ensures p in Window(times, lo, hi) <==>
      p < |times| && NotAfter(lo, times[p]) && Precedes(times[p], hi)
    decreases |times|
  {
    if |times| > 0 {
      var prefix := times[..|times| - 1];
      WindowMembership(prefix, lo, hi, p);
      if p < |prefix| {
        assert prefix[p] == times[p];
      }
    }
  }
}

=== FILE: gamry.dfy ===
/** The Gamry-export readers of echem_methods.py: the `*_#N.DTA` file-name
    rule, the data-row rule and probe calibration of `analyze_gamry_file`, the
    capacity prefix sum, the per-cycle capacity/energy efficiencies of
    `cal_capacity_energy`, the outgas-end clock arithmetic and cycle loop of
    `find_echem_time_period`, and the impedance reader `read_gamry_eis`.

    Files are given as their lines (a map from relative path to lines where
    a directory is read); Python's `float()` is the parameter `parseFloat`,
    returning `None` where `float()` raises. */
module Gamry {
  import opened Common
  import opened Text
  import opened GamryHeader

  /** The exceptions the readers let propagate. */
  datatype GamryError =
    | Header(cause: HeaderError)   // from find_date_time or the datetime constructor
    | NoCycleMarker                // IndexError: the file name has no `_#`
    | BadCycleNumber               // ValueError: the text after `_#` is not an integer
    | BlankDataRow                 // IndexError: `row.split()[0]` on a blank data line
    | ShortRow                     // IndexError: a data line has too few columns
    | NotANumber                   // ValueError from float()
    | NoDataRows                   // np.polyfit on an empty series
    | MissingFile(path: string)    // FileNotFoundError

  function LiftHeader<T>(r: Result<T, HeaderError>): (l: Result<T, GamryError>)
    ensures l.Ok? <==> r.Ok?
    ensures l.Ok? ==> l.value == r.value
  {
    match r
    case Ok(v) => Ok(v)
    case Err(e) => Err(Header(e))
  }

  // ---------------------------------------------------------------------
  // File names

  /** `PREFIX_#N.ext` at the end of a path gives cycle number `N` and
      electrochemical process `PREFIX`. */
  function ParseFileName(name: string): (r: Result<(int, string), GamryError>)
  {
    var parts := Split(name, "/");
    var base := parts[|parts| - 1];
    var pieces := Split(base, "_#");
    if |pieces| < 2 then Err(NoCycleMarker)
    else
      match ParseInt(Split(pieces[1], ".")[0])
      case None => Err(BadCycleNumber)
      case Some(n) => Ok((n, pieces[0]))
  }

  lemma FileNameRoundTrip(dir: string, prefix: string, n: nat, ext: string)
    requires '/' !in prefix && '_' !in prefix
    requires '/' !in ext && '_' !in ext
    ensures ParseFileName(dir + "/" + prefix + "_#" + ShowNat(n) + "." + ext) == Ok((n as int, prefix))
  {
    var base := prefix + "_#" + ShowNat(n) + "." + ext;
    var path := dir + "/" + prefix + "_#" + ShowNat(n) + "." + ext;
    BaseNameRoundTrip(prefix, n, ext);
    PathOfDirAndBase(dir, prefix, ShowNat(n), ext);
    LastPieceAfterSeparator(dir, '/', base);
    ParseFileNameOfParts(path, base, prefix, n);
  }

  /** The file name read from a path whose last piece splits into the
      prefix and a rest starting with the cycle number. */
  lemma ParseFileNameOfParts(path: string, base: string, prefix: string, n: int)
    requires Split(path, "/")[|Split(path, "/")| - 1] == base
    requires |Split(base, "_#")| >= 2 && Split(base, "_#")[0] == prefix
    requires ParseInt(Split(Split(base, "_#")[1], ".")[0]) == Some(n)
    ensures ParseFileName(path) == Ok((n, prefix))
  {
  }

  lemma PathOfDirAndBase(dir: string, prefix: string, digits: string, ext: string)
    ensures dir + "/" + prefix + "_#" + digits + "." + ext == dir + ['/'] + (prefix + "_#" + digits + "." + ext)
  {
  }

  /** The base name `PREFIX_#N.ext` has no slash, splits at the cycle marker
      into the prefix and the rest, and the rest starts with the number. */
  lemma BaseNameRoundTrip(prefix: string, n: nat, ext: string)
    requires '/' !in prefix && '_' !in prefix
    requires '/' !in ext && '_' !in ext
    ensures var base := prefix + "_#" + ShowNat(n) + "." + ext;
      && '/' !in base
      && |Split(base, "_#")| >= 2
      && Split(base, "_#")[0] == prefix
      && ParseInt(Split(Split(base, "_#")[1], ".")[0]) == Some(n as int)
  {
    var digits := ShowNat(n);
    var rest := digits + "." + ext;
    DigitsAvoid(digits, '/');
    DigitsAvoid(digits, '_');
    assert prefix + "_#" + digits + "." + ext == prefix + "_#" + rest;
    SplitAfterPiece(prefix, "_#", rest);
    SplitWithoutSeparator(rest, "_#");
    NumberThenExtension(n, ext);
  }

  /** `N.ext` split at the dots starts with the number. */
  lemma NumberThenExtension(n: nat, ext: string)
    ensures ParseInt(Split(ShowNat(n) + "." + ext, ".")[0]) == Some(n as int)
  {
    DigitsAvoid(ShowNat(n), '.');
    SplitAfterPiece(ShowNat(n), ".", ext);
    ParseShowNat(n);
  }



  // ---------------------------------------------------------------------
  // Data rows

  /** Data begins at the first line that starts with a tab and a zero. */
  const DataStart := "\t0"
  /** The trailing line that is not data. */
  const TimeOffsetTag := "STARTTIMEOFFSET"

  /** Position of the first line with the given prefix. */
  function FirstStartingWith(lines: seq<string>, prefix: string): (r: Option<nat>)
    ensures r.Some? ==> r.value < |lines| && StartsWith(lines[r.value], prefix)
  {
    FirstStartingFrom(lines, prefix, 0)
  }

  /** Position of the first line at or after `i` with the given prefix. */
  function FirstStartingFrom(lines: seq<string>, prefix: string, i: nat): (r: Option<nat>)
    ensures r.Some? ==> i <= r.value < |lines| && StartsWith(lines[r.value], prefix)
    decreases |lines| - i
  {
    if i >= |lines| then None
    else if StartsWith(lines[i], prefix) then Some(i)
    else FirstStartingFrom(lines, prefix, i + 1)
  }

  /** No line between `i` and the one found has the prefix, and none at all
      from `i` on when nothing is found. */
  lemma {:induction false} FirstStartingFromIsFirst(lines: seq<string>, prefix: string, i: nat)
    ensures FirstStartingFrom(lines, prefix, i).Some? ==>
      forall j :: i <= j < FirstStartingFrom(lines, prefix, i).value ==> !StartsWith(lines[j], prefix)
    ensures FirstStartingFrom(lines, prefix, i).None? ==>
      forall j :: i <= j < |lines| ==> !StartsWith(lines[j], prefix)
    decreases |lines| - i
  {
    if i < |lines| && !StartsWith(lines[i], prefix) {
      FirstStartingFromIsFirst(lines, prefix, i + 1);
    }
  }

  /** No line before the one found has the prefix, and none at all when
      nothing is found. */
  lemma FirstStartingWithIsFirst(lines: seq<string>, prefix: string)
    ensures FirstStartingWith(lines, prefix).Some? ==>
      forall j :: 0 <= j < FirstStartingWith(lines, prefix).value ==> !StartsWith(lines[j], prefix)
    ensures FirstStartingWith(lines, prefix).None? ==>
      forall j :: 0 <= j < |lines| ==> !StartsWith(lines[j], prefix)
  {
    FirstStartingFromIsFirst(lines, prefix, 0);
  }

  /** A line with the prefix and none before it is the one found. */
  lemma FirstStartingWithAt(lines: seq<string>, prefix: string, v: nat)
    requires v < |lines| && StartsWith(lines[v], prefix)
    requires forall j :: 0 <= j < v ==> !StartsWith(lines[j], prefix)
    ensures FirstStartingWith(lines, prefix) == Some(v)
  {
    FirstStartingWithIsFirst(lines, prefix);
  }

  /** Each line split on whitespace. */
  function TokenLines(lines: seq<string>): (t: seq<seq<string>>)
    ensures |t| == |lines|
    decreases |lines|
  {
    if |lines| == 0 then [] else [Words(lines[0])] + TokenLines(lines[1..])
  }

  /** Line `k` of the token lists is line `k` split on whitespace. */
  lemma {:induction false} TokenLinesAt(lines: seq<string>, k: nat)
    requires k < |lines|
    ensures TokenLines(lines)[k] == Words(lines[k])
    decreases |lines|
  {
    if k > 0 {
      TokenLinesAt(lines[1..], k - 1);
    }
  }

  /** The token lists among `tokens[s..i]` that are kept once the data has
      begun at `s`: every line except the one whose first token is the
      time-offset tag; a blank line (no tokens) is an error. Defined by
      extending the range on the right, so that the first blank line is the
      one reported. */
  function KeptRows(tokens: seq<seq<string>>, s: nat, i: nat): (r: Result<seq<seq<string>>, GamryError>)
    requires s <= i <= |tokens|
    ensures r.Ok? ==> |r.value| <= i - s
    decreases i
  {
    if i == s then Ok([])
    else
      var prev := KeptRows(tokens, s, i - 1);
      var line := tokens[i - 1];
      if prev.Err? then prev
      else if |line| == 0 then Err(BlankDataRow)
      else if line[0] != TimeOffsetTag then Ok(prev.value + [line])
      else prev
  }

  /** Reading fails exactly when some line after the start is blank. */
  lemma {:induction false} KeptRowsFailOnBlank(tokens: seq<seq<string>>, s: nat, i: nat)
    requires s <= i <= |tokens|
    ensures KeptRows(tokens, s, i).Err? <==> exists k :: s <= k < i && |tokens[k]| == 0
    decreases i
  {
    if i > s {
      KeptRowsFailOnBlank(tokens, s, i - 1);
    }
  }

  /** Every kept row has a first token, and it is never the time-offset tag;
      every line with a first token other than the tag is kept. */
  lemma {:induction false} KeptRowsAreData(tokens: seq<seq<string>>, s: nat, i: nat)
    requires s <= i <= |tokens|
    requires KeptRows(tokens, s, i).Ok?
    ensures forall k :: 0 <= k < |KeptRows(tokens, s, i).value| ==>
      |KeptRows(tokens, s, i).value[k]| > 0 && KeptRows(tokens, s, i).value[k][0] != TimeOffsetTag
    ensures forall k :: s <= k < i && 0 < |tokens[k]| && tokens[k][0] != TimeOffsetTag ==> tokens[k] in KeptRows(tokens, s, i).value
    decreases i
  {
    if i > s {
      KeptRowsFailOnBlank(tokens, s, i);
      KeptRowsAreData(tokens, s, i - 1);
      var prev := KeptRows(tokens, s, i - 1).value;
      var line := tokens[i - 1];
      if line[0] != TimeOffsetTag {
        var rows := prev + [line];
        forall k | 0 <= k < |rows|
          ensures |rows[k]| > 0 && rows[k][0] != TimeOffsetTag
        {
          if k < |prev| {
            assert rows[k] == prev[k];
          }
        }
      }
    }
  }

  /** The rows analyze_gamry_file reads, as a declarative rule. */
  function DataRows(lines: seq<string>): Result<seq<seq<string>>, GamryError> {
    match FirstStartingWith(lines, DataStart)
    case None => Ok([])
    case Some(s) => KeptRows(TokenLines(lines), s, |lines|)
  }

  /** The row loop as the source runs it: each line of `tokens[s..i]` is
      read as soon as it is reached, so a blank line fails, the time-offset
      line is skipped, and every other line is parsed on the spot, the first
      line that fails to parse stopping the loop with its own error.
      Extending the range on the right keeps the failures in line order. */
  function Scan<T>(tokens: seq<seq<string>>, s: nat, i: nat, parse: seq<string> -> Result<T, GamryError>)
    : (r: Result<seq<T>, GamryError>)
    requires s <= i <= |tokens|
    ensures r.Ok? ==> |r.value| <= i - s
    decreases i
  {
    if i == s then Ok([])
    else
      var prev := Scan(tokens, s, i - 1, parse);
      var line := tokens[i - 1];
      if prev.Err? then prev
      else if |line| == 0 then Err(BlankDataRow)
      else if line[0] == TimeOffsetTag then prev
      else match parse(line)
        case Err(e) => Err(e)
        case Ok(x) => Ok(prev.value + [x])
  }

  /** A line at which the row loop stops: a blank one, or a data line that
      does not parse. */
  predicate LineFails<T>(line: seq<string>, parse: seq<string> -> Result<T, GamryError>) {
    |line| == 0 || (line[0] != TimeOffsetTag && parse(line).Err?)
  }

  /** The error a failing line raises. */
  function LineError<T>(line: seq<string>, parse: seq<string> -> Result<T, GamryError>): GamryError
    requires LineFails(line, parse)
  {
    if |line| == 0 then BlankDataRow else parse(line).error
  }

  /** One more line: a blank one fails, the tag line is skipped, any other
      line is parsed and appended, or fails with its parse error. */
  lemma ScanExtend<T>(tokens: seq<seq<string>>, s: nat, i: nat, parse: seq<string> -> Result<T, GamryError>,
                      rows: seq<T>)
    requires s <= i < |tokens|
    requires Scan(tokens, s, i, parse) == Ok(rows)
    ensures LineFails(tokens[i], parse) ==> Scan(tokens, s, i + 1, parse) == Err(LineError(tokens[i], parse))
    ensures !LineFails(tokens[i], parse) ==>
      Scan(tokens, s, i + 1, parse) ==
        Ok(if tokens[i][0] != TimeOffsetTag then rows + [parse(tokens[i]).value] else rows)
  {
  }

  /** Once a range has failed, every longer range fails the same way. */
  lemma {:induction false} ScanErrorPersists<T>(tokens: seq<seq<string>>, s: nat, i: nat, j: nat,
                                                 parse: seq<string> -> Result<T, GamryError>)
    requires s <= i <= j <= |tokens|
    requires Scan(tokens, s, i, parse).Err?
    ensures Scan(tokens, s, j, parse) == Scan(tokens, s, i, parse)
    decreases j
  {
    if j > i {
      ScanErrorPersists(tokens, s, i, j - 1, parse);
    }
  }

  /** The loop runs to the end exactly when no line in range fails. */
  lemma {:induction false} ScanSucceeds<T>(tokens: seq<seq<string>>, s: nat, i: nat,
                                            parse: seq<string> -> Result<T, GamryError>)
    requires s <= i <= |tokens|
    ensures Scan(tokens, s, i, parse).Ok? <==> forall j :: s <= j < i ==> !LineFails(tokens[j], parse)
    decreases i
  {
    if i > s {
      ScanSucceeds(tokens, s, i - 1, parse);
    }
  }

  /** The error reported is the one of the first failing line. */
  lemma {:induction false} ScanStopsAtFirstFailure<T>(tokens: seq<seq<string>>, s: nat, i: nat, k: nat,
                                                       parse: seq<string> -> Result<T, GamryError>)
    requires s <= k < i <= |tokens|
    requires LineFails(tokens[k], parse)
    requires forall j :: s <= j < k ==> !LineFails(tokens[j], parse)
    ensures Scan(tokens, s, i, parse) == Err(LineError(tokens[k], parse))
    decreases i
  {
    if i == k + 1 {
      ScanSucceeds(tokens, s, k, parse);
    } else {
      ScanStopsAtFirstFailure(tokens, s, i - 1, k, parse);
    }
  }

  /** Parsing while selecting is selecting and then parsing every selected
      row, when nothing fails: the loop succeeds exactly when the selection
      does and every selected row parses, and then row `k` is the parse of
      selected row `k`. */
  lemma {:induction false} ScanParsesKept<T>(tokens: seq<seq<string>>, s: nat, i: nat,
                                              parse: seq<string> -> Result<T, GamryError>)
    requires s <= i <= |tokens|
    ensures Scan(tokens, s, i, parse).Ok? <==>
      && KeptRows(tokens, s, i).Ok?
      && forall k :: 0 <= k < |KeptRows(tokens, s, i).value| ==> parse(KeptRows(tokens, s, i).value[k]).Ok?
    ensures Scan(tokens, s, i, parse).Ok? ==>
      && |Scan(tokens, s, i, parse).value| == |KeptRows(tokens, s, i).value|
      && forall k :: 0 <= k < |KeptRows(tokens, s, i).value| ==>
           parse(KeptRows(tokens, s, i).value[k]) == Ok(Scan(tokens, s, i, parse).value[k])
    decreases i
  {
    if i > s {
      ScanParsesKept(tokens, s, i - 1, parse);
      var line := tokens[i - 1];
      var kept := KeptRows(tokens, s, i - 1);
      var scan := Scan(tokens, s, i - 1, parse);
      if kept.Ok? && scan.Err? {
        // the earlier rows already fail to parse
        var kept' := KeptRows(tokens, s, i);
        if kept'.Ok? {
          var k :| 0 <= k < |kept.value| && parse(kept.value[k]).Err?;
          assert kept'.value[k] == kept.value[k];
        }
      } else if scan.Ok? && |line| > 0 && line[0] != TimeOffsetTag {
        var kept' := kept.value + [line];
        assert kept'[|kept.value|] == line;
        if parse(line).Ok? {
          var scan' := scan.value + [parse(line).value];
          assert forall k :: 0 <= k < |kept.value| ==> kept'[k] == kept.value[k] && scan'[k] == scan.value[k];
        }
      }
    }
  }

  /** The rows the reader returns, each parsed with `parse`. */
  function ParsedRows<T>(lines: seq<string>, parse: seq<string> -> Result<T, GamryError>): Result<seq<T>, GamryError> {
    match FirstStartingWith(lines, DataStart)
    case None => Ok([])
    case Some(s) => Scan(TokenLines(lines), s, |lines|, parse)
  }

  /** Reading with parsing succeeds exactly when the data rows can be
      selected and every one of them parses, and then yields their parses in
      order; with no data rows it yields none. */
  lemma ParsedRowsAreParsedDataRows<T>(lines: seq<string>, parse: seq<string> -> Result<T, GamryError>)
    ensures ParsedRows(lines, parse).Ok? <==>
      && DataRows(lines).Ok?
      && forall k :: 0 <= k < |DataRows(lines).value| ==> parse(DataRows(lines).value[k]).Ok?
    ensures ParsedRows(lines, parse).Ok? ==>
      && |ParsedRows(lines, parse).value| == |DataRows(lines).value|
      && forall k :: 0 <= k < |DataRows(lines).value| ==>
           parse(DataRows(lines).value[k]) == Ok(ParsedRows(lines, parse).value[k])
  {
    match FirstStartingWith(lines, DataStart)
    case None =>
    case Some(s) =>
      FirstStartingWithIsFirst(lines, DataStart);
      ScanParsesKept(TokenLines(lines), s, |lines|, parse);
  }

  /** The row loop of the source. Its flag is switched on by the first data
      line, tested after being set (so that line is kept) and never switched
      off, so the loop is a search for that line followed by `CollectRows`. */
  method SelectDataRows<T>(lines: seq<string>, parse: seq<string> -> Result<T, GamryError>)
    returns (r: Result<seq<T>, GamryError>)
    ensures r == ParsedRows(lines, parse)
  {
    FirstStartingWithIsFirst(lines, DataStart);
    var s := 0;
    while s < |lines| && !StartsWith(lines[s], DataStart)
      invariant s <= |lines|
      invariant forall k :: 0 <= k < s ==> !StartsWith(lines[k], DataStart)
    {
      s := s + 1;
    }
    if s == |lines| {
      return Ok([]);
    }
    ParsedRowsAt(lines, s, parse);
    r := CollectRows(TokenLines(lines), s, parse);
  }

  /** The flag-on part of the row loop: from the first data line on, skip the
      time-offset line, parse every other line, and stop at a blank line or
      at the first line that does not parse. */
  method CollectRows<T>(tokens: seq<seq<string>>, s: nat, parse: seq<string> -> Result<T, GamryError>)
    returns (r: Result<seq<T>, GamryError>)
    requires s <= |tokens|
    ensures r == Scan(tokens, s, |tokens|, parse)
  {
    var rows: seq<T> := [];
    var i := s;
    while i < |tokens|
      invariant s <= i <= |tokens|
      invariant Scan(tokens, s, i, parse) == Ok(rows)
    {
      ScanExtend(tokens, s, i, parse, rows);
      var line := tokens[i];
      if |line| == 0 {
        ScanErrorPersists(tokens, s, i + 1, |tokens|, parse);
        return Err(BlankDataRow);
      }
      if line[0] != TimeOffsetTag {
        var row := parse(line);
        if row.Err? {
          ScanErrorPersists(tokens, s, i + 1, |tokens|, parse);
          return Err(row.error);
        }
        rows := rows + [row.value];
      }
      i := i + 1;
    }
    r := Ok(rows);
  }

  /** The rule read from the first data line `s` on. */
  lemma ParsedRowsAt<T>(lines: seq<string>, s: nat, parse: seq<string> -> Result<T, GamryError>)
    requires FirstStartingWith(lines, DataStart) == Some(s)
    ensures s <= |lines| && ParsedRows(lines, parse) == Scan(TokenLines(lines), s, |lines|, parse)
  {
    FirstStartingWithIsFirst(lines, DataStart);
  }

  // ---------------------------------------------------------------------
  // Samples

  /** A pH-probe calibration: pH = raw * slope + intercept. */
  datatype Calibration = Calibration(slope: real, intercept: real)

  const DefaultRightCalibration := Calibration(-17.4, 7.728)
  const DefaultLeftCalibration := Calibration(-17.602, 7.1728)

  function Calibrate(raw: real, cal: Calibration): real {
    raw * cal.slope + cal.intercept
  }

  /** Column positions in a Gamry data line. */
  const TimeColumn := 1
  const VoltageColumn := 2
  const CurrentColumn := 3
  const TemperatureColumn := 8
  const LeftProbeColumn := 11
  const RightProbeColumn := 17

  /** One row of the half-cycle table `analyze_gamry_file` returns (without
      the polynomial-fitted pH columns). `time` is in seconds on the same
      scale as the start time it was offset from. */
  datatype EchemRow = EchemRow(
    deltaT: real, cycle: int, process: string, time: real,
    voltage: real, current: real, capacity: real,
    phLeft: real, phRight: real, temperature: real)

  /** `float(tokens[k])`, failing as indexing or float() would. */
  function Column(tokens: seq<string>, k: nat, parseFloat: string -> Option<real>): (r: Result<real, GamryError>)
    ensures r.Ok? ==> k < |tokens| && parseFloat(tokens[k]) == Some(r.value)
    ensures k >= |tokens| ==> r == Err(ShortRow)
  {
    if k >= |tokens| then Err(ShortRow)
    else match parseFloat(tokens[k])
      case None => Err(NotANumber)
      case Some(x) => Ok(x)
  }

  /** The columns of one data line, read in the order the source reads them
      (voltage, time, left probe, right probe, current, temperature); the
      capacity is filled in afterwards. */
  function ParseRow(tokens: seq<string>, start: real, cycle: int, process: string,
                    right: Calibration, left: Calibration,
                    parseFloat: string -> Option<real>): (r: Result<EchemRow, GamryError>)
    ensures r.Ok? ==> |tokens| > RightProbeColumn
    ensures r.Ok? ==> (
      && parseFloat(tokens[TimeColumn]) == Some(r.value.deltaT)
      && r.value.time == start + r.value.deltaT
      && parseFloat(tokens[VoltageColumn]) == Some(r.value.voltage)
      && parseFloat(tokens[CurrentColumn]) == Some(r.value.current)
      && parseFloat(tokens[TemperatureColumn]) == Some(r.value.temperature)
      && parseFloat(tokens[LeftProbeColumn]).Some?
      && r.value.phLeft == Calibrate(parseFloat(tokens[LeftProbeColumn]).value, left)
      && parseFloat(tokens[RightProbeColumn]).Some?
      && r.value.phRight == Calibrate(parseFloat(tokens[RightProbeColumn]).value, right)
      && r.value.cycle == cycle && r.value.process == process
      && r.value.capacity == 0.0)
  {
    var voltage :- Column(tokens, VoltageColumn, parseFloat);
    var deltaT :- Column(tokens, TimeColumn, parseFloat);
    var rawLeft :- Column(tokens, LeftProbeColumn, parseFloat);
    var rawRight :- Column(tokens, RightProbeColumn, parseFloat);
    var current :- Column(tokens, CurrentColumn, parseFloat);
    var temperature :- Column(tokens, TemperatureColumn, parseFloat);
    Ok(EchemRow(deltaT, cycle, process, start + deltaT, voltage, current, 0.0,
                Calibrate(rawLeft, left), Calibrate(rawRight, right), temperature))
  }

  function Currents(rows: seq<EchemRow>): (c: seq<real>)
    ensures |c| == |rows|
    ensures forall k :: 0 <= k < |rows| ==> c[k] == rows[k].current
  {
    seq(|rows|, k requires 0 <= k < |rows| => rows[k].current)
  }

  /** `np.cumsum`: entry `k` is the sum of the first `k + 1` values. */
  method PrefixSums(xs: seq<real>) returns (sums: seq<real>)
    ensures |sums| == |xs|
    ensures forall k :: 0 <= k < |xs| ==> sums[k] == SumRange(xs, 0, k + 1)
  {
    sums := [];
    var running := 0.0;
    var k := 0;
    while k < |xs|
      invariant 0 <= k <= |xs|
      invariant |sums| == k
      invariant running == SumRange(xs, 0, k)
      invariant forall j :: 0 <= j < k ==> sums[j] == SumRange(xs, 0, j + 1)
    {
      running := running + xs[k];
      sums := sums + [running];
      k := k + 1;
    }
  }

  /** Consecutive capacities differ by exactly one current reading, and the
      last one is the total charge of the half cycle. */
  lemma CapacityIncrements(xs: seq<real>, sums: seq<real>)
    requires |sums| == |xs|
    requires forall k :: 0 <= k < |xs| ==> sums[k] == SumRange(xs, 0, k + 1)
    ensures |xs| > 0 ==> sums[0] == xs[0]
    ensures forall k :: 0 < k < |xs| ==> sums[k] - sums[k - 1] == xs[k]
    ensures |xs| > 0 ==> sums[|xs| - 1] == Sum(xs)
  {
    if |xs| > 0 {
      assert SumRange(xs, 0, 1) == SumRange(xs, 0, 0) + xs[0];
    }
  }

  /** Fills the capacity column of rows parsed without one. */
  function WithCapacity(rows: seq<EchemRow>, capacity: seq<real>): (out: seq<EchemRow>)
    requires |capacity| == |rows|
    requires forall k :: 0 <= k < |rows| ==> rows[k].capacity == 0.0
    ensures |out| == |rows| && Currents(out) == Currents(rows) && Powers(out) == Powers(rows)
    ensures forall k :: 0 <= k < |rows| ==>
      out[k].capacity == capacity[k] && out[k].(capacity := 0.0) == rows[k]
  {
    var out := seq(|rows|, k requires 0 <= k < |rows| => rows[k].(capacity := capacity[k]));
    assert forall k :: 0 <= k < |rows| ==> Powers(out)[k] == Powers(rows)[k];
    out
  }

  /** The parser of one data line of a file with the given cycle, process,
      start time and calibrations. */
  function Parser(start: real, cycle: int, process: string, right: Calibration, left: Calibration,
                  parseFloat: string -> Option<real>): (parse: seq<string> -> Result<EchemRow, GamryError>)
    ensures forall tokens :: parse(tokens) == ParseRow(tokens, start, cycle, process, right, left, parseFloat)
  {
    tokens => ParseRow(tokens, start, cycle, process, right, left, parseFloat)
  }

  /** The parser `analyze_gamry_file` uses for the file `name`. */
  function FileParser(name: string, start: real, right: Calibration, left: Calibration,
                      parseFloat: string -> Option<real>): seq<string> -> Result<EchemRow, GamryError>
    requires ParseFileName(name).Ok?
  {
    Parser(start, ParseFileName(name).value.0, ParseFileName(name).value.1, right, left, parseFloat)
  }

  /** `analyze_gamry_file` returns a table for the file: its name gives the
      cycle and process, its rows are read without error, and there is at
      least one, so the pH fit has points. */
  predicate Analyzable(name: string, lines: seq<string>, start: real, right: Calibration, left: Calibration,
                       parseFloat: string -> Option<real>) {
    && ParseFileName(name).Ok?
    && var rows := ParsedRows(lines, FileParser(name, start, right, left, parseFloat));
    && rows.Ok? && |rows.value| > 0
  }

  /** The parsed rows of an analyzable file, before the capacity column. */
  function FileRows(name: string, lines: seq<string>, start: real, right: Calibration, left: Calibration,
                    parseFloat: string -> Option<real>): seq<EchemRow>
    requires Analyzable(name, lines, start, right, left, parseFloat)
  {
    ParsedRows(lines, FileParser(name, start, right, left, parseFloat)).value
  }

  /** `analyze_gamry_file` without the polynomial pH fit: the file name gives
      the cycle and process, the data lines give the samples (time offset from
      `start`, calibrated pH), and the capacity column is the running sum of
      the current. A name without a cycle marker fails first; then the first
      failing data line; then an empty data section fails where the fit
      would. */
  method AnalyzeGamryFile(name: string, lines: seq<string>, start: real,
                          right: Calibration, left: Calibration,
                          parseFloat: string -> Option<real>) returns (r: Result<seq<EchemRow>, GamryError>)
    ensures r.Ok? <==> Analyzable(name, lines, start, right, left, parseFloat)
    ensures ParseFileName(name).Err? ==> r == Err(ParseFileName(name).error)
    ensures ParseFileName(name).Ok? && ParsedRows(lines, FileParser(name, start, right, left, parseFloat)).Err? ==>
      r == Err(ParsedRows(lines, FileParser(name, start, right, left, parseFloat)).error)
    ensures ParseFileName(name).Ok? && DataRows(lines) == Ok([]) ==> r == Err(NoDataRows)
    ensures ParseFileName(name).Ok? && DataRows(lines).Ok? && |DataRows(lines).value| > 0
      && (forall k :: 0 <= k < |DataRows(lines).value| ==>
            ParseRow(DataRows(lines).value[k], start, ParseFileName(name).value.0, ParseFileName(name).value.1,
                     right, left, parseFloat).Ok?)
      ==> r.Ok?
    ensures r.Ok? ==>
      var rows := FileRows(name, lines, start, right, left, parseFloat);
      && |r.value| == |rows|
      && Currents(r.value) == Currents(rows) && Powers(r.value) == Powers(rows)
      && forall k :: 0 <= k < |r.value| ==>
           r.value[k].(capacity := 0.0) == rows[k] && r.value[k].capacity == SumRange(Currents(rows), 0, k + 1)
    ensures r.Ok? ==> DataRows(lines).Ok? && |r.value| == |DataRows(lines).value|
    ensures r.Ok? ==> forall k :: 0 <= k < |r.value| ==>
      && r.value[k].cycle == ParseFileName(name).value.0
      && r.value[k].process == ParseFileName(name).value.1
      && ParseRow(DataRows(lines).value[k], start, r.value[k].cycle, r.value[k].process, right, left, parseFloat)
           == Ok(r.value[k].(capacity := 0.0))
  {
    var id := ParseFileName(name);
    if id.Err? {
      return Err(id.error);
    }
    var parse := FileParser(name, start, right, left, parseFloat);
    var parsed := SelectDataRows(lines, parse);
    ParsedRowsAreParsedDataRows(lines, parse);
    if parsed.Err? {
      return Err(parsed.error);
    }
    if |parsed.value| == 0 {
      return Err(NoDataRows);
    }
    var rows := parsed.value;
    var capacity := PrefixSums(Currents(rows));
    var withCapacity := WithCapacity(rows, capacity);
    r := Ok(withCapacity);
  }

  // ---------------------------------------------------------------------
  // Capacity, energy and efficiency per cycle

  /** `abs(numerator / denominator)`; `None` where numpy would produce an
      infinity or NaN because the denominator is zero. */
  function Efficiency(numerator: real, denominator: real): (e: Option<real>)
    ensures e.Some? <==> denominator != 0.0
    ensures e.Some? ==> e.value >= 0.0 && e.value * Abs(denominator) == Abs(numerator)
  {
    if denominator == 0.0 then None
    else
      var q := numerator / denominator;
      assert q * denominator == numerator;
      Some(Abs(q))
  }

  datatype CycleEnergy = CycleEnergy(
    cycle: nat,
    chargeCapacity: real, chargeEnergy: real,
    dischargeCapacity: real, dischargeEnergy: real,
    coulombicEfficiency: Option<real>, energyEfficiency: Option<real>)

  /** Both efficiencies are the absolute discharge-to-charge ratios of the
      row's own capacities and energies, and exist exactly when the charge
      side is non-zero. */
  predicate EfficienciesConsistent(c: CycleEnergy) {
    && (c.coulombicEfficiency.Some? <==> c.chargeCapacity != 0.0)
    && (c.coulombicEfficiency.Some? ==>
          c.coulombicEfficiency.value >= 0.0
          && c.coulombicEfficiency.value * Abs(c.chargeCapacity) == Abs(c.dischargeCapacity))
    && (c.energyEfficiency.Some? <==> c.chargeEnergy != 0.0)
    && (c.energyEfficiency.Some? ==>
          c.energyEfficiency.value >= 0.0
          && c.energyEfficiency.value * Abs(c.chargeEnergy) == Abs(c.dischargeEnergy))
  }

  function Powers(rows: seq<EchemRow>): (p: seq<real>)
    ensures |p| == |rows|
    ensures forall k :: 0 <= k < |rows| ==> p[k] == rows[k].current * rows[k].voltage
  {
    seq(|rows|, k requires 0 <= k < |rows| => rows[k].current * rows[k].voltage)
  }

  /** One row of `cal_capacity_energy` from the current and power series of
      the charge and discharge half cycles: capacities are summed currents,
      energies summed current-voltage products. */
  function CycleCapacityEnergy(cycle: nat, chargeCurrent: seq<real>, chargePower: seq<real>,
                               dischargeCurrent: seq<real>, dischargePower: seq<real>): (c: CycleEnergy)
    ensures c.cycle == cycle
    ensures c.chargeCapacity == Sum(chargeCurrent) && c.dischargeCapacity == Sum(dischargeCurrent)
    ensures c.chargeEnergy == Sum(chargePower) && c.dischargeEnergy == Sum(dischargePower)
    ensures EfficienciesConsistent(c)
  {
    var chargeCapacity := Sum(chargeCurrent);
    var chargeEnergy := Sum(chargePower);
    var dischargeCapacity := Sum(dischargeCurrent);
    var dischargeEnergy := Sum(dischargePower);
    CycleEnergy(cycle, chargeCapacity, chargeEnergy, dischargeCapacity, dischargeEnergy,
                Efficiency(dischargeCapacity, chargeCapacity),
                Efficiency(dischargeEnergy, chargeEnergy))
  }

  /** A half cycle's capacity is the last entry of its capacity column. */
  lemma CapacityIsLastCumulative(rows: seq<EchemRow>)
    requires |rows| > 0
    requires forall k :: 0 <= k < |rows| ==> rows[k].capacity == SumRange(Currents(rows), 0, k + 1)
    ensures rows[|rows| - 1].capacity == Sum(Currents(rows))
  {
  }

  /** The half-cycle file at `path` exists and `analyze_gamry_file` returns
      a table for it with the default calibrations. */
  predicate HalfCycleReadable(files: map<string, seq<string>>, path: string, start: real,
                              parseFloat: string -> Option<real>) {
    path in files && Analyzable(path, files[path], start, DefaultRightCalibration, DefaultLeftCalibration, parseFloat)
  }

  /** The rows of a readable half-cycle file. */
  function HalfCycleRows(files: map<string, seq<string>>, path: string, start: real,
                         parseFloat: string -> Option<real>): seq<EchemRow>
    requires HalfCycleReadable(files, path, start, parseFloat)
  {
    FileRows(path, files[path], start, DefaultRightCalibration, DefaultLeftCalibration, parseFloat)
  }

  /** Opens one half-cycle file, analyses it with the default calibrations and
      returns its current and power series. */
  method HalfCycleSeries(files: map<string, seq<string>>, path: string, start: real,
                         parseFloat: string -> Option<real>) returns (r: Result<(seq<real>, seq<real>), GamryError>)
    ensures path !in files ==> r == Err(MissingFile(path))
    ensures r.Ok? <==> HalfCycleReadable(files, path, start, parseFloat)
    ensures r.Ok? ==>
      var rows := HalfCycleRows(files, path, start, parseFloat);
      r.value == (Currents(rows), Powers(rows))
    ensures r.Ok? ==> path in files && |r.value.0| == |r.value.1| > 0
  {
    var lines := ReadFile(files, path);
    if lines.Err? {
      return Err(lines.error);
    }
    var rows := AnalyzeGamryFile(path, lines.value, start, DefaultRightCalibration, DefaultLeftCalibration, parseFloat);
    if rows.Err? {
      return Err(rows.error);
    }
    r := Ok((Currents(rows.value), Powers(rows.value)));
  }

  /** The first charge file exists and its header gives a datetime. */
  predicate HasStart(files: map<string, seq<string>>) {
    ChargePath(1) in files && FindDateTime(files[ChargePath(1)]).Ok?
  }

  /** The start time every half cycle is offset from: the header datetime of
      the first charge file. */
  function StartSeconds(files: map<string, seq<string>>): real
    requires HasStart(files)
  {
    Timestamp(FindDateTime(files[ChargePath(1)]).value)
  }

  /** Row `k` (0-based) of the table is the row of cycle `k + 1`, whose
      files are readable. */
  predicate TableRowFits(files: map<string, seq<string>>, parseFloat: string -> Option<real>, k: nat, row: CycleEnergy) {
    && HasStart(files)
    && HalfCycleReadable(files, ChargePath(k + 1), StartSeconds(files), parseFloat)
    && HalfCycleReadable(files, DischargePath(k + 1), StartSeconds(files), parseFloat)
    && row == CycleRow(files, k + 1, parseFloat)
  }

  /** A readable table has readable files for each of its cycles. */
  lemma ReadableCycle(files: map<string, seq<string>>, n: nat, i: nat, parseFloat: string -> Option<real>)
    requires CapacityReadable(files, n, parseFloat)
    requires 1 <= i <= n
    ensures HalfCycleReadable(files, ChargePath(i), StartSeconds(files), parseFloat)
    ensures HalfCycleReadable(files, DischargePath(i), StartSeconds(files), parseFloat)
  {
  }

  /** Readable files for one more cycle extend a readable table. */
  lemma ReadableGrows(files: map<string, seq<string>>, n: nat, parseFloat: string -> Option<real>)
    requires CapacityReadable(files, n, parseFloat)
    requires HalfCycleReadable(files, ChargePath(n + 1), StartSeconds(files), parseFloat)
    requires HalfCycleReadable(files, DischargePath(n + 1), StartSeconds(files), parseFloat)
    ensures CapacityReadable(files, n + 1, parseFloat)
  {
    forall i | 1 <= i <= n + 1
      ensures HalfCycleReadable(files, ChargePath(i), StartSeconds(files), parseFloat)
      ensures HalfCycleReadable(files, DischargePath(i), StartSeconds(files), parseFloat)
    {
      if i <= n {
        ReadableCycle(files, n, i, parseFloat);
      }
    }
  }

  /** `cal_capacity_energy` returns a table: the start time can be read, and
      both half-cycle files of every cycle `1..cycleNumber` are readable. */
  predicate CapacityReadable(files: map<string, seq<string>>, cycleNumber: nat, parseFloat: string -> Option<real>) {
    && HasStart(files)
    && forall i :: 1 <= i <= cycleNumber ==>
         && HalfCycleReadable(files, ChargePath(i), StartSeconds(files), parseFloat)
         && HalfCycleReadable(files, DischargePath(i), StartSeconds(files), parseFloat)
  }

  /** The table row of cycle `i`, from the rows of its two half-cycle files. */
  function CycleRow(files: map<string, seq<string>>, i: nat, parseFloat: string -> Option<real>): CycleEnergy
    requires HasStart(files)
    requires HalfCycleReadable(files, ChargePath(i), StartSeconds(files), parseFloat)
    requires HalfCycleReadable(files, DischargePath(i), StartSeconds(files), parseFloat)
  {
    var charge := HalfCycleRows(files, ChargePath(i), StartSeconds(files), parseFloat);
    var discharge := HalfCycleRows(files, DischargePath(i), StartSeconds(files), parseFloat);
    CycleCapacityEnergy(i, Currents(charge), Powers(charge), Currents(discharge), Powers(discharge))
  }

  /** `cal_capacity_energy`: the first charge file fixes the start time (and
      must exist and carry a valid header), then every cycle's charge and
      discharge files are analysed in turn; one row per cycle, numbered from
      1, whose capacities and energies are the sums over that cycle's two
      files. */
  method CalCapacityEnergy(files: map<string, seq<string>>, cycleNumber: nat,
                           parseFloat: string -> Option<real>) returns (r: Result<seq<CycleEnergy>, GamryError>)
    ensures ChargePath(1) !in files ==> r == Err(MissingFile(ChargePath(1)))
    ensures r.Ok? <==> CapacityReadable(files, cycleNumber, parseFloat)
    ensures r.Ok? ==> |r.value| == cycleNumber
    ensures r.Ok? ==> forall i :: 0 <= i < cycleNumber ==> r.value[i] == CycleRow(files, i + 1, parseFloat)
    ensures r.Ok? ==> forall i :: 0 <= i < cycleNumber ==>
      r.value[i].cycle == i + 1 && EfficienciesConsistent(r.value[i])
    ensures r.Ok? ==> forall i :: 1 <= i <= cycleNumber ==> ChargePath(i) in files && DischargePath(i) in files
  {
    var initial := ReadFile(files, ChargePath(1));
    if initial.Err? {
      return Err(initial.error);
    }
    var start := LiftHeader(FindDateTime(initial.value));
    if start.Err? {
      return Err(start.error);
    }
    var startSeconds := Timestamp(start.value);
    assert startSeconds == StartSeconds(files);
    var table: seq<CycleEnergy> := [];
    var i := 0;
    while i < cycleNumber
      invariant 0 <= i <= cycleNumber
      invariant |table| == i
      invariant CapacityReadable(files, i, parseFloat)
      invariant forall j :: 0 <= j < i ==> TableRowFits(files, parseFloat, j, table[j])
    {
      var row := CycleEnergyRow(files, i + 1, parseFloat);
      if row.Err? {
        if CapacityReadable(files, cycleNumber, parseFloat) {
          ReadableCycle(files, cycleNumber, i + 1, parseFloat);
          assert false;
        }
        return Err(row.error);
      }
      ReadableGrows(files, i, parseFloat);
      AppendKeepsAll(table, row.value, (k: nat, x: CycleEnergy) => TableRowFits(files, parseFloat, k, x));
      table := table + [row.value];
      i := i + 1;
    }
    r := Ok(table);
  }

  /** One iteration of the cycle loop of `cal_capacity_energy`: the charge
      file of cycle `i`, then its discharge file. */
  method CycleEnergyRow(files: map<string, seq<string>>, i: nat, parseFloat: string -> Option<real>)
    returns (r: Result<CycleEnergy, GamryError>)
    requires HasStart(files)
    ensures r.Ok? <==>
      && HalfCycleReadable(files, ChargePath(i), StartSeconds(files), parseFloat)
      && HalfCycleReadable(files, DischargePath(i), StartSeconds(files), parseFloat)
    ensures r.Ok? ==> r.value == CycleRow(files, i, parseFloat)
  {
    var charge := HalfCycleSeries(files, ChargePath(i), StartSeconds(files), parseFloat);
    if charge.Err? {
      return Err(charge.error);
    }
    var discharge := HalfCycleSeries(files, DischargePath(i), StartSeconds(files), parseFloat);
    if discharge.Err? {
      return Err(discharge.error);
    }
    r := Ok(CycleCapacityEnergy(i, charge.value.0, charge.value.1, discharge.value.0, discharge.value.1));
  }

  // ---------------------------------------------------------------------
  // Calendar arithmetic

  /** Days in the years before `y` in the proleptic Gregorian calendar
      (Python's floor division, which agrees with Dafny's for the positive
      divisors here). */
  function DaysBeforeYear(y: int): int {
    var p := y - 1;
    365 * p + p / 4 - p / 100 + p / 400
  }

  function DaysBeforeMonth(y: int, m: int): int
    requires 1 <= m <= 13
    decreases m
  {
    if m == 1 then 0 else DaysBeforeMonth(y, m - 1) + DaysInMonth(y, m - 1)
  }

  /** Seconds since midnight of 1 January of year 1, the scale on which
      `start + timedelta(seconds=t)` is computed. */
  function Timestamp(dt: DateTime): real
    requires 1 <= dt.month <= 12
  {
    ((DaysBeforeYear(dt.year) + DaysBeforeMonth(dt.year, dt.month) + dt.day - 1) * 86400
      + dt.hour * 3600 + dt.minute * 60 + dt.second) as real
  }

  // ---------------------------------------------------------------------
  // Outgas end time

  /** Minutes since the start of the month (the clock fields the rollover
      touches). */
  function MinuteOfMonth(dt: DateTime): int {
    dt.day * 1440 + dt.hour * 60 + dt.minute
  }

  /** How the day wraps after the minute carry. */
  datatype DayWrap =
    | WrapIndependently   // echem_methods.py: the hour is checked on its own
    | WrapAfterCarryOnly  // echem_method.py: the hour check sits inside the minute carry

  /** Adds `outgasTime` minutes to the clock fields the way the source does:
      whole hours and leftover minutes separately (Python's floor `//` and
      `%`, which agree with Dafny's on the positive divisor 60), one minute
      carry, one day wrap; month and year are never touched. */
  function OutgasEnd(start: DateTime, outgasTime: int, wrap: DayWrap): (e: DateTime)
    ensures e.year == start.year && e.month == start.month && e.second == start.second
    ensures MinuteOfMonth(e) == MinuteOfMonth(start) + outgasTime
    ensures 0 <= start.minute < 60 ==> 0 <= e.minute < 60
  {
    var minute := start.minute + outgasTime % 60;
    var hour := start.hour + outgasTime / 60;
    var carry := minute >= 60;
    var minute' := if carry then minute - 60 else minute;
    var hour' := if carry then hour + 1 else hour;
    var dayWraps := hour' >= 24 && (wrap == WrapIndependently || carry);
    var result := start.(minute := minute',
                         hour := if dayWraps then hour' - 24 else hour',
                         day := if dayWraps then start.day + 1 else start.day);
    assert outgasTime == (outgasTime / 60) * 60 + outgasTime % 60;
    result
  }

  /** With the independent wrap, the end time is a valid hour exactly when at
      most one day boundary is crossed; the minute carry happens at most once. */
  lemma OutgasEndHourInRange(start: DateTime, outgasTime: int)
    requires 0 <= start.minute < 60 && 0 <= start.hour < 24
    requires outgasTime >= 0
    ensures var carried := if start.minute + outgasTime % 60 >= 60 then 1 else 0;
      var e := OutgasEnd(start, outgasTime, WrapIndependently);
      (0 <= e.hour < 24 <==> start.hour + outgasTime / 60 + carried < 48)
      && (start.hour + outgasTime / 60 + carried >= 24 <==> e.day == start.day + 1)
  {
  }

  /** A valid start, an outgas period under a day that does not run past the
      end of the month, gives a valid end time exactly `outgasTime` minutes
      later. */
  lemma OutgasEndValid(start: DateTime, outgasTime: int)
    requires ValidDateTime(start)
    requires 0 <= outgasTime < 1440
    requires MinuteOfMonth(start) + outgasTime < (DaysInMonth(start.year, start.month) + 1) * 1440
    ensures ValidDateTime(OutgasEnd(start, outgasTime, WrapIndependently))
  {
  }

  /** On the calendar's own time scale the end lies exactly `outgasTime`
      minutes after the start, whichever day-wrap rule is used. */
  lemma OutgasEndIsLater(start: DateTime, outgasTime: int, wrap: DayWrap)
    requires 1 <= start.month <= 12
    ensures Timestamp(OutgasEnd(start, outgasTime, wrap)) == Timestamp(start) + (60 * outgasTime) as real
  {
    var e := OutgasEnd(start, outgasTime, wrap);
    assert MinuteOfMonth(e) == MinuteOfMonth(start) + outgasTime;
  }

  // ---------------------------------------------------------------------
  // Per-cycle phase times

  /** One row of the `find_echem_time_period` table; the capture and outgas
      columns exist only when CO2 was captured. */
  datatype PhaseTimes = PhaseTimes(
    cycle: nat,
    chargeStart: DateTime,
    captureStart: Option<DateTime>,
    dischargeStart: DateTime,
    outgasStart: Option<DateTime>,
    outgasEnd: Option<DateTime>)

  function ChargePath(i: nat): string { "CHARGE_DISCHARGE/PWRCHARGE_#" + ShowNat(i) + ".DTA" }
  function DischargePath(i: nat): string { "CHARGE_DISCHARGE/PWRDISCHARGE_#" + ShowNat(i) + ".DTA" }
  function InvasionPath(i: nat): string { "OTHER/Invasion_#" + ShowNat(i) + ".DTA" }
  function OutgasPath(i: nat): string { "OTHER/Outgas_#" + ShowNat(i) + ".DTA" }

  function ReadFile(files: map<string, seq<string>>, path: string): (r: Result<seq<string>, GamryError>)
    ensures r.Ok? <==> path in files
    ensures r.Ok? ==> r.value == files[path]
  {
    if path in files then Ok(files[path]) else Err(MissingFile(path))
  }

  function FieldsOf(dt: DateTime): Fields {
    Fields(Some((dt.year, dt.month, dt.day)), Some((dt.hour, dt.minute, dt.second)))
  }

  /** The file at `path` exists and its header gives a datetime. */
  predicate Dated(files: map<string, seq<string>>, path: string) {
    path in files && FindDateTime(files[path]).Ok?
  }

  /** The header datetime of a dated file. */
  function DateOf(files: map<string, seq<string>>, path: string): DateTime
    requires Dated(files, path)
  {
    FindDateTime(files[path]).value
  }

  /** The outgas file of cycle `i` exists and, scanned from the header
      variables `carried`, leaves all six assigned and forming a valid
      datetime. */
  predicate OutgasDated(files: map<string, seq<string>>, i: nat, carried: Fields) {
    && OutgasPath(i) in files
    && ScanHeader(files[OutgasPath(i)], carried).Ok?
    && DateTimeOf(ScanHeader(files[OutgasPath(i)], carried).value).Ok?
  }

  /** The outgas start of cycle `i`, scanned from `carried`. */
  function OutgasStartOf(files: map<string, seq<string>>, i: nat, carried: Fields): DateTime
    requires OutgasDated(files, i, carried)
  {
    DateTimeOf(ScanHeader(files[OutgasPath(i)], carried).value).value
  }

  /** `find_echem_time_period` gets through cycle `i`: the charge and
      discharge files (and, with CO2, the invasion file) give datetimes, and
      with CO2 the outgas file gives a start whose rolled-over end is a valid
      datetime. */
  predicate CycleDated(files: map<string, seq<string>>, co2: bool, outgasTime: int, wrap: DayWrap,
                       i: nat, carried: Fields) {
    && Dated(files, ChargePath(i))
    && (co2 ==> Dated(files, InvasionPath(i)))
    && Dated(files, DischargePath(i))
    && (co2 ==> OutgasDated(files, i, carried)
                && ValidDateTime(OutgasEnd(OutgasStartOf(files, i, carried), outgasTime, wrap)))
  }

  /** The header variables the cycle after `i` starts from: the rolled-over
      outgas end with CO2, and untouched without. */
  function NextFields(files: map<string, seq<string>>, co2: bool, outgasTime: int, wrap: DayWrap,
                      i: nat, carried: Fields): Fields
    requires CycleDated(files, co2, outgasTime, wrap, i, carried)
  {
    if co2 then FieldsOf(OutgasEnd(OutgasStartOf(files, i, carried), outgasTime, wrap)) else carried
  }

  /** The row `t` holds the times the files of cycle `i` give: the header
      datetimes of the charge, invasion and discharge files, the outgas
      start scanned from `carried`, and that start rolled over by
      `outgasTime` minutes. */
  predicate TimesFromFiles(files: map<string, seq<string>>, co2: bool, outgasTime: int, wrap: DayWrap,
                           i: nat, carried: Fields, t: PhaseTimes) {
    && Dated(files, ChargePath(i)) && t.chargeStart == DateOf(files, ChargePath(i))
    && Dated(files, DischargePath(i)) && t.dischargeStart == DateOf(files, DischargePath(i))
    && (co2 ==>
          && Dated(files, InvasionPath(i)) && t.captureStart == Some(DateOf(files, InvasionPath(i)))
          && OutgasDated(files, i, carried) && t.outgasStart == Some(OutgasStartOf(files, i, carried))
          && t.outgasEnd == Some(OutgasEnd(OutgasStartOf(files, i, carried), outgasTime, wrap)))
  }

  /** One iteration of the cycle loop. The outgas file is scanned with the
      header variables as the previous iteration left them (they live in the
      enclosing function, not in `find_date_time`), and the rolled-over end
      time becomes their new value. In the no-CO2 branch the source's second
      pass over the discharge file reads nothing, because `find_date_time` has
      already consumed it, so it has no effect here either. */
  function CycleTimes(files: map<string, seq<string>>, co2: bool, outgasTime: int, wrap: DayWrap,
                      i: nat, carried: Fields): (r: Result<(PhaseTimes, Fields), GamryError>)
    ensures r.Ok? <==> CycleDated(files, co2, outgasTime, wrap, i, carried)
    ensures r.Ok? ==> TimesFromFiles(files, co2, outgasTime, wrap, i, carried, r.value.0)
    ensures r.Ok? ==> r.value.1 == NextFields(files, co2, outgasTime, wrap, i, carried)
    ensures r.Ok? ==> r.value.0.cycle == i
    ensures r.Ok? ==> (co2 <==> r.value.0.captureStart.Some?)
    ensures r.Ok? ==> (co2 <==> r.value.0.outgasEnd.Some?) && (co2 <==> r.value.0.outgasStart.Some?)
    ensures r.Ok? && co2 ==>
      var start := r.value.0.outgasStart.value;
      var end := r.value.0.outgasEnd.value;
      && ValidDateTime(start) && ValidDateTime(end)
      && end.year == start.year && end.month == start.month && end.second == start.second
      && MinuteOfMonth(end) == MinuteOfMonth(start) + outgasTime
      && r.value.1 == FieldsOf(end)
    ensures r.Ok? && !co2 ==> r.value.1 == carried
  {
    var charge := ReadFile(files, ChargePath(i));
    if charge.Err? then Err(charge.error) else
    var chargeStart := LiftHeader(FindDateTime(charge.value));
    if chargeStart.Err? then Err(chargeStart.error) else
    var captureStart := if co2 then
                          (var invasion := ReadFile(files, InvasionPath(i));
                           if invasion.Err? then Err(invasion.error) else
                           var t := LiftHeader(FindDateTime(invasion.value));
                           if t.Err? then Err(t.error) else Ok(Some(t.value)))
                        else Ok(None);
    if captureStart.Err? then Err(captureStart.error) else
    var discharge := ReadFile(files, DischargePath(i));
    if discharge.Err? then Err(discharge.error) else
    var dischargeStart := LiftHeader(FindDateTime(discharge.value));
    if dischargeStart.Err? then Err(dischargeStart.error) else
    if !co2 then
      Ok((PhaseTimes(i, chargeStart.value, None, dischargeStart.value, None, None), carried))
    else
      var outgas := ReadFile(files, OutgasPath(i));
      if outgas.Err? then Err(outgas.error) else
      var fields := LiftHeader(ScanHeader(outgas.value, carried));
      if fields.Err? then Err(fields.error) else
      var start := LiftHeader(DateTimeOf(fields.value));
      if start.Err? then Err(start.error) else
      var end := LiftHeader(MakeDateTime(OutgasEnd(start.value, outgasTime, wrap)));
      if end.Err? then Err(end.error) else
      Ok((PhaseTimes(i, chargeStart.value, captureStart.value, dischargeStart.value, Some(start.value), Some(end.value)),
          FieldsOf(end.value)))
  }

  /** Cycles `first..first + count - 1` all get through, each starting from
      the header variables the one before left. */
  predicate PeriodsDated(files: map<string, seq<string>>, co2: bool, outgasTime: int, wrap: DayWrap,
                         first: nat, count: nat, carried: Fields)
    decreases count
  {
    count == 0 ||
      (&& CycleDated(files, co2, outgasTime, wrap, first, carried)
       && PeriodsDated(files, co2, outgasTime, wrap, first + 1, count - 1,
                       NextFields(files, co2, outgasTime, wrap, first, carried)))
  }

  /** Every cycle of `first..first + count - 1` gets through on its own,
      from the header variables `carried`. */
  predicate EachCycleDated(files: map<string, seq<string>>, co2: bool, outgasTime: int, wrap: DayWrap,
                           first: nat, count: nat, carried: Fields) {
    forall c: nat :: first <= c < first + count ==> CycleDated(files, co2, outgasTime, wrap, c, carried)
  }

  /** Without CO2 no cycle touches the header variables, so every cycle
      gets through on its own. */
  lemma {:induction false} PeriodsDatedWithoutCo2(files: map<string, seq<string>>, outgasTime: int, wrap: DayWrap,
                                                   first: nat, count: nat, carried: Fields)
    ensures PeriodsDated(files, false, outgasTime, wrap, first, count, carried) <==>
      EachCycleDated(files, false, outgasTime, wrap, first, count, carried)
    decreases count
  {
    if count > 0 {
      PeriodsDatedWithoutCo2(files, outgasTime, wrap, first + 1, count - 1, carried);
      PeriodsDatedStepWithoutCo2(files, outgasTime, wrap, first, count, carried);
      EachCycleDatedSplit(files, outgasTime, wrap, first, count, carried);
    }
  }

  /** Without CO2 the next cycle starts from the same header variables. */
  lemma PeriodsDatedStepWithoutCo2(files: map<string, seq<string>>, outgasTime: int, wrap: DayWrap,
                                   first: nat, count: nat, carried: Fields)
    requires count > 0
    ensures PeriodsDated(files, false, outgasTime, wrap, first, count, carried) <==>
      CycleDated(files, false, outgasTime, wrap, first, carried)
      && PeriodsDated(files, false, outgasTime, wrap, first + 1, count - 1, carried)
  {
    if CycleDated(files, false, outgasTime, wrap, first, carried) {
      assert NextFields(files, false, outgasTime, wrap, first, carried) == carried;
    }
  }

  /** The cycles of a range are dated exactly when its first cycle and the
      rest of the range are. */
  lemma EachCycleDatedSplit(files: map<string, seq<string>>, outgasTime: int, wrap: DayWrap,
                            first: nat, count: nat, carried: Fields)
    requires count > 0
    ensures EachCycleDated(files, false, outgasTime, wrap, first, count, carried) <==>
      CycleDated(files, false, outgasTime, wrap, first, carried)
      && EachCycleDated(files, false, outgasTime, wrap, first + 1, count - 1, carried)
  {
    RangeSplit((c: nat) => CycleDated(files, false, outgasTime, wrap, c, carried), first, count);
  }

  /** A property holds on `first..first + count - 1` exactly when it holds
      at `first` and on the rest of the range. */
  lemma RangeSplit(holds: nat -> bool, first: nat, count: nat)
    requires count > 0
    ensures (forall c: nat :: first <= c < first + count ==> holds(c)) <==>
      holds(first) && forall c: nat :: first + 1 <= c < first + count ==> holds(c)
  {
  }

  /** The header variables row `k` of a table of cycle rows was scanned
      from: `carried` for the first row and without CO2, else the previous
      row's outgas end. */
  function FieldsBefore(rows: seq<PhaseTimes>, co2: bool, k: nat, carried: Fields): Fields {
    if k == 0 || !co2 || |rows| < k then carried
    else match rows[k - 1].outgasEnd
      case Some(end) => FieldsOf(end)
      case None => NoFields
  }

  /** Cycles `first`, `first + 1`, ... for `count` cycles. */
  function TimePeriods(files: map<string, seq<string>>, co2: bool, outgasTime: int, wrap: DayWrap,
                       first: nat, count: nat, carried: Fields): (r: Result<seq<PhaseTimes>, GamryError>)
    ensures r.Ok? <==> PeriodsDated(files, co2, outgasTime, wrap, first, count, carried)
    ensures r.Ok? ==> |r.value| == count
    ensures r.Ok? ==> forall k :: 0 <= k < count ==> r.value[k].cycle == first + k
    ensures r.Ok? ==> forall k :: 0 <= k < count ==>
      (co2 <==> r.value[k].outgasEnd.Some?) && (co2 <==> r.value[k].outgasStart.Some?)
    ensures r.Ok? ==> RowsFromFiles(files, co2, outgasTime, wrap, first, r.value, carried)
    ensures r.Ok? && co2 ==> forall k :: 0 <= k < count ==>
      && ValidDateTime(r.value[k].outgasEnd.value)
      && MinuteOfMonth(r.value[k].outgasEnd.value) == MinuteOfMonth(r.value[k].outgasStart.value) + outgasTime
    decreases count
  {
    if count == 0 then Ok([])
    else
      var step := CycleTimes(files, co2, outgasTime, wrap, first, carried);
      if step.Err? then Err(step.error)
      else
        var rest := TimePeriods(files, co2, outgasTime, wrap, first + 1, count - 1, step.value.1);
        if rest.Err? then Err(rest.error)
        else
          var rows := [step.value.0] + rest.value;
          assert rows[0] == step.value.0 && rows[1..] == rest.value;
          assert FieldsBefore(rows, co2, 1, carried) == step.value.1;
          PeriodsPrepend(step.value.0, rest.value, first, co2, outgasTime);
          Ok(rows)
  }

  /** Prepending the row of cycle `first` to the rows of the cycles after it
      keeps the cycle numbering and the outgas facts of every row. */
  lemma PeriodsPrepend(head: PhaseTimes, rest: seq<PhaseTimes>, first: nat, co2: bool, outgasTime: int)
    requires head.cycle == first
    requires (co2 <==> head.outgasEnd.Some?) && (co2 <==> head.outgasStart.Some?)
    requires co2 ==> (&& ValidDateTime(head.outgasEnd.value)
                      && MinuteOfMonth(head.outgasEnd.value) == MinuteOfMonth(head.outgasStart.value) + outgasTime)
    requires forall k :: 0 <= k < |rest| ==> rest[k].cycle == first + 1 + k
    requires forall k :: 0 <= k < |rest| ==>
      (co2 <==> rest[k].outgasEnd.Some?) && (co2 <==> rest[k].outgasStart.Some?)
    requires co2 ==> forall k :: 0 <= k < |rest| ==>
      && ValidDateTime(rest[k].outgasEnd.value)
      && MinuteOfMonth(rest[k].outgasEnd.value) == MinuteOfMonth(rest[k].outgasStart.value) + outgasTime
    ensures forall k :: 0 <= k < |rest| + 1 ==> ([head] + rest)[k].cycle == first + k
    ensures forall k :: 0 <= k < |rest| + 1 ==>
      (co2 <==> ([head] + rest)[k].outgasEnd.Some?) && (co2 <==> ([head] + rest)[k].outgasStart.Some?)
    ensures co2 ==> forall k :: 0 <= k < |rest| + 1 ==>
      && ValidDateTime(([head] + rest)[k].outgasEnd.value)
      && MinuteOfMonth(([head] + rest)[k].outgasEnd.value) == MinuteOfMonth(([head] + rest)[k].outgasStart.value) + outgasTime
  {
  }

  /** Every row of `rows` satisfies `holds` for its cycle, counted from
      `first`, and for the header variables it was scanned from: `carried`
      for the first row, the variables the row before left for every later
      one. */
  predicate Chained(holds: (nat, Fields, PhaseTimes) -> bool, co2: bool, first: nat,
                    rows: seq<PhaseTimes>, carried: Fields)
    decreases |rows|
  {
    |rows| == 0 ||
      (&& holds(first, carried, rows[0])
       && Chained(holds, co2, first + 1, rows[1..], FieldsBefore(rows, co2, 1, carried)))
  }

  /** Row `k` of a chained table satisfies `holds` for cycle `first + k` and
      the header variables `FieldsBefore` names. */
  lemma {:induction false} ChainedAt(holds: (nat, Fields, PhaseTimes) -> bool, co2: bool, first: nat,
                                     rows: seq<PhaseTimes>, carried: Fields, k: nat)
    requires Chained(holds, co2, first, rows, carried)
    requires forall j :: 0 <= j < |rows| ==> (co2 <==> rows[j].outgasEnd.Some?)
    requires k < |rows|
    ensures holds(first + k, FieldsBefore(rows, co2, k, carried), rows[k])
    decreases k
  {
    if k > 0 {
      var next := FieldsBefore(rows, co2, 1, carried);
      ChainedAt(holds, co2, first + 1, rows[1..], next, k - 1);
      assert rows == [rows[0]] + rows[1..];
      FieldsBeforeShift(rows[0], rows[1..], co2, k - 1, carried, next);
      assert rows[1..][k - 1] == rows[k] && first + 1 + (k - 1) == first + k;
    }
  }

  /** `TimesFromFiles` for the given files and outgas settings, as a value. */
  function TimesHold(files: map<string, seq<string>>, co2: bool, outgasTime: int, wrap: DayWrap): (nat, Fields, PhaseTimes) -> bool {
    (i: nat, carried: Fields, t: PhaseTimes) => TimesFromFiles(files, co2, outgasTime, wrap, i, carried, t)
  }

  /** Each row of `rows` holds the times the files of its cycle give, the
      first for cycle `first` scanned from `carried`, every later one for the
      next cycle scanned from the header variables the row before left. */
  predicate RowsFromFiles(files: map<string, seq<string>>, co2: bool, outgasTime: int, wrap: DayWrap,
                          first: nat, rows: seq<PhaseTimes>, carried: Fields)
  {
    Chained(TimesHold(files, co2, outgasTime, wrap), co2, first, rows, carried)
  }

  /** Row `k` of such a table holds the times of cycle `first + k`, scanned
      from the header variables `FieldsBefore` names. */
  lemma RowsFromFilesAt(files: map<string, seq<string>>, co2: bool, outgasTime: int, wrap: DayWrap,
                        first: nat, rows: seq<PhaseTimes>, carried: Fields, k: nat)
    requires RowsFromFiles(files, co2, outgasTime, wrap, first, rows, carried)
    requires forall j :: 0 <= j < |rows| ==> (co2 <==> rows[j].outgasEnd.Some?)
    requires k < |rows|
    ensures TimesFromFiles(files, co2, outgasTime, wrap, first + k, FieldsBefore(rows, co2, k, carried), rows[k])
  {
    ChainedAt(TimesHold(files, co2, outgasTime, wrap), co2, first, rows, carried, k);
  }

  /** Prepending a row moves the header variables each later row was
      scanned from by one place. */
  lemma FieldsBeforeShift(head: PhaseTimes, rest: seq<PhaseTimes>, co2: bool, j: nat, carried: Fields, next: Fields)
    requires j < |rest|
    requires co2 <==> head.outgasEnd.Some?
    requires co2 ==> next == FieldsOf(head.outgasEnd.value)
    requires !co2 ==> next == carried
    ensures FieldsBefore([head] + rest, co2, j + 1, carried) == FieldsBefore(rest, co2, j, next)
  {
    if j == 0 {
      assert ([head] + rest)[j] == head;
    } else {
      assert ([head] + rest)[j] == rest[j - 1];
    }
  }

  /** `find_echem_time_period`: cycles 1 to `cycleNumber`, independent day
      wrap, header variables initially unassigned. */
  function FindEchemTimePeriod(files: map<string, seq<string>>, co2: bool, cycleNumber: nat, outgasTime: int): (r: Result<seq<PhaseTimes>, GamryError>)
    ensures r.Ok? <==> PeriodsDated(files, co2, outgasTime, WrapIndependently, 1, cycleNumber, NoFields)
    ensures r.Ok? ==> |r.value| == cycleNumber
    ensures r.Ok? ==> forall k :: 0 <= k < cycleNumber ==> r.value[k].cycle == k + 1
    ensures r.Ok? ==> forall k :: 0 <= k < cycleNumber ==>
      (co2 <==> r.value[k].outgasEnd.Some?) && (co2 <==> r.value[k].outgasStart.Some?)
    ensures r.Ok? ==> RowsFromFiles(files, co2, outgasTime, WrapIndependently, 1, r.value, NoFields)
  {
    TimePeriods(files, co2, outgasTime, WrapIndependently, 1, cycleNumber, NoFields)
  }

  // ---------------------------------------------------------------------
  // Impedance files

  /** Frequency, real and imaginary impedance of one spectrum point. */
  datatype EisPoint = EisPoint(frequency: real, zReal: real, zImag: real)

  /** The table header line of an impedance export starts with a tab and `#`. */
  const EisHeaderStart := "\t#"

  function ParseEisLine(line: string, parseFloat: string -> Option<real>): (r: Result<EisPoint, GamryError>)
    ensures r.Ok? ==> (
      && |Words(line)| > 4
      && parseFloat(Words(line)[2]) == Some(r.value.frequency)
      && parseFloat(Words(line)[3]) == Some(r.value.zReal)
      && parseFloat(Words(line)[4]) == Some(r.value.zImag))
  {
    var data := Words(line);
    var frequency :- Column(data, 2, parseFloat);
    var zReal :- Column(data, 3, parseFloat);
    var zImag :- Column(data, 4, parseFloat);
    Ok(EisPoint(frequency, zReal, zImag))
  }

  /** `read_gamry_eis`: every line after the first header line is a point;
      the header line itself is not, because the flag is tested before the
      line that sets it. The first line after it that does not convert
      stops the reading with its own error. */
  method ReadGamryEis(lines: seq<string>, parseFloat: string -> Option<real>) returns (r: Result<seq<EisPoint>, GamryError>)
    ensures FirstStartingWith(lines, EisHeaderStart).None? ==> r == Ok([])
    ensures r.Ok? && FirstStartingWith(lines, EisHeaderStart).Some? ==>
      var h := FirstStartingWith(lines, EisHeaderStart).value;
      |r.value| == |lines| - h - 1
      && forall k :: 0 <= k < |r.value| ==> ParseEisLine(lines[h + 1 + k], parseFloat) == Ok(r.value[k])
    ensures r.Err? ==> (
      && FirstStartingWith(lines, EisHeaderStart).Some?
      && var h := FirstStartingWith(lines, EisHeaderStart).value;
         exists j :: (h < j < |lines|
           && ParseEisLine(lines[j], parseFloat) == Err(r.error)
           && forall m :: h < m < j ==> ParseEisLine(lines[m], parseFloat).Ok?))
  {
    ghost var first := FirstStartingWith(lines, EisHeaderStart);
    FirstStartingWithIsFirst(lines, EisHeaderStart);
    var indicator := false;
    var points: seq<EisPoint> := [];
    var i := 0;
    while i < |lines|
      invariant 0 <= i <= |lines|
      invariant !indicator ==> points == [] && (first.None? || i <= first.value)
      invariant indicator ==> (
        && first.Some? && first.value < i
        && |points| == i - first.value - 1
        && forall k :: 0 <= k < |points| ==> ParseEisLine(lines[first.value + 1 + k], parseFloat) == Ok(points[k]))
    {
      if indicator {
        var point := ParseEisLine(lines[i], parseFloat);
        if point.Err? {
          forall m | first.value < m < i
            ensures ParseEisLine(lines[m], parseFloat).Ok?
          {
            assert ParseEisLine(lines[first.value + 1 + (m - first.value - 1)], parseFloat) == Ok(points[m - first.value - 1]);
          }
          return Err(point.error);
        }
        points := points + [point.value];
      }
      if StartsWith(lines[i], EisHeaderStart) {
        indicator := true;
      }
      i := i + 1;
    }
    r := Ok(points);
  }
}

=== FILE: gamry_header.dfy ===
/** Reading the creation date and time out of a Gamry `.DTA` header, as both
    echem_methods.py and echem_method.py do it (`find_date_time`, and the same
    loop inlined in `find_echem_time_period`), together with the validity
    rules of Python's `datetime.datetime` constructor. */
module GamryHeader {
  import opened Common
  import opened Text

  /** The six integer fields handed to `datetime.datetime(...)`. */
  datatype DateTime = DateTime(year: int, month: int, day: int, hour: int, minute: int, second: int)

  /** Why reading a header or building a datetime failed; each corresponds to
      an exception the source lets propagate. */
  datatype HeaderError =
    | MissingToken        // IndexError: too few tokens or pieces on a header line
    | NotAnInteger        // ValueError from int()
    | FieldUnset          // UnboundLocalError: no DATE or no TIME line seen
    | InvalidDateTime     // ValueError from datetime.datetime(...)
    | FileNotFound(name: string)

  predicate IsLeapYear(y: int) {
    y % 4 == 0 && (y % 100 != 0 || y % 400 == 0)
  }

  function DaysInMonth(y: int, m: int): (n: int)
    requires 1 <= m <= 12
    ensures 28 <= n <= 31
  {
    if m == 2 then (if IsLeapYear(y) then 29 else 28)
    else if m == 4 || m == 6 || m == 9 || m == 11 then 30
    else 31
  }

  /** The range checks `datetime.datetime` applies to its arguments. */
  predicate ValidDateTime(dt: DateTime) {
    && 1 <= dt.year <= 9999
    && 1 <= dt.month <= 12
    && 1 <= dt.day <= DaysInMonth(dt.year, dt.month)
    && 0 <= dt.hour < 24
    && 0 <= dt.minute < 60
    && 0 <= dt.second < 60
  }

  function MakeDateTime(dt: DateTime): (r: Result<DateTime, HeaderError>)
    ensures r.Ok? <==> ValidDateTime(dt)
    ensures r.Ok? ==> r.value == dt
    ensures r.Err? ==> r.error == InvalidDateTime
  {
    if ValidDateTime(dt) then Ok(dt) else Err(InvalidDateTime)
  }

  /** The variables the header loop assigns: `(year, month, day)` from a DATE
      line and `(hour, minute, second)` from a TIME line; `None` while the
      corresponding line has not been seen. */
  datatype Fields = Fields(date: Option<(int, int, int)>, time: Option<(int, int, int)>)

  const NoFields := Fields(None, None)

  /** The third token of a header line (`row.split()[2]`), cut at `sep`;
      a line with fewer than three tokens is the source's `IndexError`. */
  function HeaderPieces(line: string, sep: char): (r: Result<seq<string>, HeaderError>)
    ensures r.Ok? <==> |Words(line)| >= 3
    ensures r.Err? ==> r.error == MissingToken
    ensures r.Ok? ==> |r.value| >= 1
  {
    var tokens := Words(line);
    if |tokens| < 3 then Err(MissingToken) else Ok(Split(tokens[2], [sep]))
  }

  /** Piece `k` exists and `int()` accepts it. */
  predicate Readable(pieces: seq<string>, k: nat) {
    k < |pieces| && ParseInt(pieces[k]).Some?
  }

  /** The reading of `pieces` at the positions `order`, in that order, stops
      at position `order[j]` with error `e`: every earlier position was
      read, and `order[j]` is missing (`IndexError`) or not an integer
      (`ValueError`). */
  ghost predicate FailsFirstAt(pieces: seq<string>, order: seq<nat>, e: HeaderError) {
    exists j :: 0 <= j < |order| && !Readable(pieces, order[j])
      && (forall i :: 0 <= i < j ==> Readable(pieces, order[i]))
      && e == (if order[j] < |pieces| then NotAnInteger else MissingToken)
  }

  /** `int(pieces[k])` for each `k` of `order`, one statement after the
      other: each statement indexes and then converts, and the first
      failure ends the reading. */
  function ReadPieces(pieces: seq<string>, order: seq<nat>): (r: Result<seq<int>, HeaderError>)
    ensures r.Ok? <==> forall j :: 0 <= j < |order| ==> Readable(pieces, order[j])
    ensures r.Ok? ==> |r.value| == |order|
    ensures r.Ok? ==> forall j :: 0 <= j < |order| ==> r.value[j] == ParseInt(pieces[order[j]]).value
    ensures r.Err? ==> FailsFirstAt(pieces, order, r.error)
    decreases |order|
  {
    if |order| == 0 then Ok([])
    else if order[0] >= |pieces| then
      assert !Readable(pieces, order[0]);
      Err(MissingToken)
    else match ParseInt(pieces[order[0]])
      case None =>
        assert !Readable(pieces, order[0]);
        Err(NotAnInteger)
      case Some(v) =>
        var rest := ReadPieces(pieces, order[1..]);
        if rest.Err? then
          FailsLater(pieces, order, rest.error);
          Err(rest.error)
        else
          Ok([v] + rest.value)
  }

  /** A failure in the rest of the order, after a readable first position,
      is the first failure of the whole order. */
  lemma FailsLater(pieces: seq<string>, order: seq<nat>, e: HeaderError)
    requires |order| > 0 && Readable(pieces, order[0])
    requires FailsFirstAt(pieces, order[1..], e)
    ensures FailsFirstAt(pieces, order, e)
  {
    var j :| 0 <= j < |order[1..]| && !Readable(pieces, order[1..][j])
      && (forall i :: 0 <= i < j ==> Readable(pieces, order[1..][i]))
      && e == (if order[1..][j] < |pieces| then NotAnInteger else MissingToken);
    assert order[j + 1] == order[1..][j];
    forall i | 0 <= i < j + 1
      ensures Readable(pieces, order[i])
    {
      if i > 0 {
        assert order[i] == order[1..][i - 1];
      }
    }
  }

  /** Three integers from the third token of a header line, read at the
      piece positions `order` in turn; the result lists them in that
      order. */
  function ReadTriple(line: string, sep: char, order: seq<nat>): Result<(int, int, int), HeaderError>
    requires |order| == 3
  {
    var pieces := HeaderPieces(line, sep);
    if pieces.Err? then Err(pieces.error)
    else
      var values := ReadPieces(pieces.value, order);
      if values.Err? then Err(values.error)
      else Ok((values.value[0], values.value[1], values.value[2]))
  }

  /** The order in which each branch reads the pieces: the DATE branch
      reads year (piece 2), month (piece 0) and day (piece 1); the TIME
      branch hour, minute and second, pieces 0, 1 and 2. */
  const DateOrder: seq<nat> := [2, 0, 1]
  const TimeOrder: seq<nat> := [0, 1, 2]

  /** A DATE line holds `month/day/year`; the result is `(year, month, day)`. */
  function ParseDateLine(line: string): Result<(int, int, int), HeaderError> {
    ReadTriple(line, '/', DateOrder)
  }

  /** A TIME line holds `hour:minute:second`. */
  function ParseTimeLine(line: string): Result<(int, int, int), HeaderError> {
    ReadTriple(line, ':', TimeOrder)
  }

  /** What a DATE line yields: success exactly when the token has three
      integer pieces, giving (piece 2, piece 0, piece 1). The year is
      indexed first, so a token with fewer than three pieces is an
      `IndexError` whatever its pieces hold. */
  lemma DateLineRead(line: string)
    ensures HeaderPieces(line, '/').Err? ==> ParseDateLine(line) == Err(MissingToken)
    ensures ParseDateLine(line).Ok? <==>
      (HeaderPieces(line, '/').Ok?
       && Readable(HeaderPieces(line, '/').value, 0)
       && Readable(HeaderPieces(line, '/').value, 1)
       && Readable(HeaderPieces(line, '/').value, 2))
    ensures ParseDateLine(line).Ok? ==>
      var pieces := HeaderPieces(line, '/').value;
      ParseDateLine(line).value == (ParseInt(pieces[2]).value, ParseInt(pieces[0]).value, ParseInt(pieces[1]).value)
    ensures HeaderPieces(line, '/').Ok? && |HeaderPieces(line, '/').value| < 3 ==>
      ParseDateLine(line) == Err(MissingToken)
  {
    var pieces := HeaderPieces(line, '/');
    if pieces.Ok? {
      var values := ReadPieces(pieces.value, DateOrder);
      if values.Err? {
        assert !Readable(pieces.value, DateOrder[0]) || !Readable(pieces.value, DateOrder[1])
          || !Readable(pieces.value, DateOrder[2]);
      }
    }
  }

  /** What a TIME line yields: success exactly when the token has three
      integer pieces, giving them in written order. Each piece is converted
      before the next is indexed, so a bad hour is a `ValueError` even in a
      token without any `:`, and so is a bad minute in a token with one
      `:`. */
  lemma TimeLineRead(line: string)
    ensures HeaderPieces(line, ':').Err? ==> ParseTimeLine(line) == Err(MissingToken)
    ensures ParseTimeLine(line).Ok? <==>
      (HeaderPieces(line, ':').Ok?
       && Readable(HeaderPieces(line, ':').value, 0)
       && Readable(HeaderPieces(line, ':').value, 1)
       && Readable(HeaderPieces(line, ':').value, 2))
    ensures ParseTimeLine(line).Ok? ==>
      var pieces := HeaderPieces(line, ':').value;
      ParseTimeLine(line).value == (ParseInt(pieces[0]).value, ParseInt(pieces[1]).value, ParseInt(pieces[2]).value)
    ensures HeaderPieces(line, ':').Ok? && ParseInt(HeaderPieces(line, ':').value[0]).None? ==>
      ParseTimeLine(line) == Err(NotAnInteger)
    ensures HeaderPieces(line, ':').Ok? && ParseInt(HeaderPieces(line, ':').value[0]).Some? ==>
      var pieces := HeaderPieces(line, ':').value;
      && (|pieces| < 2 ==> ParseTimeLine(line) == Err(MissingToken))
      && (|pieces| >= 2 && ParseInt(pieces[1]).None? ==> ParseTimeLine(line) == Err(NotAnInteger))
  {
    var pieces := HeaderPieces(line, ':');
    if pieces.Ok? {
      var values := ReadPieces(pieces.value, TimeOrder);
      if values.Err? {
        assert !Readable(pieces.value, TimeOrder[0]) || !Readable(pieces.value, TimeOrder[1])
          || !Readable(pieces.value, TimeOrder[2]);
      }
    }
  }

  predicate IsDateLine(line: string) { StartsWith(line, "DATE") }
  predicate IsTimeLine(line: string) { StartsWith(line, "TIME") }

  /** One pass of the loop body: a DATE line overwrites the date fields, a
      TIME line the time fields, any other line changes nothing. */
  function ScanLine(line: string, f: Fields): (r: Result<Fields, HeaderError>)
    ensures r.Ok? && !IsDateLine(line) ==> r.value.date == f.date
    ensures r.Ok? && !IsTimeLine(line) ==> r.value.time == f.time
    ensures r.Ok? && IsDateLine(line) ==> ParseDateLine(line).Ok? && r.value.date == Some(ParseDateLine(line).value)
    ensures r.Ok? && IsTimeLine(line) ==> ParseTimeLine(line).Ok? && r.value.time == Some(ParseTimeLine(line).value)
    ensures !IsDateLine(line) && !IsTimeLine(line) ==> r == Ok(f)
  {
    var f1 :- if IsDateLine(line) then
                (match ParseDateLine(line)
                 case Ok(d) => Ok(f.(date := Some(d)))
                 case Err(e) => Err(e))
              else Ok(f);
    if IsTimeLine(line) then
      match ParseTimeLine(line)
      case Ok(t) => Ok(f1.(time := Some(t)))
      case Err(e) => Err(e)
    else Ok(f1)
  }

  /** The whole loop over a file's lines, starting from the given values of
      the variables. */
  function ScanHeader(lines: seq<string>, f: Fields): Result<Fields, HeaderError>
    decreases |lines|
  {
    if |lines| == 0 then Ok(f)
    else
      var f1 :- ScanLine(lines[0], f);
      ScanHeader(lines[1..], f1)
  }

  /** `find_date_time`: scan the file from scratch, then build the datetime. */
  function FindDateTime(lines: seq<string>): (r: Result<DateTime, HeaderError>)
    ensures r.Ok? ==> ValidDateTime(r.value)
  {
    var f :- ScanHeader(lines, NoFields);
    DateTimeOf(f)
  }

  /** Builds the datetime from the scanned variables; a variable never
      assigned is the source's `UnboundLocalError`. */
  function DateTimeOf(f: Fields): (r: Result<DateTime, HeaderError>)
    ensures r.Ok? ==> ValidDateTime(r.value)
    ensures f.date.None? || f.time.None? ==> r == Err(FieldUnset)
    ensures r.Ok? ==> (f.date == Some((r.value.year, r.value.month, r.value.day))
      && f.time == Some((r.value.hour, r.value.minute, r.value.second)))
  {
    match (f.date, f.time)
    case (Some(d), Some(t)) => MakeDateTime(DateTime(d.0, d.1, d.2, t.0, t.1, t.2))
    case _ => Err(FieldUnset)
  }

  // ---------------------------------------------------------------------
  // Properties

  /** A successful scan is a successful first line followed by a successful
      scan of the rest. */
  lemma ScanHeaderStep(lines: seq<string>, f: Fields)
    requires |lines| > 0
    requires ScanHeader(lines, f).Ok?
    ensures ScanLine(lines[0], f).Ok?
    ensures ScanHeader(lines, f) == ScanHeader(lines[1..], ScanLine(lines[0], f).value)
  {
  }

  /** Lines that are neither DATE nor TIME lines leave the variables alone. */
  lemma {:induction false} ScanOtherLines(lines: seq<string>, f: Fields)
    requires forall j :: 0 <= j < |lines| ==> !IsDateLine(lines[j]) && !IsTimeLine(lines[j])
    ensures ScanHeader(lines, f) == Ok(f)
    decreases |lines|
  {
    if |lines| > 0 {
      ScanOtherLines(lines[1..], f);
    }
  }

  /** A successful scan ends with the date of the LAST DATE line. */
  lemma {:induction false} LastDateLineWins(lines: seq<string>, f: Fields, i: nat)
    requires i < |lines|
    requires IsDateLine(lines[i])
    requires forall j :: i < j < |lines| ==> !IsDateLine(lines[j])
    requires ScanHeader(lines, f).Ok?
    ensures ParseDateLine(lines[i]).Ok?
    ensures ScanHeader(lines, f).value.date == Some(ParseDateLine(lines[i]).value)
    decreases |lines|
  {
    ScanHeaderStep(lines, f);
    var f1 := ScanLine(lines[0], f).value;
    if i == 0 {
      KeepsDate(lines[1..], f1);
    } else {
      LastDateLineWins(lines[1..], f1, i - 1);
    }
  }

  /** A successful scan ends with the time of the LAST TIME line. */
  lemma {:induction false} LastTimeLineWins(lines: seq<string>, f: Fields, i: nat)
    requires i < |lines|
    requires IsTimeLine(lines[i])
    requires forall j :: i < j < |lines| ==> !IsTimeLine(lines[j])
    requires ScanHeader(lines, f).Ok?
    ensures ParseTimeLine(lines[i]).Ok?
    ensures ScanHeader(lines, f).value.time == Some(ParseTimeLine(lines[i]).value)
    decreases |lines|
  {
    ScanHeaderStep(lines, f);
    var f1 := ScanLine(lines[0], f).value;
    if i == 0 {
      KeepsTime(lines[1..], f1);
    } else {
      LastTimeLineWins(lines[1..], f1, i - 1);
    }
  }

  lemma {:induction false} KeepsDate(lines: seq<string>, f: Fields)
    requires forall j :: 0 <= j < |lines| ==> !IsDateLine(lines[j])
    requires ScanHeader(lines, f).Ok?
    ensures ScanHeader(lines, f).value.date == f.date
    decreases |lines|
  {
    if |lines| > 0 {
      ScanHeaderStep(lines, f);
      KeepsDate(lines[1..], ScanLine(lines[0], f).value);
    }
  }

  lemma {:induction false} KeepsTime(lines: seq<string>, f: Fields)
    requires forall j :: 0 <= j < |lines| ==> !IsTimeLine(lines[j])
    requires ScanHeader(lines, f).Ok?
    ensures ScanHeader(lines, f).value.time == f.time
    decreases |lines|
  {
    if |lines| > 0 {
      ScanHeaderStep(lines, f);
      KeepsTime(lines[1..], ScanLine(lines[0], f).value);
    }
  }

  /** A file without any DATE line cannot yield a datetime. */
  lemma NoDateLineFails(lines: seq<string>)
    requires forall j :: 0 <= j < |lines| ==> !IsDateLine(lines[j])
    ensures FindDateTime(lines).Err?
  {
    if ScanHeader(lines, NoFields).Ok? {
      KeepsDate(lines, NoFields);
    }
  }

  /** A file without any TIME line cannot yield a datetime. */
  lemma NoTimeLineFails(lines: seq<string>)
    requires forall j :: 0 <= j < |lines| ==> !IsTimeLine(lines[j])
    ensures FindDateTime(lines).Err?
  {
    if ScanHeader(lines, NoFields).Ok? {
      KeepsTime(lines, NoFields);
    }
  }

  /** Field order of a DATE line: the third token `M/D/Y` yields year `Y`,
      month `M` and day `D`, whatever the tag and the trailing tokens. */
  lemma DateLineFieldOrder(tag: string, month: nat, day: nat, year: nat, rest: seq<string>)
    requires |tag| > 0 && NoSpace(tag)
    requires forall k :: 0 <= k < |rest| ==> |rest[k]| > 0 && NoSpace(rest[k])
    ensures ParseDateLine(Join(["DATE", tag, ShowNat(month) + "/" + ShowNat(day) + "/" + ShowNat(year)] + rest, "\t") + "\n")
      == Ok((year, month, day))
  {
    var token := ShowNat(month) + "/" + ShowNat(day) + "/" + ShowNat(year);
    TripleToken(month, day, year, '/');
    ThirdTokenOfHeader("DATE", tag, token, rest);
  }

  /** Field order of a TIME line: the third token `h:m:s` yields hour, minute
      and second in that order. */
  lemma TimeLineFieldOrder(tag: string, hour: nat, minute: nat, second: nat, rest: seq<string>)
    requires |tag| > 0 && NoSpace(tag)
    requires forall k :: 0 <= k < |rest| ==> |rest[k]| > 0 && NoSpace(rest[k])
    ensures ParseTimeLine(Join(["TIME", tag, ShowNat(hour) + ":" + ShowNat(minute) + ":" + ShowNat(second)] + rest, "\t") + "\n")
      == Ok((hour, minute, second))
  {
    var token := ShowNat(hour) + ":" + ShowNat(minute) + ":" + ShowNat(second);
    TripleToken(hour, minute, second, ':');
    ThirdTokenOfHeader("TIME", tag, token, rest);
  }

  lemma TripleToken(a: nat, b: nat, c: nat, sep: char)
    requires !IsDigit(sep) && !IsSpace(sep)
    ensures NoSpace(ShowNat(a) + [sep] + ShowNat(b) + [sep] + ShowNat(c))
    ensures Split(ShowNat(a) + [sep] + ShowNat(b) + [sep] + ShowNat(c), [sep]) == [ShowNat(a), ShowNat(b), ShowNat(c)]
    ensures ParseInt(ShowNat(a)) == Some(a as int)
    ensures ParseInt(ShowNat(b)) == Some(b as int)
    ensures ParseInt(ShowNat(c)) == Some(c as int)
  {
    var x, y, z := ShowNat(a), ShowNat(b), ShowNat(c);
    DigitsAvoid(x, sep);
    DigitsAvoid(y, sep);
    DigitsAvoid(z, sep);
    SplitThree(x, y, z, sep);
    NoSpaceThree(x, y, z, sep);
    ParseShowNat(a);
    ParseShowNat(b);
    ParseShowNat(c);
  }

  lemma SplitThree(x: string, y: string, z: string, sep: char)
    requires sep !in x && sep !in y && sep !in z
    ensures Split(x + [sep] + y + [sep] + z, [sep]) == [x, y, z]
  {
    var tail := y + [sep] + z;
    assert x + [sep] + y + [sep] + z == x + [sep] + tail;
    SplitAfterPiece(x, [sep], tail);
    SplitAfterPiece(y, [sep], z);
    SplitWithoutSeparator(z, [sep]);
  }

  lemma NoSpaceThree(x: string, y: string, z: string, sep: char)
    requires NoSpace(x) && NoSpace(y) && NoSpace(z) && !IsSpace(sep)
    ensures NoSpace(x + [sep] + y + [sep] + z)
  {
    NoSpaceConcat(x, [sep]);
    NoSpaceConcat(x + [sep], y);
    NoSpaceConcat(x + [sep] + y, [sep]);
    NoSpaceConcat(x + [sep] + y + [sep], z);
  }

  lemma DigitsAvoid(s: string, c: char)
    requires AllDigits(s)
    requires !IsDigit(c) && !IsSpace(c)
    ensures c !in s
    ensures NoSpace(s)
  {
  }

  lemma NoSpaceConcat(a: string, b: string)
    requires NoSpace(a) && NoSpace(b)
    ensures NoSpace(a + b)
  {
    forall k | 0 <= k < |a + b|
      ensures !IsSpace((a + b)[k])
    {
      if k < |a| {
        assert (a + b)[k] == a[k];
      } else {
        assert (a + b)[k] == b[k - |a|];
      }
    }
  }

  lemma ThirdTokenOfHeader(key: string, tag: string, token: string, rest: seq<string>)
    requires |key| > 0 && NoSpace(key)
    requires |tag| > 0 && NoSpace(tag)
    requires |token| > 0 && NoSpace(token)
    requires forall k :: 0 <= k < |rest| ==> |rest[k]| > 0 && NoSpace(rest[k])
    ensures Words(Join([key, tag, token] + rest, "\t") + "\n") == [key, tag, token] + rest
  {
    var tokens := [key, tag, token] + rest;
    forall k | 0 <= k < |tokens|
      ensures |tokens[k]| > 0 && NoSpace(tokens[k])
    {
      if k >= 3 {
        assert tokens[k] == rest[k - 3];
      }
    }
    WordsOfTabJoin(tokens, "\n");
  }
}

=== FILE: gamry_legacy.dfy ===
/** echem_method.py, the earlier revision of the Gamry readers. It differs
    from echem_methods.py in four ways that the model keeps apart: the probe
    calibrations are fixed constants (the right probe's intercept is 7.7278,
    not 7.728), a data row has no temperature, capacity, cycle or process
    columns, the cycle loop always covers cycles 1 to 5, and the outgas day
    wrap sits inside the minute carry. Header parsing and the row rule are
    the same and are shared with the newer readers. */
module GamryLegacy {
  import opened Common
  import opened GamryHeader
  import opened Gamry

  const LegacyLeftCalibration := Calibration(-17.602, 7.1728)
  const LegacyRightCalibration := Calibration(-17.4, 7.7278)

  /** The number of cycles the earlier revision always reads. */
  const LegacyCycleCount: nat := 5

  /** One row of the earlier half-cycle table (without the fitted pH). */
  datatype LegacyRow = LegacyRow(deltaT: real, time: real, voltage: real, current: real,
                                 phLeft: real, phRight: real)

  /** The columns of one data line, in the order the earlier revision reads
      them (voltage, time, left probe, right probe, current). */
  function LegacyParseRow(tokens: seq<string>, start: real, parseFloat: string -> Option<real>): (r: Result<LegacyRow, GamryError>)
    ensures r.Ok? ==> |tokens| > RightProbeColumn
    ensures r.Ok? ==> (
      && parseFloat(tokens[TimeColumn]) == Some(r.value.deltaT)
      && r.value.time == start + r.value.deltaT
      && parseFloat(tokens[VoltageColumn]) == Some(r.value.voltage)
      && parseFloat(tokens[CurrentColumn]) == Some(r.value.current)
      && parseFloat(tokens[LeftProbeColumn]).Some?
      && r.value.phLeft == Calibrate(parseFloat(tokens[LeftProbeColumn]).value, LegacyLeftCalibration)
      && parseFloat(tokens[RightProbeColumn]).Some?
      && r.value.phRight == Calibrate(parseFloat(tokens[RightProbeColumn]).value, LegacyRightCalibration))
  {
    var voltage :- Column(tokens, VoltageColumn, parseFloat);
    var deltaT :- Column(tokens, TimeColumn, parseFloat);
    var rawLeft :- Column(tokens, LeftProbeColumn, parseFloat);
    var rawRight :- Column(tokens, RightProbeColumn, parseFloat);
    var current :- Column(tokens, CurrentColumn, parseFloat);
    Ok(LegacyRow(deltaT, start + deltaT, voltage, current,
                 Calibrate(rawLeft, LegacyLeftCalibration), Calibrate(rawRight, LegacyRightCalibration)))
  }

  /** The parser of one data line of the earlier revision. */
  function LegacyParser(start: real, parseFloat: string -> Option<real>): (parse: seq<string> -> Result<LegacyRow, GamryError>)
    ensures forall tokens :: parse(tokens) == LegacyParseRow(tokens, start, parseFloat)
  {
    tokens => LegacyParseRow(tokens, start, parseFloat)
  }

  /** The earlier `analyze_gamry_file` returns a table: its rows are read
      without error and there is at least one. */
  predicate LegacyAnalyzable(lines: seq<string>, start: real, parseFloat: string -> Option<real>) {
    var rows := ParsedRows(lines, LegacyParser(start, parseFloat));
    rows.Ok? && |rows.value| > 0
  }

  /** `analyze_gamry_file` of the earlier revision, without the pH fit: the
      same rows as the newer reader, fewer columns, the file name unused; the
      first failing data line fails, and an empty data section fails where
      the fit would. */
  method LegacyAnalyzeGamryFile(lines: seq<string>, start: real, parseFloat: string -> Option<real>)
    returns (r: Result<seq<LegacyRow>, GamryError>)
    ensures r.Ok? <==> LegacyAnalyzable(lines, start, parseFloat)
    ensures ParsedRows(lines, LegacyParser(start, parseFloat)).Err? ==>
      r == Err(ParsedRows(lines, LegacyParser(start, parseFloat)).error)
    ensures r.Ok? ==> r.value == ParsedRows(lines, LegacyParser(start, parseFloat)).value
    ensures r.Ok? ==> DataRows(lines).Ok? && |r.value| == |DataRows(lines).value| > 0
    ensures r.Ok? ==> forall k :: 0 <= k < |r.value| ==>
      LegacyParseRow(DataRows(lines).value[k], start, parseFloat) == Ok(r.value[k])
    ensures DataRows(lines) == Ok([]) ==> r == Err(NoDataRows)
    ensures DataRows(lines).Ok? && |DataRows(lines).value| > 0
      && (forall k :: 0 <= k < |DataRows(lines).value| ==> LegacyParseRow(DataRows(lines).value[k], start, parseFloat).Ok?)
      ==> r.Ok?
  {
    var parse := LegacyParser(start, parseFloat);
    var parsed := SelectDataRows(lines, parse);
    ParsedRowsAreParsedDataRows(lines, parse);
    if parsed.Err? {
      return Err(parsed.error);
    }
    if |parsed.value| == 0 {
      return Err(NoDataRows);
    }
    r := Ok(parsed.value);
  }

  /** The two revisions read the same line into the same numbers, except
      that the right-probe pH of the earlier one is 0.0002 lower. */
  lemma RevisionsAgreeOnRows(tokens: seq<string>, start: real, cycle: int, process: string,
                             parseFloat: string -> Option<real>)
    requires ParseRow(tokens, start, cycle, process, DefaultRightCalibration, DefaultLeftCalibration, parseFloat).Ok?
    ensures LegacyParseRow(tokens, start, parseFloat).Ok?
    ensures var later := ParseRow(tokens, start, cycle, process, DefaultRightCalibration, DefaultLeftCalibration, parseFloat).value;
      var earlier := LegacyParseRow(tokens, start, parseFloat).value;
      && earlier.deltaT == later.deltaT && earlier.time == later.time
      && earlier.voltage == later.voltage && earlier.current == later.current
      && earlier.phLeft == later.phLeft
      && earlier.phRight == later.phRight - 0.0002
  {
  }

  /** `Gamry.Currents` and `Gamry.Powers` for the earlier reader's row
      type: the `Current` column, and the per-row current-voltage product
      whose sum is the energy (echem_method.py:243-246). */
  function LegacyCurrents(rows: seq<LegacyRow>): (c: seq<real>)
    ensures |c| == |rows|
    ensures forall k :: 0 <= k < |rows| ==> c[k] == rows[k].current
  {
    seq(|rows|, k requires 0 <= k < |rows| => rows[k].current)
  }

  function LegacyPowers(rows: seq<LegacyRow>): (p: seq<real>)
    ensures |p| == |rows|
    ensures forall k :: 0 <= k < |rows| ==> p[k] == rows[k].current * rows[k].voltage
  {
    seq(|rows|, k requires 0 <= k < |rows| => rows[k].current * rows[k].voltage)
  }

  /** The half-cycle file at `path` exists and the earlier reader returns a
      table for it. */
  predicate LegacyHalfCycleReadable(files: map<string, seq<string>>, path: string, start: real,
                                    parseFloat: string -> Option<real>) {
    path in files && LegacyAnalyzable(files[path], start, parseFloat)
  }

  /** The rows of a readable half-cycle file, read by the earlier reader. */
  function LegacyHalfCycleRows(files: map<string, seq<string>>, path: string, start: real,
                               parseFloat: string -> Option<real>): seq<LegacyRow>
    requires LegacyHalfCycleReadable(files, path, start, parseFloat)
  {
    ParsedRows(files[path], LegacyParser(start, parseFloat)).value
  }

  /** Opens one half-cycle file with the earlier reader and returns its
      current and power series. */
  method LegacyHalfCycleSeries(files: map<string, seq<string>>, path: string, start: real,
                               parseFloat: string -> Option<real>) returns (r: Result<(seq<real>, seq<real>), GamryError>)
    ensures path !in files ==> r == Err(MissingFile(path))
    ensures r.Ok? <==> LegacyHalfCycleReadable(files, path, start, parseFloat)
    ensures r.Ok? ==>
      var rows := LegacyHalfCycleRows(files, path, start, parseFloat);
      r.value == (LegacyCurrents(rows), LegacyPowers(rows))
    ensures r.Ok? ==> path in files && |r.value.0| == |r.value.1| > 0
  {
    var lines := ReadFile(files, path);
    if lines.Err? {
      return Err(lines.error);
    }
    var rows := LegacyAnalyzeGamryFile(lines.value, start, parseFloat);
    if rows.Err? {
      return Err(rows.error);
    }
    r := Ok((LegacyCurrents(rows.value), LegacyPowers(rows.value)));
  }

  /** The earlier `cal_capacity_energy` returns a table: the start time can
      be read, and both half-cycle files of every cycle are readable. */
  predicate LegacyCapacityReadable(files: map<string, seq<string>>, cycleNumber: nat,
                                   parseFloat: string -> Option<real>) {
    && HasStart(files)
    && forall i :: 1 <= i <= cycleNumber ==>
         && LegacyHalfCycleReadable(files, ChargePath(i), StartSeconds(files), parseFloat)
         && LegacyHalfCycleReadable(files, DischargePath(i), StartSeconds(files), parseFloat)
  }

  /** The table row of cycle `i` from the earlier reader's rows. */
  function LegacyCycleRow(files: map<string, seq<string>>, i: nat, parseFloat: string -> Option<real>): CycleEnergy
    requires HasStart(files)
    requires LegacyHalfCycleReadable(files, ChargePath(i), StartSeconds(files), parseFloat)
    requires LegacyHalfCycleReadable(files, DischargePath(i), StartSeconds(files), parseFloat)
  {
    var charge := LegacyHalfCycleRows(files, ChargePath(i), StartSeconds(files), parseFloat);
    var discharge := LegacyHalfCycleRows(files, DischargePath(i), StartSeconds(files), parseFloat);
    CycleCapacityEnergy(i, LegacyCurrents(charge), LegacyPowers(charge), LegacyCurrents(discharge), LegacyPowers(discharge))
  }

  /** Row `k` (0-based) of the table is the row of cycle `k + 1`, whose
      files are readable. */
  predicate LegacyTableRowFits(files: map<string, seq<string>>, parseFloat: string -> Option<real>, k: nat, row: CycleEnergy) {
    && HasStart(files)
    && LegacyHalfCycleReadable(files, ChargePath(k + 1), StartSeconds(files), parseFloat)
    && LegacyHalfCycleReadable(files, DischargePath(k + 1), StartSeconds(files), parseFloat)
    && row == LegacyCycleRow(files, k + 1, parseFloat)
  }

  /** A readable table has readable files for each of its cycles. */
  lemma LegacyReadableCycle(files: map<string, seq<string>>, n: nat, i: nat, parseFloat: string -> Option<real>)
    requires LegacyCapacityReadable(files, n, parseFloat)
    requires 1 <= i <= n
    ensures LegacyHalfCycleReadable(files, ChargePath(i), StartSeconds(files), parseFloat)
    ensures LegacyHalfCycleReadable(files, DischargePath(i), StartSeconds(files), parseFloat)
  {
  }

  /** Readable files for one more cycle extend a readable table. */
  lemma LegacyReadableGrows(files: map<string, seq<string>>, n: nat, parseFloat: string -> Option<real>)
    requires LegacyCapacityReadable(files, n, parseFloat)
    requires LegacyHalfCycleReadable(files, ChargePath(n + 1), StartSeconds(files), parseFloat)
    requires LegacyHalfCycleReadable(files, DischargePath(n + 1), StartSeconds(files), parseFloat)
    ensures LegacyCapacityReadable(files, n + 1, parseFloat)
  {
    forall i | 1 <= i <= n + 1
      ensures LegacyHalfCycleReadable(files, ChargePath(i), StartSeconds(files), parseFloat)
      ensures LegacyHalfCycleReadable(files, DischargePath(i), StartSeconds(files), parseFloat)
    {
      if i <= n {
        LegacyReadableCycle(files, n, i, parseFloat);
      }
    }
  }

  /** `cal_capacity_energy` of the earlier revision: the same table built
      from the earlier half-cycle reader. */
  method LegacyCalCapacityEnergy(files: map<string, seq<string>>, cycleNumber: nat,
                                 parseFloat: string -> Option<real>) returns (r: Result<seq<CycleEnergy>, GamryError>)
    ensures ChargePath(1) !in files ==> r == Err(MissingFile(ChargePath(1)))
    ensures r.Ok? <==> LegacyCapacityReadable(files, cycleNumber, parseFloat)
    ensures r.Ok? ==> |r.value| == cycleNumber
    ensures r.Ok? ==> forall i :: 0 <= i < cycleNumber ==> r.value[i] == LegacyCycleRow(files, i + 1, parseFloat)
    ensures r.Ok? ==> forall i :: 0 <= i < cycleNumber ==>
      r.value[i].cycle == i + 1 && EfficienciesConsistent(r.value[i])
    ensures r.Ok? ==> forall i :: 1 <= i <= cycleNumber ==> ChargePath(i) in files && DischargePath(i) in files
  {
    var initial := ReadFile(files, ChargePath(1));
    if initial.Err? {
      return Err(initial.error);
    }
    var start := LiftHeader(FindDateTime(initial.value));
    if start.Err? {
      return Err(start.error);
    }
    var startSeconds := Timestamp(start.value);
    assert startSeconds == StartSeconds(files);
    var table: seq<CycleEnergy> := [];
    var i := 0;
    while i < cycleNumber
      invariant 0 <= i <= cycleNumber
      invariant |table| == i
      invariant LegacyCapacityReadable(files, i, parseFloat)
      invariant forall j :: 0 <= j < i ==> LegacyTableRowFits(files, parseFloat, j, table[j])
    {
      var row := LegacyCycleEnergyRow(files, i + 1, parseFloat);
      if row.Err? {
        if LegacyCapacityReadable(files, cycleNumber, parseFloat) {
          LegacyReadableCycle(files, cycleNumber, i + 1, parseFloat);
          assert false;
        }
        return Err(row.error);
      }
      LegacyReadableGrows(files, i, parseFloat);
      AppendKeepsAll(table, row.value, (k: nat, x: CycleEnergy) => LegacyTableRowFits(files, parseFloat, k, x));
      table := table + [row.value];
      i := i + 1;
    }
    r := Ok(table);
  }

  /** One iteration of the earlier cycle loop: the charge file of cycle `i`,
      then its discharge file. */
  method LegacyCycleEnergyRow(files: map<string, seq<string>>, i: nat, parseFloat: string -> Option<real>)
    returns (r: Result<CycleEnergy, GamryError>)
    requires HasStart(files)
    ensures r.Ok? <==>
      && LegacyHalfCycleReadable(files, ChargePath(i), StartSeconds(files), parseFloat)
      && LegacyHalfCycleReadable(files, DischargePath(i), StartSeconds(files), parseFloat)
    ensures r.Ok? ==> r.value == LegacyCycleRow(files, i, parseFloat)
  {
    var charge := LegacyHalfCycleSeries(files, ChargePath(i), StartSeconds(files), parseFloat);
    if charge.Err? {
      return Err(charge.error);
    }
    var discharge := LegacyHalfCycleSeries(files, DischargePath(i), StartSeconds(files), parseFloat);
    if discharge.Err? {
      return Err(discharge.error);
    }
    r := Ok(CycleCapacityEnergy(i, charge.value.0, charge.value.1, discharge.value.0, discharge.value.1));
  }

  /** `find_echem_time_period` of the earlier revision: always cycles 1 to 5,
      with the day wrap only after a minute carry. */
  function LegacyFindEchemTimePeriod(files: map<string, seq<string>>, co2: bool, outgasTime: int): (r: Result<seq<PhaseTimes>, GamryError>)
    ensures r.Ok? <==> PeriodsDated(files, co2, outgasTime, WrapAfterCarryOnly, 1, LegacyCycleCount, NoFields)
    ensures r.Ok? ==> |r.value| == LegacyCycleCount
    ensures r.Ok? ==> forall k :: 0 <= k < LegacyCycleCount ==> r.value[k].cycle == k + 1
    ensures r.Ok? ==> RowsFromFiles(files, co2, outgasTime, WrapAfterCarryOnly, 1, r.value, NoFields)
  {
    TimePeriods(files, co2, outgasTime, WrapAfterCarryOnly, 1, LegacyCycleCount, NoFields)
  }

  /** The two wrap rules agree whenever the minutes carry or the hour stays
      below 24; they differ only when whole hours alone reach midnight. */
  lemma WrapRulesAgree(start: DateTime, outgasTime: int)
    ensures var carried := start.minute + outgasTime % 60 >= 60;
      var hour := start.hour + outgasTime / 60 + (if carried then 1 else 0);
      (carried || hour < 24) <==>
        OutgasEnd(start, outgasTime, WrapAfterCarryOnly) == OutgasEnd(start, outgasTime, WrapIndependently)
  {
  }

  /** 23:00 plus a 60-minute outgas: the earlier rule leaves hour 24, which
      the datetime constructor rejects; the newer rule gives 00:00 of the
      next day. */
  lemma LegacyMidnightOverflow()
    ensures OutgasEnd(DateTime(2021, 3, 1, 23, 0, 0), 60, WrapAfterCarryOnly).hour == 24
    ensures MakeDateTime(OutgasEnd(DateTime(2021, 3, 1, 23, 0, 0), 60, WrapAfterCarryOnly)) == Err(InvalidDateTime)
    ensures MakeDateTime(OutgasEnd(DateTime(2021, 3, 1, 23, 0, 0), 60, WrapIndependently)) == Ok(DateTime(2021, 3, 2, 0, 0, 0))
  {
    var start := DateTime(2021, 3, 1, 23, 0, 0);
    assert 60 % 60 == 0 && 60 / 60 == 1;
    assert OutgasEnd(start, 60, WrapAfterCarryOnly) == DateTime(2021, 3, 1, 24, 0, 0);
    assert OutgasEnd(start, 60, WrapIndependently) == DateTime(2021, 3, 2, 0, 0, 0);
    assert DaysInMonth(2021, 3) == 31;
  }
}

=== FILE: gas.dfy ===
/** gas_methods.py: the schedule of gas switches (`find_gas_change_time`),
    the baseline windows of `create_baseline`, and the per-cycle capture and
    outgas amounts of `calculate_amount`.

    The least-squares line `np.polyfit(x, y, 1)` is the parameter `polyfit`.
    Timestamps are `DateTime` values compared as Python compares datetimes. */
module GasMethods {
  import opened Common
  import opened GamryHeader
  import opened Gamry
  import opened Frames

  // ---------------------------------------------------------------------
  // Gas-switch schedule

  /** The gas-table row at which the `i`-th switch is read. */
  function SwitchRow(i: int, period: int): int {
    i * period
  }

  /** The number of switches: one per `i >= 1` with `i * period < n`. */
  function SwitchCount(n: nat, period: int): nat
    requires period > 0
  {
    if n == 0 then 0 else (n - 1) / period
  }

  lemma MulMonotone(a: int, b: int, p: int)
    requires a <= b && p > 0
    ensures a * p <= b * p
  {
    assert b * p - a * p == (b - a) * p;
  }

  /** The loop visits switch `i` exactly when `i <= SwitchCount`. */
  lemma SwitchCountSpec(n: nat, period: int, i: int)
    requires period > 0
    requires i >= 1
    ensures SwitchRow(i, period) < n <==> i <= SwitchCount(n, period)
  {
    if n == 0 {
      MulMonotone(1, i, period);
    } else {
      var q := (n - 1) / period;
      var r := (n - 1) % period;
      assert n - 1 == q * period + r;
      if i <= q {
        MulMonotone(i, q, period);
      } else {
        MulMonotone(q + 1, i, period);
        assert (q + 1) * period == q * period + period;
      }
    }
  }

  /** One row of the switch table; `highToLow` is `None` where the source
      pads the column with `''`. */
  datatype GasSwitch = GasSwitch(cycle: nat, lowToHigh: DateTime, highToLow: Option<DateTime>)

  /** Reference row `k`: the odd switches raise the CO2 level, the even ones
      lower it again. */
  function SwitchAt(times: seq<DateTime>, period: int, k: nat): GasSwitch
    requires period > 0
    requires 2 * k + 1 <= SwitchCount(|times|, period)
  {
    SwitchCountSpec(|times|, period, 2 * k + 1);
    SwitchCountSpec(|times|, period, 2 * k + 2);
    GasSwitch(k + 1, times[SwitchRow(2 * k + 1, period)],
              if 2 * k + 2 <= SwitchCount(|times|, period) then Some(times[SwitchRow(2 * k + 2, period)]) else None)
  }

  /** Reference switch table: one row per low-to-high switch. */
  function SwitchTable(times: seq<DateTime>, period: int): seq<GasSwitch>
    requires period > 0
  {
    var rows := (SwitchCount(|times|, period) + 1) / 2;
    seq(rows, k requires 0 <= k < rows => SwitchAt(times, period, k))
  }

  /** The shape of the switch table: cycles numbered from 1, the low-to-high
      switches at rows `period * 1, period * 3, ...`, the high-to-low ones at
      `period * 2, period * 4, ...`, and a single padding entry, in the last
      row, exactly when the number of switches is odd. */
  lemma SwitchTableShape(times: seq<DateTime>, period: int)
    requires period > 0
    ensures var t := SwitchTable(times, period);
      var c := SwitchCount(|times|, period);
      && |t| == (c + 1) / 2
      && (forall k :: 0 <= k < |t| ==>
            && t[k].cycle == k + 1
            && 0 <= SwitchRow(2 * k + 1, period) < |times|
            && t[k].lowToHigh == times[SwitchRow(2 * k + 1, period)])
      && (forall k :: 0 <= k < |t| && t[k].highToLow.Some? ==>
            0 <= SwitchRow(2 * k + 2, period) < |times|
            && t[k].highToLow.value == times[SwitchRow(2 * k + 2, period)])
      && (forall k :: 0 <= k < |t| ==> (t[k].highToLow.None? <==> k == |t| - 1 && c % 2 == 1))
  {
    var t := SwitchTable(times, period);
    var c := SwitchCount(|times|, period);
    forall k | 0 <= k < |t|
      ensures 0 <= SwitchRow(2 * k + 1, period) < |times|
      ensures t[k].highToLow.Some? ==> 0 <= SwitchRow(2 * k + 2, period) < |times|
    {
      SwitchCountSpec(|times|, period, 2 * k + 1);
      SwitchCountSpec(|times|, period, 2 * k + 2);
    }
  }

  /** `t` is the timestamp of the gas-table row of switch `i`. */
  predicate SwitchReadAt(times: seq<DateTime>, period: int, i: int, t: DateTime) {
    0 <= SwitchRow(i, period) < |times| && t == times[SwitchRow(i, period)]
  }

  /** Two counts that alternate, the first never behind and at most one
      ahead, split their total into its rounded-up and rounded-down halves. */
  lemma HalfCounts(a: nat, b: nat, c: nat)
    requires a + b == c && b <= a <= b + 1
    ensures a == (c + 1) / 2 && b == c / 2
  {
  }

  /** `find_gas_change_time` over the gas table's timestamps. A negative
      period indexes past the start of the table (IndexError); a zero period
      on a non-empty table never leaves the loop. */
  method FindGasChangeTime(times: seq<DateTime>, period: int) returns (r: Result<seq<GasSwitch>, FrameError>)
    ensures period < 0 ==> r == Err(PositionOutOfRange)
    ensures period == 0 ==> r == (if |times| == 0 then Ok([]) else Err(NeverStops))
    ensures period > 0 ==> r == Ok(SwitchTable(times, period))
  {
    if period < 0 {
      return Err(PositionOutOfRange);
    }
    if period == 0 {
      if |times| == 0 {
        return Ok([]);
      }
      return Err(NeverStops);
    }
    ghost var c := SwitchCount(|times|, period);
    var i := 1;
    var cycleNumber := 1;
    var lowCo2 := true;
    var cycles: seq<nat> := [];
    var lowToHigh: seq<DateTime> := [];
    var highToLow: seq<DateTime> := [];
    SwitchCountSpec(|times|, period, i);
    while i * period < |times|
      invariant 1 <= i <= c + 1
      invariant i == |lowToHigh| + |highToLow| + 1
      invariant lowCo2 <==> |lowToHigh| == |highToLow|
      invariant |highToLow| <= |lowToHigh| <= |highToLow| + 1
      invariant cycleNumber == |highToLow| + 1
      invariant |cycles| == |lowToHigh|
      invariant forall k :: 0 <= k < |cycles| ==> cycles[k] == k + 1
      invariant forall k :: 0 <= k < |lowToHigh| ==> SwitchReadAt(times, period, 2 * k + 1, lowToHigh[k])
      invariant forall k :: 0 <= k < |highToLow| ==> SwitchReadAt(times, period, 2 * k + 2, highToLow[k])
      decreases c + 1 - i
    {
      SwitchCountSpec(|times|, period, i);
      if lowCo2 {
        assert SwitchReadAt(times, period, 2 * |lowToHigh| + 1, times[i * period]);
        AppendKeepsAll(cycles, cycleNumber, (k: nat, n: nat) => n == k + 1);
        AppendKeepsAll(lowToHigh, times[i * period], (k: nat, t: DateTime) => SwitchReadAt(times, period, 2 * k + 1, t));
        cycles := cycles + [cycleNumber];
        lowCo2 := false;
        lowToHigh := lowToHigh + [times[i * period]];
        i := i + 1;
      } else {
        assert SwitchReadAt(times, period, 2 * |highToLow| + 2, times[i * period]);
        AppendKeepsAll(highToLow, times[i * period], (k: nat, t: DateTime) => SwitchReadAt(times, period, 2 * k + 2, t));
        cycleNumber := cycleNumber + 1;
        lowCo2 := true;
        highToLow := highToLow + [times[i * period]];
        i := i + 1;
      }
    }
    SwitchCountSpec(|times|, period, i);
    assert i == c + 1;
    HalfCounts(|lowToHigh|, |highToLow|, c);
    var table := AssembleTable(times, period, cycles, lowToHigh, highToLow);
    r := Ok(table);
  }

  /** The three collected columns, the high-to-low one padded with `''` when
      it is one short, put side by side. */
  method AssembleTable(times: seq<DateTime>, period: int, cycles: seq<nat>, lowToHigh: seq<DateTime>,
                       highToLow: seq<DateTime>) returns (table: seq<GasSwitch>)
    requires period > 0
    requires |cycles| == |lowToHigh| == (SwitchCount(|times|, period) + 1) / 2
    requires |highToLow| == SwitchCount(|times|, period) / 2
    requires forall k :: 0 <= k < |cycles| ==> cycles[k] == k + 1
    requires forall k :: 0 <= k < |lowToHigh| ==> SwitchReadAt(times, period, 2 * k + 1, lowToHigh[k])
    requires forall k :: 0 <= k < |highToLow| ==> SwitchReadAt(times, period, 2 * k + 2, highToLow[k])
    ensures table == SwitchTable(times, period)
  {
    var padded: seq<Option<DateTime>> := seq(|highToLow|, k requires 0 <= k < |highToLow| => Some(highToLow[k]));
    if |highToLow| < |lowToHigh| {
      padded := padded + [None];
    }
    table := seq(|cycles|, k requires 0 <= k < |cycles| => GasSwitch(cycles[k], lowToHigh[k], padded[k]));
    var reference := SwitchTable(times, period);
    assert |table| == |reference|;
    forall k | 0 <= k < |table|
      ensures table[k] == reference[k]
    {
      assert reference[k] == SwitchAt(times, period, k);
    }
    assert table == reference;
  }

  // ---------------------------------------------------------------------
  // Baselines

  /** The columns of the frame the amounts are computed on: row labels,
      timestamps, hours since the first gas row, and the value columns by
      name. */
  datatype GasFrame = GasFrame(labels: seq<int>, datetime: seq<DateTime>, timeDelta: seq<real>,
                               columns: map<string, seq<real>>)

  predicate WellFormed(f: GasFrame) {
    && |f.labels| == |f.datetime| == |f.timeDelta|
    && forall c :: c in f.columns ==> |f.columns[c]| == |f.datetime|
  }

  /** `np.polyfit(x, y, 1)`: (slope, intercept) of a line through the points. */
  type LineFit = (seq<real>, seq<real>) -> (real, real)

  datatype BaselineFit = BaselineFit(slope: real, intercept: real, startIndex: int, endIndex: int)

  /** The lookup of a timestamp; an empty match is the source's IndexError. */
  function Locate(f: GasFrame, t: DateTime, rule: IndexRule): (r: Result<int, FrameError>)
    requires WellFormed(f)
    ensures r.Err? <==> t !in f.datetime
    ensures r.Err? ==> r.error == NoMatchingTime
    ensures r.Ok? ==> MatchIndex(f.labels, f.datetime, t, rule) == Some(r.value)
  {
    match MatchIndex(f.labels, f.datetime, t, rule)
    case None => Err(NoMatchingTime)
    case Some(i) => Ok(i)
  }

  /** `create_baseline`: the line fitted through the `baselineRange` rows
      before the start match and the `baselineRange` rows before the end
      match (Python slices, so a window reaching past the first row wraps or
      shrinks as `iloc` does), and the two match indices. */
  function CreateBaseline(gas: GasFrame, start: DateTime, end: DateTime, parameter: string,
                          baselineRange: int, rule: IndexRule, polyfit: LineFit): (r: Result<BaselineFit, FrameError>)
    requires WellFormed(gas)
    ensures start !in gas.datetime || end !in gas.datetime ==> r == Err(NoMatchingTime)
    ensures start in gas.datetime && end in gas.datetime && parameter !in gas.columns ==>
      r == Err(MissingColumn(parameter))
    ensures start in gas.datetime && end in gas.datetime && parameter in gas.columns ==> r.Ok?
    ensures r.Ok? ==> (
      && parameter in gas.columns
      && MatchIndex(gas.labels, gas.datetime, start, rule) == Some(r.value.startIndex)
      && MatchIndex(gas.labels, gas.datetime, end, rule) == Some(r.value.endIndex))
    ensures r.Ok? ==>
      var i1 := r.value.startIndex;
      var i2 := r.value.endIndex;
      var column := gas.columns[parameter];
      (0 <= i1 - baselineRange <= i1 <= |gas.datetime| && 0 <= i2 - baselineRange <= i2 <= |gas.datetime| ==>
        (r.value.slope, r.value.intercept) ==
          polyfit(gas.timeDelta[i1 - baselineRange..i1] + gas.timeDelta[i2 - baselineRange..i2],
                  column[i1 - baselineRange..i1] + column[i2 - baselineRange..i2]))
  {
    var i1 :- Locate(gas, start, rule);
    var i2 :- Locate(gas, end, rule);
    if parameter !in gas.columns then Err(MissingColumn(parameter))
    else
      var x := Slice(gas.timeDelta, i1 - baselineRange, i1) + Slice(gas.timeDelta, i2 - baselineRange, i2);
      var column := gas.columns[parameter];
      var y := Slice(column, i1 - baselineRange, i1) + Slice(column, i2 - baselineRange, i2);
      var line := polyfit(x, y);
      Ok(BaselineFit(line.0, line.1, i1, i2))
  }

  // ---------------------------------------------------------------------
  // Amounts

  /** The flow column for which the source skips the 11.7 conversion. */
  const CorrectedFlowColumn := "Corrected_Flow_Right"
  const OtherParameterFactor: real := 11.7

  /** `frame.shift(periods=shift)[column] - (slope * frame['Time_Delta'] +
      intercept)` over the rows `ps` of a filtered frame, keeping only the
      rows the shift does not leave empty (`np.sum` skips the NaN ones). */
  function Residuals(values: seq<real>, timeDelta: seq<real>, ps: seq<nat>, slope: real, intercept: real,
                     shift: int): (rs: seq<real>)
    requires |values| == |timeDelta|
    requires forall k :: 0 <= k < |ps| ==> ps[k] < |values|
    ensures |rs| <= |ps|
    ensures shift == 0 ==> |rs| == |ps|
    ensures shift == 0 ==> forall k :: 0 <= k < |ps| ==>
      rs[k] == values[ps[k]] - (slope * timeDelta[ps[k]] + intercept)
  {
    var m := |ps|;
    var lo := if shift <= 0 then 0 else if shift > m then m else shift;
    var hi := if shift >= 0 then m else if m + shift < 0 then 0 else m + shift;
    var n := if hi < lo then 0 else hi - lo;
    seq(n, j requires 0 <= j < n =>
      values[ps[lo + j - shift]] - (slope * timeDelta[ps[lo + j]] + intercept))
  }

  /** Capture amount: the residual sum over a minute-based flow, with the
      11.7 conversion for any parameter but the corrected flow. */
  function CaptureAmount(res: seq<real>, parameter: string): real {
    if parameter == CorrectedFlowColumn then Sum(res) / 60.0
    else Sum(seq(|res|, k requires 0 <= k < |res| => res[k] * OtherParameterFactor)) / 60.0
  }

  /** Outgas amount: each residual divided by 60 before summing. */
  function OutgasAmount(res: seq<real>): real {
    Sum(seq(|res|, k requires 0 <= k < |res| => res[k] / 60.0))
  }

  /** Over the reals, where the source divides and multiplies does not
      matter: both amounts are the plain residual sum over 60, times 11.7
      for a capture parameter other than the corrected flow. */
  lemma AmountsAreScaledSums(res: seq<real>, parameter: string)
    ensures OutgasAmount(res) == Sum(res) / 60.0
    ensures CaptureAmount(res, parameter) ==
      (if parameter == CorrectedFlowColumn then 1.0 else OtherParameterFactor) * Sum(res) / 60.0
  {
    var perMinute := seq(|res|, k requires 0 <= k < |res| => res[k] / 60.0);
    SumRangeScaled(res, perMinute, 1.0 / 60.0, 0, |res|);
    var scaled := seq(|res|, k requires 0 <= k < |res| => res[k] * OtherParameterFactor);
    SumRangeScaled(res, scaled, OtherParameterFactor, 0, |res|);
  }

  /** What `calculate_amount` is given as `baseline`: the string
      `'Adaptive'`, or anything else. */
  datatype Baseline = Adaptive | Fixed(level: real)

  /** One row of the amount table. */
  datatype AmountRow = AmountRow(cycle: nat, capture: real, outgas: real, average: real,
                                 c0: real, c1: real, o0: real, o1: real,
                                 cStart: int, cEnd: int, oStart: int, oEnd: int)

  /** A column that the no-CO2 time table lacks (KeyError). */
  function Column<T>(o: Option<T>, name: string): (r: Result<T, FrameError>)
    ensures r.Ok? <==> o.Some?
    ensures r.Ok? ==> r.value == o.value
    ensures r.Err? ==> r.error == MissingColumn(name)
  {
    match o
    case None => Err(MissingColumn(name))
    case Some(v) => Ok(v)
  }

  /** The parameters `calculate_amount` passes unchanged to every cycle. */
  datatype AmountSettings = AmountSettings(captureParameter: string, outgasParameter: string, baseline: Baseline,
                                           shift: int, baselineRange: int, rule: IndexRule)

  /** The residuals of `parameter` against a baseline over the rows stamped
      in `[lo, hi)`; unshifted, one per such row, in table order. */
  function WindowResiduals(gas: GasFrame, lo: DateTime, hi: DateTime, parameter: string,
                           slope: real, intercept: real, shift: int): (rs: seq<real>)
    requires WellFormed(gas)
    requires parameter in gas.columns
    ensures shift == 0 ==>
      var w := Window(gas.datetime, lo, hi);
      var column := gas.columns[parameter];
      |rs| == |w| && forall k :: 0 <= k < |w| ==> rs[k] == column[w[k]] - (slope * gas.timeDelta[w[k]] + intercept)
  {
    Residuals(gas.columns[parameter], gas.timeDelta, Window(gas.datetime, lo, hi), slope, intercept, shift)
  }

  /** What one row of the amount table records: the four match indices of
      the cycle's start and switch times, and the capture and outgas amounts
      as the baseline-corrected sums over the rows stamped in
      `[charge start, low-to-high switch)` and
      `[discharge start, high-to-low switch)`. */
  predicate RowMeasuresCycle(gas: GasFrame, t: PhaseTimes, sw: GasSwitch, s: AmountSettings, row: AmountRow)
    requires WellFormed(gas)
  {
    && s.captureParameter in gas.columns && s.outgasParameter in gas.columns
    && sw.highToLow.Some?
    && MatchIndex(gas.labels, gas.datetime, t.chargeStart, s.rule) == Some(row.cStart)
    && MatchIndex(gas.labels, gas.datetime, sw.lowToHigh, s.rule) == Some(row.cEnd)
    && MatchIndex(gas.labels, gas.datetime, t.dischargeStart, s.rule) == Some(row.oStart)
    && MatchIndex(gas.labels, gas.datetime, sw.highToLow.value, s.rule) == Some(row.oEnd)
    && row.capture * 60.0 ==
         (if s.captureParameter == CorrectedFlowColumn then 1.0 else OtherParameterFactor)
         * Sum(WindowResiduals(gas, t.chargeStart, sw.lowToHigh, s.captureParameter, row.c0, row.c1, s.shift))
    && row.outgas * 60.0 ==
         Sum(WindowResiduals(gas, t.dischargeStart, sw.highToLow.value, s.outgasParameter, row.o0, row.o1, s.shift))
  }

  /** The baselines of cycle `i` (0-based) can be fitted: the no-CO2 time
      table has the cycle and its three gas-phase columns, there is a switch
      row for it with both switch times, the four window ends are gas
      timestamps, and both columns exist. */
  predicate CycleWindows(gas: GasFrame, echem: seq<PhaseTimes>, switches: seq<GasSwitch>, s: AmountSettings, i: nat) {
    && i < |echem| && i < |switches|
    && echem[i].captureStart.Some? && echem[i].outgasStart.Some? && echem[i].outgasEnd.Some?
    && echem[i].chargeStart in gas.datetime && switches[i].lowToHigh in gas.datetime
    && s.captureParameter in gas.columns
    && switches[i].highToLow.Some?
    && echem[i].dischargeStart in gas.datetime && switches[i].highToLow.value in gas.datetime
    && s.outgasParameter in gas.columns
  }

  /** Cycle `i` can be measured: its baselines can be fitted and the
      baseline setting is `'Adaptive'`. */
  predicate CycleReady(gas: GasFrame, echem: seq<PhaseTimes>, switches: seq<GasSwitch>, s: AmountSettings, i: nat) {
    CycleWindows(gas, echem, switches, s, i) && s.baseline == Adaptive
  }

  /** The steps of one iteration of `calculate_amount` before the baseline
      setting is read: the cycle's columns, its switch row, and the capture
      and outgas baselines, failing at the first step that fails. */
  function CycleBaselines(gas: GasFrame, echem: seq<PhaseTimes>, switches: seq<GasSwitch>, s: AmountSettings,
                          polyfit: LineFit, i: nat): (r: Result<(BaselineFit, BaselineFit), FrameError>)
    requires WellFormed(gas)
    ensures r.Ok? <==> CycleWindows(gas, echem, switches, s, i)
    ensures i >= |echem| ==> r == Err(MissingCycle)
    ensures i < |echem| && echem[i].captureStart.None? ==> r == Err(MissingColumn("Capture_Start_Time"))
    ensures r.Ok? ==>
      && r.value.0 == CreateBaseline(gas, echem[i].chargeStart, switches[i].lowToHigh, s.captureParameter,
                                     s.baselineRange, s.rule, polyfit).value
      && r.value.1 == CreateBaseline(gas, echem[i].dischargeStart, switches[i].highToLow.value, s.outgasParameter,
                                     s.baselineRange, s.rule, polyfit).value
  {
    if i >= |echem| then Err(MissingCycle)
    else
      var times := echem[i];
      if times.captureStart.None? then Err(MissingColumn("Capture_Start_Time"))
      else if times.outgasStart.None? then Err(MissingColumn("Outgas_Start_Time"))
      else if times.outgasEnd.None? then Err(MissingColumn("Outgas_End_Time"))
      else if i >= |switches| then Err(MissingCycle)
      else
        var switch := switches[i];
        var c := CreateBaseline(gas, times.chargeStart, switch.lowToHigh, s.captureParameter,
                                s.baselineRange, s.rule, polyfit);
        if c.Err? then Err(c.error)
        // the padding '' matches no timestamp
        else if switch.highToLow.None? then Err(NoMatchingTime)
        else
          var o := CreateBaseline(gas, times.dischargeStart, switch.highToLow.value, s.outgasParameter,
                                  s.baselineRange, s.rule, polyfit);
          if o.Err? then Err(o.error)
          else Ok((c.value, o.value))
  }

  /** One iteration of the cycle loop of `calculate_amount`. */
  method CycleAmount(gas: GasFrame, echem: seq<PhaseTimes>, switches: seq<GasSwitch>, s: AmountSettings,
                     polyfit: LineFit, i: nat) returns (r: Result<AmountRow, FrameError>)
    requires WellFormed(gas)
    ensures r.Ok? <==> CycleReady(gas, echem, switches, s, i)
    ensures i >= |echem| ==> r == Err(MissingCycle)
    ensures i < |echem| && echem[i].captureStart.None? ==> r == Err(MissingColumn("Capture_Start_Time"))
    ensures r.Ok? ==> AmountRowFits(gas, echem, switches, s, polyfit, i, r.value)
  {
    var fits := CycleBaselines(gas, echem, switches, s, polyfit, i);
    if fits.Err? {
      return Err(fits.error);
    }
    var (c, o) := fits.value;
    if s.baseline.Fixed? {
      return Err(UnboundName("parameter"));
    }
    var times := echem[i];
    var switch := switches[i];
    var highToLow := switch.highToLow.value;
    var captureResiduals := WindowResiduals(gas, times.chargeStart, switch.lowToHigh, s.captureParameter,
                                            c.slope, c.intercept, s.shift);
    var outgasResiduals := WindowResiduals(gas, times.dischargeStart, highToLow, s.outgasParameter,
                                           o.slope, o.intercept, s.shift);
    var capture := CaptureAmount(captureResiduals, s.captureParameter);
    var outgas := OutgasAmount(outgasResiduals);
    AmountsAreScaledSums(captureResiduals, s.captureParameter);
    AmountsAreScaledSums(outgasResiduals, s.outgasParameter);
    r := Ok(AmountRow(i + 1, capture, outgas, (Abs(capture) + outgas) / 2.0,
                      c.slope, c.intercept, o.slope, o.intercept,
                      c.startIndex, c.endIndex, o.startIndex, o.endIndex));
  }

  /** Row `k` (0-based) of the amount table: the row of cycle `k + 1`,
      its baselines and indices the cycle's two `create_baseline` fits, its
      average the mean of the absolute capture and the outgas, and its
      amounts measured against those baselines over the cycle's windows. */
  predicate AmountRowFits(gas: GasFrame, echem: seq<PhaseTimes>, switches: seq<GasSwitch>, s: AmountSettings,
                          polyfit: LineFit, k: nat, row: AmountRow)
    requires WellFormed(gas)
  {
    && k < |echem| && k < |switches|
    && row.cycle == k + 1
    && CycleBaselines(gas, echem, switches, s, polyfit, k)
       == Ok((BaselineFit(row.c0, row.c1, row.cStart, row.cEnd), BaselineFit(row.o0, row.o1, row.oStart, row.oEnd)))
    && row.average == (Abs(row.capture) + row.outgas) / 2.0
    && RowMeasuresCycle(gas, echem[k], switches[k], s, row)
  }

  /** `calculate_amount`: one row per cycle `1..cycle`, each the cycle's
      amounts and baseline matches. With no cycles the average column was
      never assigned (NameError); a baseline other than `'Adaptive'` reads
      the undefined name `parameter`. */
  method CalculateAmount(gas: GasFrame, echem: seq<PhaseTimes>, switches: seq<GasSwitch>, s: AmountSettings,
                         polyfit: LineFit, cycle: nat) returns (r: Result<seq<AmountRow>, FrameError>)
    requires WellFormed(gas)
    ensures r.Ok? <==> cycle > 0 && forall k :: 0 <= k < cycle ==> CycleReady(gas, echem, switches, s, k)
    ensures cycle == 0 ==> r == Err(UnboundName("average_amount_array"))
    ensures s.baseline.Fixed? ==> r.Err?
    ensures |echem| == 0 && cycle > 0 ==> r == Err(MissingCycle)
    ensures r.Ok? ==> |r.value| == cycle && cycle <= |echem| && cycle <= |switches|
    ensures r.Ok? ==> forall k :: 0 <= k < cycle ==> AmountRowFits(gas, echem, switches, s, polyfit, k, r.value[k])
  {
    if cycle == 0 {
      return Err(UnboundName("average_amount_array"));
    }
    r := AmountRows(gas, echem, switches, s, polyfit, cycle);
  }

  /** The cycle loop of `calculate_amount`, stopping at the first cycle
      that fails. */
  method AmountRows(gas: GasFrame, echem: seq<PhaseTimes>, switches: seq<GasSwitch>, s: AmountSettings,
                    polyfit: LineFit, cycle: nat) returns (r: Result<seq<AmountRow>, FrameError>)
    requires WellFormed(gas)
    ensures r.Ok? <==> forall k :: 0 <= k < cycle ==> CycleReady(gas, echem, switches, s, k)
    ensures cycle > 0 && s.baseline.Fixed? ==> r.Err?
    ensures |echem| == 0 && cycle > 0 ==> r == Err(MissingCycle)
    ensures r.Ok? ==> |r.value| == cycle && (cycle > 0 ==> cycle <= |echem| && cycle <= |switches|)
    ensures r.Ok? ==> forall k :: 0 <= k < cycle ==> AmountRowFits(gas, echem, switches, s, polyfit, k, r.value[k])
  {
    ghost var fits := RowFitter(gas, echem, switches, s, polyfit);
    var rows: seq<AmountRow> := [];
    var i := 0;
    while i < cycle
      invariant 0 <= i <= cycle
      invariant |rows| == i
      invariant i > 0 ==> i <= |echem| && i <= |switches| && s.baseline == Adaptive
      invariant AllFit(rows, fits)
      invariant forall k :: 0 <= k < i ==> CycleReady(gas, echem, switches, s, k)
    {
      var next := CycleAmount(gas, echem, switches, s, polyfit, i);
      if next.Err? {
        assert !CycleReady(gas, echem, switches, s, i);
        return Err(next.error);
      }
      var row := next.value;
      ReadyGrows(gas, echem, switches, s, i);
      assert fits(i, row);
      AppendKeepsAll(rows, row, fits);
      rows := rows + [row];
      i := i + 1;
    }
    r := Ok(rows);
  }

  /** `AmountRowFits` as a property of (position, row) pairs. */
  function RowFitter(gas: GasFrame, echem: seq<PhaseTimes>, switches: seq<GasSwitch>, s: AmountSettings,
                     polyfit: LineFit): (nat, AmountRow) -> bool
    requires WellFormed(gas)
  {
    (k: nat, row: AmountRow) => AmountRowFits(gas, echem, switches, s, polyfit, k, row)
  }

  /** One more measurable cycle extends the measurable prefix. */
  lemma ReadyGrows(gas: GasFrame, echem: seq<PhaseTimes>, switches: seq<GasSwitch>, s: AmountSettings, i: nat)
    requires forall k :: 0 <= k < i ==> CycleReady(gas, echem, switches, s, k)
    requires CycleReady(gas, echem, switches, s, i)
    ensures forall k :: 0 <= k < i + 1 ==> CycleReady(gas, echem, switches, s, k)
  {
  }
}

=== FILE: text.dfy ===
/** The string operations the Gamry readers rely on, with Python's meaning:
    `str.split()` on runs of whitespace, `str.split(sep)` on a separator,
    `str.startswith`, and `int()` on a decimal token. */
module Text {
  import opened Common

  /** Characters `str.split()` treats as whitespace (the ASCII and Latin-1
      ones). */
  predicate IsSpace(c: char) {
    c == ' ' || c == '\t' || c == '\n' || c == '\r' || c == '\U{B}' || c == '\U{C}'
    || c == '\U{1C}' || c == '\U{1D}' || c == '\U{1E}' || c == '\U{1F}'
    || c == '\U{85}' || c == '\U{A0}'
  }

  predicate NoSpace(s: string) {
    forall k :: 0 <= k < |s| ==> !IsSpace(s[k])
  }

  predicate StartsWith(s: string, prefix: string) {
    |prefix| <= |s| && s[..|prefix|] == prefix
  }

  // ---------------------------------------------------------------------
  // Whitespace split

  function SkipSpaces(s: string): (r: string)
    ensures |r| <= |s|
    ensures |r| > 0 ==> !IsSpace(r[0])
  {
    if |s| > 0 && IsSpace(s[0]) then SkipSpaces(s[1..]) else s
  }

  /** Length of the run of non-space characters that starts `s`. */
  function WordLength(s: string): (n: nat)
    ensures n <= |s|
    ensures |s| > 0 && !IsSpace(s[0]) ==> n > 0
  {
    if |s| > 0 && !IsSpace(s[0]) then 1 + WordLength(s[1..]) else 0
  }

  /** `s.split()`: the maximal runs of non-space characters, in order. */
  function Words(s: string): (ws: seq<string>)
    decreases |s|
  {
    var t := SkipSpaces(s);
    if |t| == 0 then []
    else
      var n := WordLength(t);
      [t[..n]] + Words(t[n..])
  }

  /** What `SkipSpaces` leaves is a suffix, everything it drops is
      whitespace, and what it leaves does not start with whitespace. */
  lemma {:induction false} SkipSpacesDropsLeadingSpace(s: string)
    ensures SkipSpaces(s) == s[|s| - |SkipSpaces(s)|..]
    ensures forall k :: 0 <= k < |s| - |SkipSpaces(s)| ==> IsSpace(s[k])
    ensures |SkipSpaces(s)| > 0 ==> !IsSpace(SkipSpaces(s)[0])
    decreases |s|
  {
    if |s| > 0 && IsSpace(s[0]) {
      SkipSpacesDropsLeadingSpace(s[1..]);
      assert s[1..][|s| - 1 - |SkipSpaces(s)|..] == s[|s| - |SkipSpaces(s)|..];
    }
  }

  /** A word is free of whitespace and ends at whitespace or at the end. */
  lemma {:induction false} WordLengthIsWordEnd(s: string)
    ensures NoSpace(s[..WordLength(s)])
    ensures WordLength(s) < |s| ==> IsSpace(s[WordLength(s)])
    decreases |s|
  {
    if |s| > 0 && !IsSpace(s[0]) {
      WordLengthIsWordEnd(s[1..]);
      var n := WordLength(s);
      assert s[..n] == [s[0]] + s[1..][..n - 1];
    }
  }

  /** Every token `split()` yields is non-empty and free of whitespace. */
  lemma {:induction false} WordsAreTokens(s: string)
    ensures forall k :: 0 <= k < |Words(s)| ==> |Words(s)[k]| > 0 && NoSpace(Words(s)[k])
    decreases |s|
  {
    var t := SkipSpaces(s);
    if |t| > 0 {
      var n := WordLength(t);
      WordLengthIsWordEnd(t);
      WordsAreTokens(t[n..]);
      assert Words(s) == [t[..n]] + Words(t[n..]);
    }
  }

  /** Tokens joined with a separator. */
  function Join(parts: seq<string>, sep: string): string {
    if |parts| == 0 then ""
    else if |parts| == 1 then parts[0]
    else parts[0] + sep + Join(parts[1..], sep)
  }

  /** Tab-separated non-empty tokens without whitespace split back into the
      same tokens, whatever whitespace trails the line. */
  lemma {:induction false} WordsOfTabJoin(tokens: seq<string>, tail: string)
    requires forall k :: 0 <= k < |tokens| ==> |tokens[k]| > 0 && NoSpace(tokens[k])
    requires forall k :: 0 <= k < |tail| ==> IsSpace(tail[k])
    ensures Words(Join(tokens, "\t") + tail) == tokens
    decreases |tokens|
  {
    WordsOfSpaces(tail);
    if |tokens| == 0 {
      assert Join(tokens, "\t") + tail == tail;
    } else if |tokens| == 1 {
      assert Join(tokens, "\t") + tail == tokens[0] + tail;
      WordsOfWordThenRest(tokens[0], tail);
    } else {
      var inner := Join(tokens[1..], "\t") + tail;
      JoinCons(tokens, "\t", tail);
      WordsOfWordThenRest(tokens[0], "\t" + inner);
      WordsAfterSpace('\t', inner);
      WordsOfTabJoin(tokens[1..], tail);
    }
  }

  lemma JoinCons(parts: seq<string>, sep: string, tail: string)
    requires |parts| >= 2
    ensures Join(parts, sep) + tail == parts[0] + (sep + (Join(parts[1..], sep) + tail))
  {
  }

  lemma WordsOfSpaces(tail: string)
    requires forall k :: 0 <= k < |tail| ==> IsSpace(tail[k])
    ensures Words(tail) == []
  {
    assert SkipSpaces(tail) == [];
  }

  lemma WordsAfterSpace(c: char, s: string)
    requires IsSpace(c)
    ensures Words([c] + s) == Words(s)
  {
    assert ([c] + s)[1..] == s;
    assert SkipSpaces([c] + s) == SkipSpaces(s);
  }

  /** A word followed by whitespace (or nothing) is split off whole. */
  lemma WordsOfWordThenRest(w: string, rest: string)
    requires |w| > 0 && NoSpace(w)
    requires |rest| > 0 ==> IsSpace(rest[0])
    ensures Words(w + rest) == [w] + Words(rest)
  {
    var s := w + rest;
    assert SkipSpaces(s) == s;
    WordLengthOfWord(w, rest);
    assert s[..|w|] == w;
    assert s[|w|..] == rest;
  }

  lemma {:induction false} WordLengthOfWord(w: string, rest: string)
    requires NoSpace(w)
    requires |rest| > 0 ==> IsSpace(rest[0])
    ensures WordLength(w + rest) == |w|
    decreases |w|
  {
    if |w| > 0 {
      assert (w + rest)[1..] == w[1..] + rest;
      WordLengthOfWord(w[1..], rest);
    }
  }

  // ---------------------------------------------------------------------
  // Split on a separator

  predicate MatchAt(s: string, sep: string, k: nat) {
    k + |sep| <= |s| && s[k..k + |sep|] == sep
  }

  /** First position at or after `from` where `sep` occurs in `s`. */
  function IndexOfFrom(s: string, sep: string, from: nat): (r: Option<nat>)
    requires |sep| > 0
    ensures r.Some? ==> from <= r.value && MatchAt(s, sep, r.value)
    ensures r.Some? ==> forall k :: from <= k < r.value ==> !MatchAt(s, sep, k)
    ensures r.None? ==> forall k :: from <= k ==> !MatchAt(s, sep, k)
    decreases |s| - from
  {
    if from + |sep| > |s| then None
    else if s[from..from + |sep|] == sep then Some(from)
    else IndexOfFrom(s, sep, from + 1)
  }

  /** `s.split(sep)`: the pieces between non-overlapping occurrences of
      `sep`, scanned left to right; always at least one piece. */
  function Split(s: string, sep: string): (parts: seq<string>)
    requires |sep| > 0
    ensures |parts| >= 1
    decreases |s|
  {
    match IndexOfFrom(s, sep, 0)
    case None => [s]
    case Some(k) => [s[..k]] + Split(s[k + |sep|..], sep)
  }

  /** A string that never contains the separator's first character is left in
      one piece. */
  lemma SplitWithoutSeparator(s: string, sep: string)
    requires |sep| > 0
    requires forall k :: 0 <= k < |s| ==> s[k] != sep[0]
    ensures Split(s, sep) == [s]
  {
    var r := IndexOfFrom(s, sep, 0);
  }

  /** A first piece free of the separator's first character is split off
      exactly where the separator follows it. */
  lemma SplitAfterPiece(a: string, sep: string, b: string)
    requires |sep| > 0
    requires forall k :: 0 <= k < |a| ==> a[k] != sep[0]
    ensures Split(a + sep + b, sep) == [a] + Split(b, sep)
  {
    var s := a + sep + b;
    assert MatchAt(s, sep, |a|) by {
      assert s[|a|..|a| + |sep|] == sep;
    }
    forall k | 0 <= k < |a|
      ensures !MatchAt(s, sep, k)
    {
      assert s[k] == a[k];
      assert k + |sep| <= |s| ==> s[k..k + |sep|][0] == s[k];
    }
    var r := IndexOfFrom(s, sep, 0);
    assert r.Some?;
    assert r.value == |a|;
    assert s[..|a|] == a;
    assert s[|a| + |sep|..] == b;
  }

  /** Joining pieces that avoid the separator's first character and splitting
      again gives the pieces back. */
  lemma {:induction false} SplitOfJoin(parts: seq<string>, sep: string)
    requires |sep| > 0
    requires |parts| >= 1
    requires forall i, k :: 0 <= i < |parts| && 0 <= k < |parts[i]| ==> parts[i][k] != sep[0]
    ensures Split(Join(parts, sep), sep) == parts
    decreases |parts|
  {
    if |parts| == 1 {
      SplitWithoutSeparator(parts[0], sep);
    } else {
      SplitAfterPiece(parts[0], sep, Join(parts[1..], sep));
      SplitOfJoin(parts[1..], sep);
    }
  }

  /** With a one-character separator, the last piece is whatever follows the
      last separator: a path's final component. */
  lemma {:induction false} LastPieceAfterSeparator(a: string, c: char, b: string)
    requires c !in b
    ensures Split(a + [c] + b, [c])[|Split(a + [c] + b, [c])| - 1] == b
    decreases |a|
  {
    var s := a + [c] + b;
    assert MatchAt(s, [c], |a|) by {
      assert s[|a|..|a| + 1] == [c];
    }
    var r := IndexOfFrom(s, [c], 0);
    var k := r.value;
    assert s[k..k + 1] == [c];
    if k < |a| {
      assert s[k + 1..] == a[k + 1..] + [c] + b;
      LastPieceAfterSeparator(a[k + 1..], c, b);
    } else {
      assert s[k + 1..] == b;
      SplitWithoutSeparator(b, [c]);
    }
  }

  // ---------------------------------------------------------------------
  // Decimal integers

  predicate IsDigit(c: char) {
    '0' <= c <= '9'
  }

  predicate AllDigits(s: string) {
    forall k :: 0 <= k < |s| ==> IsDigit(s[k])
  }

  function DigitValue(c: char): (d: nat)
    requires IsDigit(c)
    ensures d < 10
  {
    (c as int - '0' as int) as nat
  }

  function DigitChar(d: nat): (c: char)
    requires d < 10
    ensures IsDigit(c) && DigitValue(c) == d
  {
    ('0' as int + d) as char
  }

  /** Value of a string of decimal digits, most significant first. */
  function DigitsValue(s: string): nat
    requires AllDigits(s)
  {
    if |s| == 0 then 0 else DigitsValue(s[..|s| - 1]) * 10 + DigitValue(s[|s| - 1])
  }

  /** The decimal spelling of a natural number, without leading zeros. */
  function ShowNat(n: nat): (s: string)
    ensures |s| > 0 && AllDigits(s)
  {
    if n < 10 then [DigitChar(n)] else ShowNat(n / 10) + [DigitChar(n % 10)]
  }

  /** `int(s)` on a piece of a header line's third token, and on the
      cycle-number piece of a file name: an optional sign followed by ASCII
      decimal digits. Python's `int` also accepts underscores between
      digits, surrounding whitespace and non-ASCII decimal digits; those are
      rejected here (see the README). */
  function ParseInt(s: string): (r: Option<int>)
    ensures r.Some? ==> |s| > 0
  {
    if |s| > 0 && (s[0] == '-' || s[0] == '+') then
      if |s| > 1 && AllDigits(s[1..]) then
        var magnitude: int := DigitsValue(s[1..]);
        Some(if s[0] == '-' then -magnitude else magnitude)
      else None
    else if |s| > 0 && AllDigits(s) then Some(DigitsValue(s))
    else None
  }

  lemma {:induction false} ShowNatRoundTrip(n: nat)
    ensures DigitsValue(ShowNat(n)) == n
  {
    if n >= 10 {
      var s := ShowNat(n);
      assert s[..|s| - 1] == ShowNat(n / 10);
      ShowNatRoundTrip(n / 10);
    }
  }

  /** `int()` reads back what `ShowNat` writes. */
  lemma ParseShowNat(n: nat)
    ensures ParseInt(ShowNat(n)) == Some(n)
  {
    ShowNatRoundTrip(n);
  }
}
